=== FILE: README.md ===
# Homography frame filter: a Dafny model

This project models the part of the sparse-reconstruction pipeline that picks
a sparse, well-separated set of video frames before reconstruction. It also
covers the small helpers around it.

- **Frame list.** `ImageReader` lists a source's frames: the `*.jpg` files of
  a directory, or the members of a tar archive whose names contain both
  `frame_` and `.jpg`, sorted.
- **Caches.** Four memoizing caches (`Images`, `Features`, `Matches`,
  `Homographies`) compute each frame's SIFT features, each pair's ratio-tested
  matches and each pair's RANSAC homography once.
- **Overlap.** `calc_overlap` projects the first frame's corners into the
  second frame, clips the quadrilateral to the frame (`bound_polygon`) and
  divides its shoelace area (`polygon_area`) by the frame's area.
- **Scan.** `calc_graph` scans the frames greedily. From an anchor it probes
  the following frames. The first frame whose overlap with the anchor falls
  below the threshold is recorded as an edge and becomes the next anchor.
  Frames in between are redundant. With `clear_cache` on, everything cached
  for the anchor window is deleted after each cut.
- **Output.** `graph2fpaths` turns the edges into the kept frames. The main
  block of `filter.py` writes their base names, one per line.
- **Utilities** (`utils/lib.py`): reading such a list back
  (`read_lines_from_file`) and keeping the largest of several
  reconstructions (`keep_model_with_largest_images`).
- **Reconstruction models** (`utils/base_type.py`): ordered image access of
  `ColmapModel` and `JsonColmapModel`.
- **Line projection** (`tools/project_3d_line.py`): clipping a projected 3D
  line against the image frame (`line_rectangle_check`, and the
  exactly-two-intersections rule of `project_line_image`).

## Modelling choices

- **Vision calls.** OpenCV's image decoding, SIFT detection, FLANN matching,
  homography estimation and perspective transform are the fields of a
  `Caches.Backend` value: arbitrary total functions. Every property below
  holds for every backend.
- **Cache state.** The four dicts and `Images.im_size` form one `Caches.Caches`
  value that each lookup takes and returns. `Coherent` says every cached value
  equals what the backend would compute afresh. `FreshOverlap` is the overlap
  computed without any cache.
- **Python errors.** A raised `IndexError`, `KeyError`, a load failure and the
  "unknown source" exit are `Failure` values of `Wrappers.Result`.
- **Greedy rule.** `Selection.Greedy` is a recursive reference definition of
  the greedy rule over an abstract overlap oracle. `Selection.IsGreedy` is its
  independent characterisation. The loop methods (`CalcGraph`,
  `ScanFromAnchor`, `ProbeOnce`, `RecordCut`) are proved to produce exactly
  the greedy edges when the caches start empty with `clear_cache` on (the
  setting the filter uses), or otherwise coherent with nothing decoded after
  the first anchor (`Selection.ScanReady`).
- **Dicts** of the reconstruction models are sequences of key/value entries
  with distinct keys (`ColmapModels.IsDict`), in Python's insertion order.
- **Numbers.** Floats are reals. Python's `sorted` on strings is the
  code-point lexicographic order `Ordering.StrLe`.
- **Text.** `str.strip()` strips the Unicode whitespace set of `Text.IsSpace`.
  A file opened with `open(..., 'r')` hands over its text with universal
  newlines: `Text.TranslateNewlines` turns every `"\r\n"` and every lone
  `'\r'` into `'\n'`. `readlines` then splits after each `'\n'`
  (`Text.SplitLines`). Decoding bytes to characters is not modelled.

## Two behaviours of the code worth knowing

The model follows the code in both.

- **Single-frame range.** A range holding one frame does not yield a
  one-frame path. `calc_graph` then records no edge, and `graph2fpaths`
  indexes the first value of an empty dict and raises `IndexError`. The same
  happens when no frame of the range falls below the threshold against the
  first anchor, and when the range reaches past the frame list.
  `Filter.Outcome` and `Selection.GreedyPaths` state this failure.
- **Redundant frames.** Not every frame of the range ends up in the output.
  Each frame is probed once, against the anchor of the moment. The frames
  found redundant between two anchors are dropped, and only the anchors are
  kept. `Selection.IsGreedy` states what is kept, and `Selection.CalcGraph`
  states the order of the probes.

## Model

| member | source | states |
|---|---|---|
| `Wrappers.PyAt` | utils/base_type.py:85 | Python list indexing: non-negative and negative indexes within the length select from the front or the back; any other index is an `IndexError` |
| `Wrappers.PySlice` | utils/base_type.py:87 | Python slicing `s[a:b]`: the length is clamped to the list and the elements are those from `a` on |
| `Ordering.SortBy` | utils/lib.py:26 | `sorted` with a key: the result is ordered by the key and is a permutation of the input |
| `Ordering.Sort` | homography_filter/lib.py:273 | `sorted` of strings: ordered and a permutation of the input |
| `Ordering.SortDistinctStrict` | homography_filter/lib.py:273 | sorting distinct names gives a strictly ascending list, with no name twice |
| `Ordering.StrLeTotal` | homography_filter/lib.py:273 | any two strings are comparable in the order `sorted` uses |
| `Ordering.StrLeAntisymmetric` | homography_filter/lib.py:273 | two strings each at most the other are equal, so sorting is unambiguous |
| `Ordering.StrLeTransitive` | homography_filter/lib.py:273 | the string order is transitive |
| `Text.Strip` | utils/lib.py:23 | `line.strip()`: the result is the input with the leading and the trailing whitespace removed, and neither end of it is whitespace |
| `Text.StripCharacterised` | utils/lib.py:23 | any cut of a line into whitespace, a part with non-space ends, and whitespace gives exactly the stripped line |
| `Text.StripIdempotent` | utils/lib.py:23 | stripping twice is stripping once |
| `Text.TranslateNewlines` | utils/lib.py:19 | the text-mode translation leaves no `'\r'` and never lengthens the text |
| `Text.TranslateNewlinesIdentity` | utils/lib.py:19 | a text without `'\r'` is handed over unchanged |
| `Text.TranslateNewlinesIdempotent` | utils/lib.py:19 | translating twice is translating once |
| `Text.TranslateLineEnd` | utils/lib.py:19 | a line ended by `"\n"`, `"\r"` or `"\r\n"` is handed over as the line and one `'\n'` |
| `Text.SplitLines` | utils/lib.py:20 | `readlines` on translated text; its contract is stated by `Text.SplitLinesConcat`, `Text.SplitLinesOfConcat` and `Text.SplitLinesChars` |
| `Text.SplitLinesConcat` | utils/lib.py:20 | `readlines` on the translated text: the lines joined give the text back; every line but the last ends in its only newline; no line is empty |
| `Text.SplitLinesOfConcat` | utils/lib.py:20 | `readlines` on a text made of newline-terminated lines gives those lines back |
| `Text.SplitLinesChars` | utils/lib.py:20 | every character of a line comes from the text, and a line holds a newline only at its end |
| `Text.ContainsOffset` | homography_filter/lib.py:277 | the `in` substring test holds exactly when the pattern occurs at some offset |
| `Text.Basename` | homography_filter/filter.py:41 | `os.path.basename`: the part after the last `/`, with no `/` in it |
| `Text.Join` | homography_filter/lib.py:273 | `os.path.join` of two components: a relative name ends the joined path; the base name is given by `Text.BasenameOfJoin` |
| `Text.StripTrailingSlashes` | homography_filter/lib.py:273 | `rstrip('/')` inside `os.path.split`: a prefix of the input whose removed tail is all slashes and which does not itself end in `/` |
| `Text.SplitHead` | homography_filter/lib.py:273 | the head of `os.path.split` inside `glob`: a prefix of the path; its value for the `*.jpg` pattern is given by `ImageReader.PatternHead` |
| `Text.BasenameOfJoin` | homography_filter/lib.py:273 | the base name of a directory joined with a slash-free name is that name |
| `ImageReader.Filter` | homography_filter/lib.py:277 | a list comprehension with a condition: each element that passes the test is kept as often as it occurs, and no other element is kept |
| `ImageReader.GlobDir` | homography_filter/lib.py:273 | the directory `glob` joins its matches to: the source path, with repeated trailing slashes collapsed (`d//` lists `d/a.jpg`) unless the path holds slashes only; a path not ending in `/` is kept as is |
| `ImageReader.PatternHead` | homography_filter/lib.py:273 | the head of `os.path.split` of the `*.jpg` pattern is the source path with trailing slashes stripped, unless it holds slashes only |
| `ImageReader.SplitHeadOfJoin` | homography_filter/lib.py:273 | splitting a directory joined with any slash-free name gives the directory back, trailing slashes stripped unless it holds slashes only |
| `ImageReader.DirectoryFrames` | homography_filter/lib.py:273 | a directory's frames: sorted, and a permutation of its `*.jpg` entries (hidden files excluded) joined to the given directory part |
| `ImageReader.TarFrames` | homography_filter/lib.py:276 | an archive's frames: sorted, and a permutation of its members containing `frame_` and `.jpg`, each as often as the archive lists it |
| `ImageReader.FramePaths` | homography_filter/lib.py:264-280 | the frame list: a directory gives a sorted permutation of its `*.jpg` entries (hidden files excluded) joined to `GlobDir` of the path; a `.tar` file gives a sorted permutation of its members containing `frame_` and `.jpg`; any other source is `UnsupportedSource` |
| `ImageReader.HasTarExtension` | homography_filter/lib.py:274 | `os.path.splitext(src)[1] == '.tar'`; what it admits is stated by `ImageReader.FramePaths` (failure exactly for a source that is neither a directory nor a regular file with this extension) |
| `ImageReader.DirectoryFramesDistinct` | homography_filter/lib.py:273 | a directory's frame list has no frame twice and ascends strictly |
| `ImageReader.JoinedFramesDistinct` | homography_filter/lib.py:273 | distinct slash-free entries joined to any directory part give strictly ascending frames |
| `ImageReader.FilterDistinct` | homography_filter/lib.py:277 | filtering a list without repeats keeps it without repeats |
| `Geometry.Clip` | homography_filter/lib.py:224-225 | `np.clip`: values inside the bounds are kept, smaller ones go to the lower bound, larger ones to the upper |
| `Geometry.BoundPolygon` | homography_filter/lib.py:222-226 | every corner ends inside the image box; corners already inside are unchanged |
| `Geometry.BoundPolygonIdempotent` | homography_filter/lib.py:222-226 | bounding an already bounded polygon changes nothing |
| `Geometry.BoundPolygonMovesOutsidePoints` | homography_filter/lib.py:222-226 | a corner outside the image is moved onto the image's border |
| `Geometry.Corners` | homography_filter/lib.py:129-131 | four points starting at the origin, with the far pixel centre `(w-1, h-1)` third, traversed as a rectangle whose first edge runs along `x = 0`; for a non-empty frame every corner lies inside it |
| `Geometry.Roll` | homography_filter/lib.py:230 | `np.roll(s, 1)`: the last element comes first and the rest shift by one |
| `Geometry.PolygonArea` | homography_filter/lib.py:229-230 | the shoelace area is never negative |
| `Geometry.PolygonAreaSymmetric` | homography_filter/lib.py:229-230 | swapping the x and y columns does not change the area, so the call with `(y, x)` in `calc_overlap` measures the same polygon |
| `Geometry.RectangleArea` | homography_filter/lib.py:229-230 | the shoelace formula gives `w * h` for an axis-aligned `w` by `h` rectangle |
| `Geometry.OverlapRatio` | homography_filter/lib.py:156-159 | the overlap ratio is never negative; `Geometry.IdentityOverlap` gives its value for a frame projected onto itself |
| `Geometry.IdentityOverlap` | homography_filter/lib.py:129-159 | for every frame size, projecting the corners onto themselves gives the ratio `(w-1)(h-1)/(w h)`: the corners stay inside the frame, the clamp leaves them, and their area is that of the pixel-centre rectangle |
| `Caches.RatioTest` | homography_filter/lib.py:75-79 | Lowe's ratio test: a best match is kept exactly when it is closer than 0.7 times the second best; nothing else is kept |
| `Caches.RatioTestAppend` | homography_filter/lib.py:76-78 | the test looks at each pair on its own, in order |
| `Caches.RatioTestSingle` | homography_filter/lib.py:77-78 | one pair contributes its best match exactly when it passes the ratio |
| `Caches.MatchFeatures` | homography_filter/lib.py:62-81 | at most 8 keypoints in the first frame, or a matcher error, give no matches; otherwise the ratio-tested k=2 nearest neighbours |
| `Caches.EstimateHomography` | homography_filter/lib.py:99-112 | at most 10 good matches give `(None, None)`; more are handed to the RANSAC estimate |
| `Caches.Project` | homography_filter/lib.py:132 | `perspectiveTransform` maps each corner to one point |
| `Caches.GetImage` | homography_filter/lib.py:29-34 | `Images[k]`: a hit returns the stored image and changes nothing; a miss decodes, stores and sets `im_size`; other caches untouched |
| `Caches.GetFeatures` | homography_filter/lib.py:43-48 | `Features[k]`: hit or miss, the image and feature keys grow by `k` only; a miss on a coherent cache stores the fresh features |
| `Caches.GetMatches` | homography_filter/lib.py:62-81 | `Matches[k]`: a hit returns the stored list unchanged; a miss adds the pair and at most its two frames |
| `Caches.GetHomography` | homography_filter/lib.py:94-113 | `Homographies[k]`: features, matches and the second image are always looked up first, so their keys grow even on a hit; a hit returns the stored homography |
| `Caches.GetMatchesFresh` | homography_filter/lib.py:62-81 | on a coherent cache the matches equal those computed without caches, and the cache stays coherent |
| `Caches.GetHomographyFresh` | homography_filter/lib.py:94-113 | on a coherent cache the homography equals the one computed without caches |
| `Caches.StoreMatchesCoherent` | homography_filter/lib.py:79 | storing freshly computed matches keeps the cache coherent |
| `Caches.StoreHomographyCoherent` | homography_filter/lib.py:108-112 | storing a freshly estimated homography keeps the cache coherent |
| `Caches.CalcOverlap` | homography_filter/lib.py:115-161 | the overlap is never negative; the pair and both frames are now cached; an undetermined homography gives overlap 0 and no matches |
| `Caches.CalcOverlapIsFresh` | homography_filter/lib.py:115-161 | when the second frame is not yet decoded, the cached computation gives the same overlap as the cache-free one; in particular `im_size` is the second frame's shape |
| `Caches.LookupChainFresh` | homography_filter/lib.py:118-122 | the chain of lookups in `calc_overlap` yields the fresh homography and leaves `im_size` at the second frame's shape |
| `Caches.CalcOverlapCoherent` | homography_filter/lib.py:115-161 | `calc_overlap` keeps a coherent cache coherent |
| `Caches.FewMatchesMeanNoOverlap` | homography_filter/lib.py:100-125 | with at most 10 good matches the homography is undetermined and the overlap is 0 with no matches |
| `Caches.SparseFrameHasNoOverlap` | homography_filter/lib.py:66-73 | a first frame with at most 8 keypoints has no matches and overlap 0 with any frame |
| `Caches.LookupTwiceIsHit` | homography_filter/lib.py:94-113 | a second lookup of the same key is a hit that returns the first answer and changes nothing |
| `Selection.RangeMax` | homography_filter/lib.py:177-178 | an absent `frame_range_max` means the number of frames |
| `Selection.Del` | homography_filter/lib.py:199-206 | `del d[k]` removes exactly `k`, and is a `KeyError` when `k` is absent |
| `Selection.GraphToPaths` | homography_filter/lib.py:214-219 | the kept frames are the first edge's source, then every edge's target, in insertion order; no edge is an `IndexError` |
| `Selection.Evict` | homography_filter/lib.py:196-206 | the `clear_cache` deletions; stated by `Selection.EvictKeepsValid` and `Selection.EvictEmptiesWindow` |
| `Selection.EvictTargets` | homography_filter/lib.py:201-206 | the deletion loop over the cut's targets; stated by `Selection.EvictTargetsShrinks` |
| `Selection.EvictTargetsShrinks` | homography_filter/lib.py:201-206 | the deletion loop only removes keys and keeps every other stored value |
| `Selection.EvictKeepsValid` | homography_filter/lib.py:196-206 | the deletions after a cut keep the image and feature caches in step |
| `Selection.EvictEmptiesWindow` | homography_filter/lib.py:196-206 | after a cut, the deletions find every key they delete (no `KeyError`) and leave all four caches empty |
| `Selection.FirstCut` | homography_filter/lib.py:184-209 | the first position of the range at or after `j` below the threshold against anchor `i`, if any |
| `Selection.FirstCutIsFirst` | homography_filter/lib.py:184-209 | the position found is below the threshold and every earlier one is not; no position means none is below |
| `Selection.Greedy` | homography_filter/lib.py:182-209 | the reference greedy rule: every cut goes forward from an anchor at or after the start to a position before the range end |
| `Selection.Continue` | homography_filter/lib.py:184-209 | the greedy cuts once the first candidates of an anchor are known redundant stay inside the range |
| `Selection.GreedyIsGreedy` | homography_filter/lib.py:182-209 | the cuts chain anchor to anchor; each cut is below the threshold; every frame skipped before it is at or above; after the last anchor nothing is below |
| `Selection.ContinueIsGreedy` | homography_filter/lib.py:184-209 | the same characterisation once part of an anchor's candidates are known redundant |
| `Selection.GreedyLocal` | homography_filter/lib.py:182-209 | the greedy cuts depend only on the overlaps inside the range |
| `Selection.EdgesOf` | homography_filter/lib.py:195 | each cut `(i, j)` is recorded as the pair of frames at positions `i` and `j` |
| `Selection.MeasureOverlap` | homography_filter/lib.py:186-191 | one probe caches the pair and both frames, and on a coherent cache with an unseen target returns the fresh overlap |
| `Selection.ProbeStep` | homography_filter/lib.py:186-192 | during the scan every probe's overlap is the cache-free overlap of its two positions |
| `Selection.CutStep` | homography_filter/lib.py:192-208 | a probe below the threshold records its edge and restarts the greedy rule from the new anchor |
| `Selection.SkipStep` | homography_filter/lib.py:209 | a probe at or above the threshold moves on to the next candidate without recording anything |
| `Selection.RecordCut` | homography_filter/lib.py:192-208 | recording a cut appends exactly one edge, clears the caches when `clear_cache` is on and leaves them alone otherwise |
| `Selection.ProbesGoForward` | homography_filter/lib.py:183-209 | every probe pairs its anchor with a later frame |
| `Selection.ProbeAppend` | homography_filter/lib.py:185-209 | one more probe, of the current anchor and the next successor, keeps the probes in order; a cut moves the anchor to the probed frame |
| `Selection.SafeStep` | homography_filter/lib.py:186-191 | on distinct frames a probe adds only the probed frame and pair to the anchor's window, so nothing from the next successor on is cached |
| `Selection.ProbeOnce` | homography_filter/lib.py:184-209 | one probe of the next successor from the current anchor: a position past the frame list is an `IndexError`; otherwise it reports a cut exactly when the overlap is below the threshold, and a cut makes the probed frame the anchor; on distinct frames with the window cached no other error occurs |
| `Selection.ScanFromAnchor` | homography_filter/lib.py:183-209 | the inner loop: the successors are probed one by one in increasing order from the same anchor; it ends at the next anchor, or at the range end with exactly the greedy edges recorded; on distinct frames with nothing cached beyond the anchor the only error is `IndexError` |
| `Selection.CalcGraph` | homography_filter/lib.py:163-211 | every successor of the first anchor inside the range is probed exactly once, in increasing order, against the anchor current at that point, so the probes number `max - min - 1` when that is positive (the progress bar's total); on distinct frames, a range inside the list and caches that are empty when `clear_cache` is on, or otherwise coherent with nothing decoded after the first anchor, the recorded edges are exactly the greedy rule's cuts under the cache-free overlap; a range reaching past the list never succeeds, and on distinct frames with nothing cached its error is `IndexError` |
| `Selection.Positions` | homography_filter/lib.py:216-218 | the kept positions: the first anchor, then each cut's target |
| `Selection.GreedyPaths` | homography_filter/lib.py:214-219 | `graph2fpaths` of the greedy edges: `IndexError` exactly when no frame of the range falls below the threshold against the first anchor; otherwise the frames at strictly ascending positions inside the range |
| `Filter.MakeHomographyLoader` | homography_filter/filter.py:14-22 | the loader holds the source's frame list with all caches empty; an unknown source stops the program |
| `Filter.LoaderIsReady` | homography_filter/filter.py:14-22 | a fresh loader over distinct frames with the range inside the list meets everything the scan needs |
| `Filter.Basenames` | homography_filter/filter.py:41 | one base name per kept path, in order |
| `Filter.SelectFrames` | homography_filter/filter.py:38-40 | `calc_graph` then `graph2fpaths` on distinct frames: the first anchor and every greedy cut target, or `IndexError` when nothing falls below the threshold or the range reaches past the list |
| `Filter.SelectionLines` | homography_filter/filter.py:38-41 | the lines are the kept frames' base names each followed by a newline, or the `IndexError` above |
| `Filter.RunFilter` | homography_filter/filter.py:36-46 | the main block up to `writelines`: an unknown source fails; on distinct frames the written lines are those of the greedy selection under the command-line threshold and range, or `IndexError` when nothing falls below the threshold or the range reaches past the list |
| `Filter.WrittenSelectionReadsBack` | homography_filter/filter.py:41-46 | reading the written file with `read_lines_from_file` gives back the kept base names when they are plain names |
| `Filter.DirectoryLinesNameEntries` | homography_filter/filter.py:41 | for a directory source every written name is a `.jpg` entry of that directory |
| `Filter.DirectorySelectable` | homography_filter/lib.py:273 | a directory of distinct entries with an unbounded range always meets the scan's assumptions |
| `Utils.ReadLinesFromFile` | utils/lib.py:12-23 | one entry per line of the file, where `"\r\n"`, `"\r"` and `"\n"` each end a line; each entry is stripped of surrounding whitespace and holds no line break |
| `Utils.WrittenLines` | homography_filter/filter.py:41 | each name followed by a newline, in order |
| `Utils.ReadBackWrittenLines` | utils/lib.py:19-23 | writing plain names one per line and reading them back gives the names again |
| `Utils.TranslateEndedLines` | utils/lib.py:19 | plain names ended by any mix of `"\n"`, `"\r"` and `"\r\n"` are handed over as the names ended by `"\n"` |
| `Utils.ReadBackAnyLineEnding` | utils/lib.py:19-23 | a file of plain names, one per line, reads back as the names whatever line ending each line has |
| `Utils.Removals` | utils/lib.py:39-41 | every model other than the kept one is removed, and the kept one never is |
| `Utils.LargestModel` | utils/lib.py:33-37 | the chosen model has the most images, ties going to the first; any model that fails to load is a `LoadError` |
| `Utils.ChosenIsUnique` | utils/lib.py:33-37 | the largest-model choice is unique |
| `Utils.KeepLargest` | utils/lib.py:27-43 | on the sorted model list: no models, or a first model that fails to load, returns 0 and touches nothing; with several models, removes all but the largest and renames it to `0` |
| `Utils.KeepModelWithLargestImages` | utils/lib.py:25-43 | the same on the directory's entries sorted by path; a later model that fails to load raises |
| `Utils.RemovalsLeaveKept` | utils/lib.py:39-41 | after the removals only the kept model's directory remains |
| `Utils.KeepLeavesOneModel` | utils/lib.py:32-42 | with several models, exactly one directory remains afterwards: `<root>/0` |
| `Utils.KeepSingleModelUntouched` | utils/lib.py:31-43 | a single model is left where it is and its image count is returned |
| `ColmapModels.Lookup` | utils/base_type.py:59-60 | `d[k]`: the value stored under `k`, or a `KeyError` exactly when `k` is absent |
| `ColmapModels.LookupItem` | utils/base_type.py:45 | in a dict, looking up a stored key gives its stored value |
| `ColmapModels.MapPermutation` | utils/base_type.py:55-57 | mapping a permutation gives a permutation of the mapped list |
| `ColmapModels.LoadColmapModel` | utils/base_type.py:17-30 | the camera is the one stored under id 1, a missing camera 1 is a `KeyError`, and the warning is printed exactly when there is not exactly one camera |
| `ColmapModels.ExtraCamerasOnlyWarn` | utils/base_type.py:24-26 | with camera 1 present, extra cameras only warn and camera 1 is used |
| `ColmapModels.NumImages` | utils/base_type.py:51-53 | `len(self.images)`; `ColmapModels.OrderedImageIds` and `ColmapModels.OrderedImages` return exactly this many entries |
| `ColmapModels.OrderedImageIds` | utils/base_type.py:43-45 | a permutation of the image ids, one per image |
| `ColmapModels.OrderedImagesSorted` | utils/base_type.py:51-57 | the ordered images ascend by name, one per image, and are a permutation of the stored images |
| `ColmapModels.GetImageById` | utils/base_type.py:59-60 | the image stored under the id, or a `KeyError` exactly when there is none |
| `ColmapModels.OrderedImages` | utils/base_type.py:55-57 | one image per stored image; which image sits at each position is stated by `ColmapModels.OrderedImagesMatchIds` and `ColmapModels.OrderedImagesSorted` |
| `ColmapModels.OrderedImagesMatchIds` | utils/base_type.py:55-60 | the k-th ordered image is the image stored under the k-th ordered id |
| `ColmapModels.LoadJsonModel` | utils/base_type.py:64-74 | one row per image, each ending with the frame name |
| `ColmapModels.JsonRowAt` | utils/base_type.py:72-74 | row k is the pose of the k-th name in sorted order followed by that name |
| `ColmapModels.JsonRowsAscend` | utils/base_type.py:72-74 | the rows ascend strictly by name and each comes from a stored image |
| `ColmapModels.JsonItemsHaveRows` | utils/base_type.py:72-74 | every stored image has its row |
| `ColmapModels.JsonOrderedImageIds` | utils/base_type.py:76-78 | the ids are `0 .. n-1` |
| `ColmapModels.JsonGetImageById` | utils/base_type.py:84-89 | the row at the id (negative ids count from the back) split into `qvec`, `tvec` and name, camera 0 and no points; an out-of-range id or a row shorter than 8 cells is an `IndexError` |
| `ColmapModels.JsonImageRoundTrip` | utils/base_type.py:64-89 | for 7-number poses, image k carries the k-th name in sorted order and that image's quaternion and translation |
| `ColmapModels.JsonOrderedImages` | utils/base_type.py:80-82 | the images for ids `0 .. n-1`, each what `get_image_by_id` returns, and an `IndexError` exactly when some row is too short |
| `LineProjection.RectLoop` | tools/project_3d_line.py:81-84 | the corner loop is closed: five points, the last repeating the first |
| `LineProjection.HitSides` | tools/project_3d_line.py:88-96 | the sides met, in loop order, each exactly once: a side is listed exactly when the line meets it |
| `LineProjection.LineRectangleCheck` | tools/project_3d_line.py:66-100 | the count equals the number of points returned, at most four |
| `LineProjection.IntersectionsBySide` | tools/project_3d_line.py:86-99 | a side contributes exactly when it is not within `eps` of parallel and the meeting point's parameter lies in `[0, 1]`; the points come side by side in loop order |
| `LineProjection.ParallelSidesSkipped` | tools/project_3d_line.py:89-92 | a side within `eps` of parallel to the line never contributes |
| `LineProjection.SidePointOnLine` | tools/project_3d_line.py:86-98 | a meeting point lies on the line |
| `LineProjection.SidePointInRect` | tools/project_3d_line.py:95-98 | on an ordered rectangle a meeting point lies inside it |
| `LineProjection.IntersectionsOnLineInRect` | tools/project_3d_line.py:95-99 | every returned point lies on the line and inside an ordered rectangle |
| `LineProjection.ProjectLineImage` | tools/project_3d_line.py:139-144 | the clipping step of `project_line_image`; stated by `LineProjection.ProjectedSegment` |
| `LineProjection.ProjectedSegment` | tools/project_3d_line.py:139-144 | a segment is returned exactly when the line meets two sides of the frame; its ends come from two different sides in loop order and lie on the line inside the frame |

## Left out

- OpenCV itself (image decoding, SIFT, FLANN, RANSAC, `perspectiveTransform`) is the `Caches.Backend` parameter. The model proves nothing about what those calls compute.
- Caches.CalcOverlap: never fails in the model, because the backend's `read` always yields an image with a positive height and width. The program has two error paths here that are not modelled. First, a single-channel JPEG read through `images_rgb` (whose flag is `IMREAD_UNCHANGED`) becomes an `(h, 3)` array after the channel swap at lib.py:296, and `h, w, c = img1.shape` (line 121) raises `ValueError`. Second, an unreadable frame makes `imread` or `imdecode` return `None`, and lines 33 and 296 raise. `Selection.CalcGraph` loses both errors with it.
- Image pixels, resizing by `scale`, BGR-to-RGB channel swapping, the second `images_rgb` reader and reading tar members into bytes are not modelled. A frame is the backend's `read` of its path.
- The progress bar, the `print` calls, the debug drawing of matches (`is_debug`, `vis`, `with_warp`, `draw_matches`, `return_im_matches`) and `graph['im_matches']` are left out. They do not affect the kept frames.
- Writing the destination file, creating its directory, `save`, `extract_frames`, `save_as_video`, `write_mp4` and `tar2bytearr` are I/O. `RunFilter` yields the lines handed to `writelines`.
- Caches.MatchFeatures: every row `knnMatch` returns is taken to hold two candidates. A shorter row makes `for m, n in matches` (line 76) raise `ValueError`; that error is not modelled.
- ImageReader.GlobDir: the source path is read literally apart from its trailing slashes. `glob` reads `*`, `?` and `[` in the path as pattern characters, so a source such as `run[1]` lists the frames of `run1`; the listing of another directory is not an input of the model, so such paths are not modelled.
- ImageReader.DirectoryFrames: a source path holding `*`, `?` or `[` is joined literally; the frames `glob` would take from the directories that path matches are not modelled.
- ImageReader.FramePaths: for a directory whose path holds `*`, `?` or `[` the frame list is not the program's; see `ImageReader.GlobDir`.
- Filter.DirectoryLinesNameEntries: stated for the directory's own entries; for a source path holding `*`, `?` or `[` the program's names come from the directories that path matches, which is not modelled.
- Filter.SelectFrames: the outcome is stated for distinct frames only. With a frame listed twice (possible only for a tar archive) no outcome is stated; see `Filter.RunFilter`.
- Filter.SelectionLines: the lines are stated for distinct frames only, for the same reason as `Filter.SelectFrames`.
- Filter.RunFilter: a negative `--frame_range_min` (argparse accepts any `int`) cannot be expressed: `Args.frameRangeMin` is a natural number, as under `Selection.CalcGraph`.
- Filter.RunFilter: the outcome is stated for distinct frames only. A tar archive listing a frame member twice gets no stated outcome: the repeated frame is already cached when probed again, and a later `del` can miss its key (`KeyError`).
- `cv2.setRNGSeed(0)` is not modelled. The backend is a fixed function, which is the determinism the seed buys.
- Selection.CalcGraph: `frame_range_min` is a natural number. Python's negative-index reading of a negative minimum is not modelled.
- Utils.KeepModelWithLargestImages: `pycolmap.Reconstruction` and `glob` are inputs. The listed model directories come with their image counts, or none when a model fails to load. The removals and the rename are returned as a list of operations, not performed.
- `run_script` (utils/lib.py:46-49) only hands a command to `subprocess.call`. It is left out as process I/O.
- ColmapModels.LoadColmapModel: the binary readers of `cameras.bin`, `points3D.bin` and `images.bin` are not modelled. Their dicts are inputs.
- ColmapModels.LoadJsonModel: reading the JSON file is left out; the dict's `images` entry is the input. `camera` and `points` are carried by neither JSON function.
- ColmapModels.OrderedImagesSorted: the stability of `sorted` (the order among images with the same name) is not stated.
- `ColmapModel.example_data`, `num_points`, `__repr__` and `Line.check_points` are not part of this model.
- LineProjection.LineRectangleCheck: the float32 rounding of `rect_loop` is not modelled; coordinates are exact reals.
- LineProjection.ProjectLineImage: `qvec2rotmat` lives in `tools/common_functions.py`, which is not part of this model. So the camera transform and the pinhole projection before the clipping are left out. The function takes the projected centre and direction on the image plane.
- LineProjection.SideParam: a zero divisor that passes `abs(divisor) > eps` (only possible for a negative `eps`) makes numpy produce an infinity or NaN. It is modelled as -1, which likewise never lies in `[0, 1]`.
- Floating-point rounding is not modelled anywhere. Overlaps, distances and coordinates are reals.

=== FILE: caches.dfy ===
/** The memoizing caches of homography_filter/lib.py: `Images`, `Features`,
    `Matches` and `Homographies` are dicts that compute a value on a missing
    key and return the stored value otherwise, chained so that each one pulls
    from the one below it. `calc_overlap` turns a pair's homography into the
    overlap ratio of the `Geometry` module.

    The vision calls (image decoding, SIFT, FLANN k-nearest-neighbour
    matching, RANSAC homography estimation, perspective transform) are the
    fields of a `Backend`: total functions this model knows nothing about.
    The state of all four dicts, plus `Images.im_size`, is one `Caches`
    value that every lookup takes and returns. */
module Caches {
  import opened Wrappers
  import opened Geometry

  type FrameId = string

  /** A tuple key `(k[0], k[1])` of the pairwise caches. */
  datatype Pair = Pair(src: FrameId, dst: FrameId)

  type Pos = n: nat | 0 < n witness 1

  /** A decoded frame: its shape and its pixels. */
  datatype Image = Image(height: Pos, width: Pos, pixels: seq<int>) {
    function Shape(): Shape {
      Geometry.Shape(height, width)
    }
  }

  datatype KeyPoint = KeyPoint(pt: Point)

  /** `(kp, des)` as `detectAndCompute` returns them. */
  datatype FeatureSet = FeatureSet(keypoints: seq<KeyPoint>, descriptors: seq<seq<real>>)

  /** An OpenCV `DMatch`. */
  datatype DMatch = DMatch(queryIdx: int, trainIdx: int, distance: real)

  /** One row `(m, n)` of a `knnMatch(..., k=2)` answer: the best and the
      second-best candidate. */
  datatype KnnPair = KnnPair(best: DMatch, second: DMatch)

  /** What `knnMatch` does: answer, or raise `cv.error`. */
  datatype KnnOutcome = KnnOk(pairs: seq<KnnPair>) | KnnError

  /** A 3x3 matrix, row-major; only the backend interprets it. */
  datatype Matrix = Matrix(entries: seq<real>)

  /** `(M, mask)`, or `(None, None)`. */
  datatype Homography = Undetermined | Estimated(m: Matrix, inlierMask: seq<bool>)

  datatype Backend = Backend(
    read: FrameId -> Image,                                                 // ImageReader[k]
    detect: Image -> FeatureSet,                                            // sift.detectAndCompute
    knn: (FeatureSet, FeatureSet) -> KnnOutcome,                            // matcher.knnMatch(des1, des2, k=2)
    estimate: (seq<KeyPoint>, seq<KeyPoint>, seq<DMatch>) -> Homography,    // findHomography(src, dst, RANSAC, 5.0)
    transform: (Matrix, Point) -> Point                                     // perspectiveTransform, point by point
  )

  /** The four dicts and `Images.im_size`, the shape of the image most
      recently decoded on a miss. */
  datatype Caches = Caches(
    images: map<FrameId, Image>,
    imSize: Option<Shape>,
    features: map<FrameId, FeatureSet>,
    matches: map<Pair, seq<DMatch>>,
    homographies: map<Pair, Homography>)

  /** `len(kp1) > 8` is needed before matching. */
  const MinKeypoints: nat := 8
  /** Lowe's ratio. */
  const Ratio: real := 0.7
  /** `min_match_count`: more matches than this are needed for a homography. */
  const MinMatchCount: nat := 10

  const Empty := Caches(map[], None, map[], map[], map[])

  /** What the dicts of one loader always satisfy: every frame with an image
      has features and vice versa, and `im_size` is set once an image has
      been decoded. */
  ghost predicate Valid(c: Caches) {
    && c.images.Keys == c.features.Keys
    && (c.images != map[] ==> c.imSize.Some?)
    && SizeKnown(c)
  }

  /** `im_size`, once set, is the shape of a decoded image: never empty. */
  ghost predicate SizeKnown(c: Caches) {
    c.imSize.Some? ==> c.imSize.value.height > 0 && c.imSize.value.width > 0
  }

  // ---------------------------------------------------------------------
  // The computations the caches memoize, written without any cache.
  // ---------------------------------------------------------------------

  /** Lowe's test on one knn row. */
  predicate Distinctive(p: KnnPair) {
    p.best.distance < Ratio * p.second.distance
  }

  /** The loop of lines 75-78: the best candidate of every distinctive row,
      in row order. */
  function RatioTest(pairs: seq<KnnPair>): (good: seq<DMatch>)
    ensures |good| <= |pairs|
    ensures forall k :: 0 <= k < |pairs| && Distinctive(pairs[k]) ==> pairs[k].best in good
    ensures forall m :: m in good ==> exists k :: 0 <= k < |pairs| && pairs[k].best == m && Distinctive(pairs[k])
  {
    if |pairs| == 0 then []
    else
      var rest := RatioTest(pairs[1..]);
      assert forall m :: m in rest ==> exists k :: 0 <= k < |pairs| && pairs[k].best == m && Distinctive(pairs[k]) by {
        forall m | m in rest ensures exists k :: 0 <= k < |pairs| && pairs[k].best == m && Distinctive(pairs[k]) {
          var k :| 0 <= k < |pairs[1..]| && pairs[1..][k].best == m && Distinctive(pairs[1..][k]);
          assert pairs[k + 1] == pairs[1..][k];
        }
      }
      assert forall k :: 1 <= k < |pairs| ==> pairs[k] == pairs[1..][k - 1];
      (if Distinctive(pairs[0]) then [pairs[0].best] else []) + rest
  }

  /** Filtering rows one block after another is filtering them together:
      with the one-row case this pins the result down completely, order
      included. */
  lemma {:induction false} RatioTestAppend(a: seq<KnnPair>, b: seq<KnnPair>)
    ensures RatioTest(a + b) == RatioTest(a) + RatioTest(b)
  {
    if |a| > 0 {
      assert (a + b)[1..] == a[1..] + b;
      RatioTestAppend(a[1..], b);
    } else {
      assert a + b == b;
    }
  }

  lemma RatioTestSingle(p: KnnPair)
    ensures RatioTest([p]) == if Distinctive(p) then [p.best] else []
  {
    assert [p][1..] == [];
  }

  /** Lines 64-79 once the two feature sets are known. */
  function MatchFeatures(b: Backend, f1: FeatureSet, f2: FeatureSet): (good: seq<DMatch>)
    ensures |f1.keypoints| <= MinKeypoints ==> good == []
    ensures b.knn(f1, f2).KnnError? ==> good == []
    ensures |f1.keypoints| > MinKeypoints && b.knn(f1, f2).KnnOk? ==> good == RatioTest(b.knn(f1, f2).pairs)
  {
    if |f1.keypoints| > MinKeypoints then
      match b.knn(f1, f2)
      case KnnOk(pairs) => RatioTest(pairs)
      case KnnError => []
    else []
  }

  /** Lines 100-112 once the matches and feature sets are known. */
  function EstimateHomography(b: Backend, f1: FeatureSet, f2: FeatureSet, good: seq<DMatch>): (h: Homography)
    ensures |good| <= MinMatchCount ==> h == Undetermined
    ensures |good| > MinMatchCount ==> h == b.estimate(f1.keypoints, f2.keypoints, good)
  {
    if |good| > MinMatchCount then b.estimate(f1.keypoints, f2.keypoints, good) else Undetermined
  }

  function FreshFeatures(b: Backend, k: FrameId): FeatureSet {
    b.detect(b.read(k))
  }

  function FreshMatches(b: Backend, p: Pair): seq<DMatch> {
    MatchFeatures(b, FreshFeatures(b, p.src), FreshFeatures(b, p.dst))
  }

  function FreshHomography(b: Backend, p: Pair): Homography {
    EstimateHomography(b, FreshFeatures(b, p.src), FreshFeatures(b, p.dst), FreshMatches(b, p))
  }

  /** The source frame's corners carried into the target frame. */
  function Project(b: Backend, m: Matrix, corners: seq<Point>): (r: seq<Point>)
    ensures |r| == |corners|
  {
    seq(|corners|, k requires 0 <= k < |corners| => b.transform(m, corners[k]))
  }

  /** The overlap of `q` by `p`, computed from scratch: 0 without a
      homography, otherwise the clamped footprint of `p`'s corners over the
      pixel area of `q`. */
  function FreshOverlap(b: Backend, p: FrameId, q: FrameId): real {
    match FreshHomography(b, Pair(p, q))
    case Undetermined => 0.0
    case Estimated(m, _) => OverlapRatio(Project(b, m, Corners(b.read(p).Shape())), b.read(q).Shape())
  }

  /** Every stored entry is what a fresh computation would give. */
  ghost predicate Coherent(b: Backend, c: Caches) {
    && (forall x {:trigger c.images[x]} :: x in c.images ==> c.images[x] == b.read(x))
    && (forall x {:trigger c.features[x]} :: x in c.features ==> c.features[x] == FreshFeatures(b, x))
    && (forall p {:trigger c.matches[p]} :: p in c.matches ==> c.matches[p] == FreshMatches(b, p))
    && (forall p {:trigger c.homographies[p]} :: p in c.homographies ==> c.homographies[p] == FreshHomography(b, p))
  }

  // ---------------------------------------------------------------------
  // The lookups, `__getitem__` of each class.
  // ---------------------------------------------------------------------

  datatype Lookup<V> = Lookup(value: V, caches: Caches)

  /** `Images.__getitem__` (lines 29-34). */
  function GetImage(b: Backend, c: Caches, k: FrameId): (r: Lookup<Image>)
    ensures k in r.caches.images && r.caches.images[k] == r.value
    ensures k in c.images ==> r == Lookup(c.images[k], c)
    ensures r.caches.images.Keys == c.images.Keys + {k}
    ensures forall x :: x in c.images ==> r.caches.images[x] == c.images[x]
    ensures k !in c.images ==> r.value == b.read(k) && r.caches.imSize == Some(r.value.Shape())
    ensures r.caches.features == c.features && r.caches.matches == c.matches
    ensures r.caches.homographies == c.homographies
    ensures Coherent(b, c) ==> r.value == b.read(k) && Coherent(b, r.caches)
    ensures (c.images != map[] ==> c.imSize.Some?) ==> r.caches.imSize.Some?
    ensures SizeKnown(c) ==> SizeKnown(r.caches)
  {
    if k in c.images then Lookup(c.images[k], c)
    else
      var im := b.read(k);
      Lookup(im, c.(images := c.images[k := im], imSize := Some(im.Shape())))
  }

  /** `Features.__getitem__` (lines 43-48). */
  function GetFeatures(b: Backend, c: Caches, k: FrameId): (r: Lookup<FeatureSet>)
    ensures k in r.caches.features && r.caches.features[k] == r.value
    ensures k in c.features ==> r == Lookup(c.features[k], c)
    ensures r.caches.features.Keys == c.features.Keys + {k}
    ensures forall x :: x in c.features ==> r.caches.features[x] == c.features[x]
    ensures Valid(c) ==> Valid(r.caches) && r.caches.images.Keys == c.images.Keys + {k}
    ensures Valid(c) && k !in c.images ==> r.caches.imSize == Some(b.read(k).Shape())
    ensures Valid(c) && k in c.images ==> r.caches.imSize == c.imSize
    ensures r.caches.matches == c.matches && r.caches.homographies == c.homographies
    ensures Coherent(b, c) ==> r.value == FreshFeatures(b, k) && Coherent(b, r.caches)
  {
    if k in c.features then Lookup(c.features[k], c)
    else
      var im := GetImage(b, c, k);
      var f := b.detect(im.value);
      Lookup(f, im.caches.(features := im.caches.features[k := f]))
  }

  /** `Matches.__getitem__` (lines 62-81). */
  function GetMatches(b: Backend, c: Caches, p: Pair): (r: Lookup<seq<DMatch>>)
    ensures p in r.caches.matches && r.caches.matches[p] == r.value
    ensures p in c.matches ==> r == Lookup(c.matches[p], c)
    ensures r.caches.matches.Keys == c.matches.Keys + {p}
    ensures forall x :: x in c.matches ==> r.caches.matches[x] == c.matches[x]
    ensures r.caches.homographies == c.homographies
    ensures Valid(c) ==> Valid(r.caches)
    ensures Valid(c) && p.src in c.images && p.dst in c.images ==> r.caches.imSize == c.imSize
    ensures Valid(c) && p.src in c.images && p.dst in c.images ==> r.caches.images == c.images
    ensures Valid(c) && p.src in c.images && p.dst in c.images ==> r.caches.features == c.features
    ensures Valid(c) && p !in c.matches ==> r.caches.images.Keys == c.images.Keys + {p.src, p.dst}
    ensures Valid(c) && p in c.matches ==> r.caches.images.Keys == c.images.Keys
  {
    if p in c.matches then Lookup(c.matches[p], c)
    else
      var f1 := GetFeatures(b, c, p.src);
      var f2 := GetFeatures(b, f1.caches, p.dst);
      var good := MatchFeatures(b, f1.value, f2.value);
      Lookup(good, f2.caches.(matches := f2.caches.matches[p := good]))
  }

  /** `Homographies.__getitem__` (lines 94-113): the matches and both
      feature sets are looked up, and the target image, before the
      homography dict is consulted. */
  function GetHomography(b: Backend, c: Caches, p: Pair): (r: Lookup<Homography>)
    ensures p in r.caches.homographies && r.caches.homographies[p] == r.value
    ensures p in c.homographies ==> r.value == c.homographies[p]
    ensures r.caches.homographies.Keys == c.homographies.Keys + {p}
    ensures r.caches.matches.Keys == c.matches.Keys + {p}
    ensures forall x :: x in c.homographies ==> r.caches.homographies[x] == c.homographies[x]
    ensures Valid(c) ==> Valid(r.caches) && p.dst in r.caches.images && r.caches.imSize.Some?
    ensures Valid(c) ==> r.caches.images.Keys == c.images.Keys + {p.src, p.dst}
    ensures Valid(c) && p.src in c.images && p.dst in c.images ==> r.caches.imSize == c.imSize
  {
    var good := GetMatches(b, c, p);
    var f1 := GetFeatures(b, good.caches, p.src);
    var f2 := GetFeatures(b, f1.caches, p.dst);
    var img2 := GetImage(b, f2.caches, p.dst);
    var c4 := img2.caches;
    if p in c4.homographies then Lookup(c4.homographies[p], c4)
    else
      var h := EstimateHomography(b, f1.value, f2.value, good.value);
      Lookup(h, c4.(homographies := c4.homographies[p := h]))
  }

  /** A matches lookup on caches that agree with fresh computations gives
      the fresh matches and keeps the caches in agreement. */
  lemma GetMatchesFresh(b: Backend, c: Caches, p: Pair)
    requires Coherent(b, c)
    ensures GetMatches(b, c, p).value == FreshMatches(b, p)
    ensures Coherent(b, GetMatches(b, c, p).caches)
  {
    if p !in c.matches {
      var f1 := GetFeatures(b, c, p.src);
      var f2 := GetFeatures(b, f1.caches, p.dst);
      var good := MatchFeatures(b, f1.value, f2.value);
      assert good == FreshMatches(b, p);
      StoreMatchesCoherent(b, f2.caches, p, good);
    }
  }

  /** Storing the fresh matches of a pair keeps the caches in agreement. */
  lemma StoreMatchesCoherent(b: Backend, c: Caches, p: Pair, good: seq<DMatch>)
    requires Coherent(b, c) && good == FreshMatches(b, p)
    ensures Coherent(b, c.(matches := c.matches[p := good]))
  {
  }

  /** A homography lookup on caches that agree with fresh computations
      gives the fresh homography and keeps the caches in agreement. */
  lemma GetHomographyFresh(b: Backend, c: Caches, p: Pair)
    requires Coherent(b, c)
    ensures GetHomography(b, c, p).value == FreshHomography(b, p)
    ensures Coherent(b, GetHomography(b, c, p).caches)
  {
    GetMatchesFresh(b, c, p);
    var good := GetMatches(b, c, p);
    var f1 := GetFeatures(b, good.caches, p.src);
    var f2 := GetFeatures(b, f1.caches, p.dst);
    var c4 := GetImage(b, f2.caches, p.dst).caches;
    assert Coherent(b, c4) && c4.homographies == c.homographies;
    if p !in c4.homographies {
      var h := EstimateHomography(b, f1.value, f2.value, good.value);
      assert h == FreshHomography(b, p);
      StoreHomographyCoherent(b, c4, p, h);
    }
  }

  /** Storing the fresh homography of a pair keeps the caches in agreement. */
  lemma StoreHomographyCoherent(b: Backend, c: Caches, p: Pair, h: Homography)
    requires Coherent(b, c) && h == FreshHomography(b, p)
    ensures Coherent(b, c.(homographies := c.homographies[p := h]))
  {
  }

  /** The result of `calc_overlap`: the ratio and the matches it reports
      (the debug image is not modelled). */
  datatype OverlapResult = OverlapResult(overlap: real, good: seq<DMatch>, caches: Caches)

  /** `Homographies.calc_overlap` without its debug drawing (lines 115-161).
      The corners come from the source frame's own shape (re-read, uncached);
      the area is divided by `im_size`, whatever image was decoded last. */
  function CalcOverlap(b: Backend, c: Caches, p: FrameId, q: FrameId): (r: OverlapResult)
    requires Valid(c)
    ensures Valid(r.caches)
    ensures r.overlap >= 0.0
    ensures r.caches.images.Keys == c.images.Keys + {p, q}
    ensures r.caches.matches.Keys == c.matches.Keys + {Pair(p, q)}
    ensures r.caches.homographies.Keys == c.homographies.Keys + {Pair(p, q)}
    ensures r.caches.homographies[Pair(p, q)].Undetermined? ==> r.overlap == 0.0 && r.good == []
  {
    var img1 := b.read(p);
    var f1 := GetFeatures(b, c, p);
    var f2 := GetFeatures(b, f1.caches, q);
    assert Valid(f2.caches) && f2.caches.images.Keys == c.images.Keys + {p, q};
    var good := GetMatches(b, f2.caches, Pair(p, q));
    assert good.caches.images.Keys == c.images.Keys + {p, q};
    var h := GetHomography(b, good.caches, Pair(p, q));
    assert Valid(h.caches) && h.caches.imSize.Some?;
    match h.value
    case Undetermined => OverlapResult(0.0, [], h.caches)
    case Estimated(m, _) =>
      var dst := Project(b, m, Corners(img1.Shape()));
      OverlapResult(OverlapRatio(dst, h.caches.imSize.value), good.value, h.caches)
  }

  /** Memoization is invisible: on caches whose entries all agree with a
      fresh computation, and with the target frame not yet decoded (so that
      `im_size` becomes the target's shape), `calc_overlap` yields the
      from-scratch overlap and leaves the caches in agreement. */
  lemma CalcOverlapIsFresh(b: Backend, c: Caches, p: FrameId, q: FrameId)
    requires Valid(c) && Coherent(b, c)
    requires q !in c.images
    ensures CalcOverlap(b, c, p, q).overlap == FreshOverlap(b, p, q)
  {
    LookupChainFresh(b, c, p, q);
  }

  /** The lookups `calc_overlap` makes, on caches that agree with fresh
      computations and have not decoded `q`: the homography is the fresh one
      and `im_size` ends as the shape of `q`. */
  lemma LookupChainFresh(b: Backend, c: Caches, p: FrameId, q: FrameId)
    requires Valid(c) && Coherent(b, c)
    requires q !in c.images
    ensures var f1 := GetFeatures(b, c, p);
      var f2 := GetFeatures(b, f1.caches, q);
      var good := GetMatches(b, f2.caches, Pair(p, q));
      var h := GetHomography(b, good.caches, Pair(p, q));
      h.value == FreshHomography(b, Pair(p, q)) && h.caches.imSize == Some(b.read(q).Shape())
  {
    var f1 := GetFeatures(b, c, p);
    var f2 := GetFeatures(b, f1.caches, q);
    assert f2.caches.imSize == Some(b.read(q).Shape());
    GetMatchesFresh(b, f2.caches, Pair(p, q));
    var good := GetMatches(b, f2.caches, Pair(p, q));
    GetHomographyFresh(b, good.caches, Pair(p, q));
  }

  /** `calc_overlap` on caches that agree with fresh computations leaves
      them in agreement, whatever has been decoded. */
  lemma CalcOverlapCoherent(b: Backend, c: Caches, p: FrameId, q: FrameId)
    requires Valid(c) && Coherent(b, c)
    ensures Coherent(b, CalcOverlap(b, c, p, q).caches)
  {
    var f1 := GetFeatures(b, c, p);
    var f2 := GetFeatures(b, f1.caches, q);
    GetMatchesFresh(b, f2.caches, Pair(p, q));
    var good := GetMatches(b, f2.caches, Pair(p, q));
    GetHomographyFresh(b, good.caches, Pair(p, q));
  }

  /** Lines 91, 100-112 and 124-125: ten good matches or fewer leave the
      pair without a homography, and its overlap is 0 with no matches. */
  lemma FewMatchesMeanNoOverlap(b: Backend, c: Caches, p: FrameId, q: FrameId)
    requires Valid(c) && Coherent(b, c)
    requires |FreshMatches(b, Pair(p, q))| <= MinMatchCount
    ensures FreshHomography(b, Pair(p, q)) == Undetermined
    ensures CalcOverlap(b, c, p, q).overlap == 0.0
    ensures CalcOverlap(b, c, p, q).good == []
  {
    var f1 := GetFeatures(b, c, p);
    var f2 := GetFeatures(b, f1.caches, q);
    GetMatchesFresh(b, f2.caches, Pair(p, q));
    var good := GetMatches(b, f2.caches, Pair(p, q));
    GetHomographyFresh(b, good.caches, Pair(p, q));
    var h := GetHomography(b, good.caches, Pair(p, q));
  }

  /** A frame with 8 keypoints or fewer is matched to nothing, so it never
      gets a homography and every pair it starts has overlap 0. */
  lemma SparseFrameHasNoOverlap(b: Backend, p: FrameId, q: FrameId)
    requires |FreshFeatures(b, p).keypoints| <= MinKeypoints
    ensures FreshMatches(b, Pair(p, q)) == []
    ensures FreshOverlap(b, p, q) == 0.0
  {
  }

  /** A second lookup of the same key is a hit: it returns the value of the
      first and changes nothing. */
  lemma LookupTwiceIsHit(b: Backend, c: Caches, p: Pair)
    requires Valid(c)
    ensures var first := GetHomography(b, c, p);
      GetHomography(b, first.caches, p) == Lookup(first.value, first.caches)
    ensures var first := GetMatches(b, c, p);
      GetMatches(b, first.caches, p) == Lookup(first.value, first.caches)
    ensures var first := GetFeatures(b, c, p.src);
      GetFeatures(b, first.caches, p.src) == Lookup(first.value, first.caches)
  {
    var first := GetHomography(b, c, p);
    var c1 := first.caches;
    assert p in c1.matches && p.src in c1.images && p.dst in c1.images;
    var good := GetMatches(b, c1, p);
    assert good.caches == c1;
    var f1 := GetFeatures(b, c1, p.src);
    assert f1.caches == c1;
    var f2 := GetFeatures(b, c1, p.dst);
    assert f2.caches == c1;
  }
}

=== FILE: colmap_models.dfy ===
/** The two reconstruction views of utils/base_type.py. `ColmapModel` holds
    the dicts read from a COLMAP model directory and lists its images in
    name order; `JsonColmapModel` turns a JSON dict of frame poses into rows
    `pose + [frame_name]` in frame-name order and rebuilds an image record
    from a row by slicing. The binary readers are left out: their dicts are
    the inputs. */
module ColmapModels {
  import opened Wrappers
  import opened Ordering

  // ---------------------------------------------------------------------
  // Python dicts
  // ---------------------------------------------------------------------

  /** One item of a Python dict; a dict is its items in insertion order. */
  datatype Entry<K, V> = Entry(key: K, value: V)

  function MapSeq<A, B>(s: seq<A>, f: A -> B): (r: seq<B>)
    ensures |r| == |s|
    ensures forall k :: 0 <= k < |s| ==> r[k] == f(s[k])
  {
    seq(|s|, k requires 0 <= k < |s| => f(s[k]))
  }

  function KeyOf<K, V>(e: Entry<K, V>): K {
    e.key
  }

  function ValueOf<K, V>(e: Entry<K, V>): V {
    e.value
  }

  /** `d.keys()`. */
  function Keys<K, V>(d: seq<Entry<K, V>>): (r: seq<K>)
    ensures |r| == |d|
    ensures forall k :: 0 <= k < |d| ==> r[k] == d[k].key
  {
    MapSeq(d, KeyOf)
  }

  /** `d.values()`. */
  function Values<K, V>(d: seq<Entry<K, V>>): (r: seq<V>)
    ensures |r| == |d|
    ensures forall k :: 0 <= k < |d| ==> r[k] == d[k].value
  {
    MapSeq(d, ValueOf)
  }

  /** A list of items that is a dict: no key twice. */
  ghost predicate IsDict<K, V>(d: seq<Entry<K, V>>) {
    Distinct(Keys(d))
  }

  /** `d[k]`. */
  function Lookup<K(==), V>(d: seq<Entry<K, V>>, k: K): (r: Result<V>)
    ensures r.Success? <==> k in Keys(d)
    ensures r.Failure? ==> r.error == KeyError
    ensures r.Success? ==> Entry(k, r.value) in d
  {
    if |d| == 0 then Failure(KeyError)
    else
      assert Keys(d) == [d[0].key] + Keys(d[1..]);
      if d[0].key == k then Success(d[0].value) else Lookup(d[1..], k)
  }

  /** In a dict, looking up the key of an item gives that item's value. */
  lemma {:induction false} LookupItem<K, V>(d: seq<Entry<K, V>>, i: nat)
    requires IsDict(d) && i < |d|
    ensures Lookup(d, d[i].key) == Success(d[i].value)
  {
    if i > 0 {
      assert Keys(d[1..]) == Keys(d)[1..];
      assert d[0].key == Keys(d)[0] != Keys(d)[i] == d[i].key;
      LookupItem(d[1..], i - 1);
    }
  }

  lemma MapSeqAppend<A, B>(a: seq<A>, b: seq<A>, f: A -> B)
    ensures MapSeq(a + b, f) == MapSeq(a, f) + MapSeq(b, f)
  {
  }

  /** Taking out the element at `i` takes it out of the multiset. */
  lemma RemoveAt<A>(t: seq<A>, i: nat)
    requires i < |t|
    ensures t == t[..i] + [t[i]] + t[i + 1..]
    ensures multiset(t[..i] + t[i + 1..]) == multiset(t) - multiset{t[i]}
  {
    assert t == t[..i] + [t[i]] + t[i + 1..];
  }

  /** Projecting a list with one element taken out. */
  lemma MapSeqRemove<A, B>(a: seq<A>, x: A, c: seq<A>, f: A -> B)
    ensures multiset(MapSeq(a + [x] + c, f)) == multiset(MapSeq(a + c, f)) + multiset{f(x)}
  {
    MapSeqAppend(a + [x], c, f);
    MapSeqAppend(a, [x], f);
    MapSeqAppend(a, c, f);
  }

  /** Projecting a rearrangement gives a rearrangement. */
  lemma {:induction false} MapPermutation<A, B>(s: seq<A>, t: seq<A>, f: A -> B)
    requires multiset(s) == multiset(t)
    ensures multiset(MapSeq(s, f)) == multiset(MapSeq(t, f))
    decreases |s|
  {
    if |s| == 0 {
      assert |t| == |multiset(t)| == 0;
    } else {
      var e := s[0];
      assert e in multiset(t);
      var i :| 0 <= i < |t| && t[i] == e;
      var a, c := t[..i], t[i + 1..];
      RemoveAt(t, i);
      assert s == [] + [e] + s[1..];
      assert [] + s[1..] == s[1..];
      MapPermutation(s[1..], a + c, f);
      MapSeqRemove(a, e, c, f);
      MapSeqRemove([], e, s[1..], f);
    }
  }

  // ---------------------------------------------------------------------
  // ColmapModel
  // ---------------------------------------------------------------------

  /** A COLMAP camera; only carried. */
  datatype Camera = Camera(model: string, width: nat, height: nat, params: seq<real>)

  /** A COLMAP 3D point; only carried. */
  datatype Point3D = Point3D(xyz: seq<real>, rgb: seq<nat>, error: real)

  /** A COLMAP image record (`BaseImage`). */
  datatype ColmapImage = ColmapImage(
    id: int, qvec: seq<real>, tvec: seq<real>, cameraId: int, name: string,
    xys: seq<seq<real>>, point3DIds: seq<int>)

  /** The model: the camera with id 1, the points and images as read, and
      whether the "more than one camera" warning was printed. */
  datatype ColmapModel = ColmapModel(
    camera: Camera,
    points: seq<Entry<int, Point3D>>,
    images: seq<Entry<int, ColmapImage>>,
    warned: bool)

  /** `ColmapModel.__init__` on the dicts the readers return (lines 17-30):
      the camera is always the one with id 1, and a camera count other than
      one only prints a warning. */
  function LoadColmapModel(cameras: seq<Entry<int, Camera>>, points: seq<Entry<int, Point3D>>,
                           images: seq<Entry<int, ColmapImage>>): (r: Result<ColmapModel>)
    ensures r.Failure? <==> 1 !in Keys(cameras)
    ensures r.Failure? ==> r.error == KeyError
    ensures r.Success? ==> Entry(1, r.value.camera) in cameras
    ensures r.Success? ==> r.value.points == points && r.value.images == images
    ensures r.Success? ==> (r.value.warned <==> |cameras| != 1)
  {
    var camera :- Lookup(cameras, 1);
    Success(ColmapModel(camera, points, images, |cameras| != 1))
  }

  /** Several cameras do not stop the loading: the camera kept is the one
      with id 1, whichever position it holds. */
  lemma ExtraCamerasOnlyWarn(cameras: seq<Entry<int, Camera>>, points: seq<Entry<int, Point3D>>,
                             images: seq<Entry<int, ColmapImage>>, i: nat)
    requires IsDict(cameras) && i < |cameras| && cameras[i].key == 1
    ensures var r := LoadColmapModel(cameras, points, images);
      r.Success? && r.value.camera == cameras[i].value && (r.value.warned <==> |cameras| > 1)
  {
    LookupItem(cameras, i);
  }

  function ImageName(e: Entry<int, ColmapImage>): string {
    e.value.name
  }

  /** `num_images` (lines 51-53). */
  function NumImages(m: ColmapModel): nat {
    |m.images|
  }

  /** `ordered_image_ids` (lines 43-45): the image ids sorted by image
      name — every id exactly as often as in the dict. */
  function OrderedImageIds(m: ColmapModel): (ids: seq<int>)
    ensures |ids| == NumImages(m)
    ensures multiset(ids) == multiset(Keys(m.images))
  {
    var sorted := SortBy(m.images, ImageName);
    MapPermutation(sorted, m.images, KeyOf);
    Keys(sorted)
  }

  /** `ordered_images` (lines 55-57): the image of every ordered id, looked
      up in the dict. */
  function OrderedImages(m: ColmapModel): (r: seq<ColmapImage>)
    requires IsDict(m.images)
    ensures |r| == NumImages(m)
  {
    var ids := OrderedImageIds(m);
    seq(|ids|, k requires 0 <= k < |ids| =>
      assert ids[k] in multiset(Keys(m.images));
      Lookup(m.images, ids[k]).value)
  }

  /** The ordered images are all the images, each once, in ascending name
      order, and as many as `num_images` says. */
  lemma OrderedImagesSorted(m: ColmapModel)
    requires IsDict(m.images)
    ensures var r := OrderedImages(m);
      && |r| == NumImages(m)
      && (forall i, j :: 0 <= i < j < |r| ==> StrLe(r[i].name, r[j].name))
      && multiset(r) == multiset(Values(m.images))
  {
    var sorted := SortBy(m.images, ImageName);
    var r := OrderedImages(m);
    MapPermutation(sorted, m.images, KeyOf);
    DistinctPermutation(Keys(m.images), Keys(sorted));
    forall k | 0 <= k < |r| ensures r[k] == sorted[k].value {
      LookupItem(sorted, k);
      assert Lookup(sorted, sorted[k].key).Success?;
      assert sorted[k] in multiset(m.images);
      var i :| 0 <= i < |m.images| && m.images[i] == sorted[k];
      LookupItem(m.images, i);
    }
    assert r == Values(sorted);
    MapPermutation(sorted, m.images, ValueOf);
  }

  /** `get_image_by_id` (lines 59-60). */
  function GetImageById(m: ColmapModel, id: int): (r: Result<ColmapImage>)
    ensures r.Failure? <==> id !in Keys(m.images)
    ensures r.Failure? ==> r.error == KeyError
    ensures r.Success? ==> Entry(id, r.value) in m.images
  {
    Lookup(m.images, id)
  }

  /** Each ordered image is the image the dict holds under the id at the
      same position. */
  lemma OrderedImagesMatchIds(m: ColmapModel, k: nat)
    requires IsDict(m.images) && k < NumImages(m)
    ensures GetImageById(m, OrderedImageIds(m)[k]) == Success(OrderedImages(m)[k])
  {
    assert OrderedImageIds(m)[k] in multiset(Keys(m.images));
  }

  // ---------------------------------------------------------------------
  // JsonColmapModel
  // ---------------------------------------------------------------------

  /** An element of a JSON list: a number or a string. */
  datatype Cell = Num(x: real) | Str(s: string)

  /** A pose as a JSON list of numbers. */
  function Nums(pose: seq<real>): (r: seq<Cell>)
    ensures |r| == |pose|
    ensures forall k :: 0 <= k < |r| ==> r[k] == Num(pose[k])
  {
    seq(|pose|, k requires 0 <= k < |pose| => Num(pose[k]))
  }

  /** The `ColmapImage` that `get_image_by_id` builds from a row. */
  datatype JsonImage = JsonImage(
    id: int, qvec: seq<Cell>, tvec: seq<Cell>, cameraId: int, name: Cell,
    xys: seq<Cell>, point3DIds: seq<int>)

  /** `self.images`: one row per frame. */
  datatype JsonColmapModel = JsonColmapModel(rows: seq<seq<Cell>>)

  /** `JsonColmapModel.__init__` on a dict (lines 64-74): the frame names in
      ascending order, each row the frame's pose with the name appended. */
  function LoadJsonModel(images: seq<Entry<string, seq<real>>>): (m: JsonColmapModel)
    ensures |m.rows| == |images|
    ensures forall k :: 0 <= k < |m.rows| ==> |m.rows[k]| > 0 && m.rows[k][|m.rows[k]| - 1].Str?
  {
    var names := Sort(Keys(images));
    JsonColmapModel(seq(|names|, k requires 0 <= k < |names| =>
      assert names[k] in multiset(Keys(images));
      Nums(Lookup(images, names[k]).value) + [Str(names[k])]))
  }

  /** The name a row ends with. */
  function RowName(row: seq<Cell>): string
    requires |row| > 0 && row[|row| - 1].Str?
  {
    row[|row| - 1].s
  }

  /** The row a dict item becomes. */
  function RowOf(e: Entry<string, seq<real>>): seq<Cell> {
    Nums(e.value) + [Str(e.key)]
  }

  /** The row is the row of some item of the dict. */
  ghost predicate RowOfItem(images: seq<Entry<string, seq<real>>>, row: seq<Cell>) {
    exists e :: e in images && row == RowOf(e)
  }

  /** Row `k` is the row of the dict item named by the `k`-th frame name. */
  lemma JsonRowAt(images: seq<Entry<string, seq<real>>>, k: nat)
    requires k < |images|
    ensures var names := Sort(Keys(images));
      && names[k] in Keys(images)
      && Entry(names[k], Lookup(images, names[k]).value) in images
      && LoadJsonModel(images).rows[k] == RowOf(Entry(names[k], Lookup(images, names[k]).value))
  {
    assert Sort(Keys(images))[k] in multiset(Keys(images));
    assert Sort(Keys(images))[k] in Keys(images);
  }

  /** The rows of a loaded dict are in strictly ascending frame-name order
      and each is the row of one of its items. */
  lemma JsonRowsAscend(images: seq<Entry<string, seq<real>>>)
    requires IsDict(images)
    ensures var rows := LoadJsonModel(images).rows;
      && (forall i, j :: 0 <= i < j < |rows| ==> StrLt(RowName(rows[i]), RowName(rows[j])))
      && (forall k :: 0 <= k < |rows| ==> RowOfItem(images, rows[k]))
  {
    var names := Sort(Keys(images));
    var rows := LoadJsonModel(images).rows;
    SortDistinctStrict(Keys(images));
    forall k | 0 <= k < |rows|
      ensures RowName(rows[k]) == names[k]
      ensures RowOfItem(images, rows[k])
    {
      JsonRowAt(images, k);
      var e := Entry(names[k], Lookup(images, names[k]).value);
      assert e in images && rows[k] == RowOf(e);
    }
  }

  /** Every item of the dict has its row. */
  lemma JsonItemsHaveRows(images: seq<Entry<string, seq<real>>>)
    requires IsDict(images)
    ensures var rows := LoadJsonModel(images).rows;
      forall e :: e in images ==> exists k :: 0 <= k < |rows| && rows[k] == RowOf(e)
  {
    var names := Sort(Keys(images));
    var rows := LoadJsonModel(images).rows;
    forall e | e in images ensures exists k :: 0 <= k < |rows| && rows[k] == RowOf(e) {
      var i :| 0 <= i < |images| && images[i] == e;
      assert Keys(images)[i] == e.key;
      assert e.key in multiset(names);
      var k :| 0 <= k < |names| && names[k] == e.key;
      LookupItem(images, i);
      JsonRowAt(images, k);
    }
  }

  /** `JsonColmapModel.ordered_image_ids` (lines 76-78): `range(len(rows))`. */
  function JsonOrderedImageIds(m: JsonColmapModel): (ids: seq<int>)
    ensures |ids| == |m.rows|
    ensures forall k :: 0 <= k < |ids| ==> ids[k] == k
  {
    seq(|m.rows|, k => k)
  }

  /** The row `self.images[image_id]` selects: negative ids count from the
      end. */
  function RowAt(m: JsonColmapModel, id: int): seq<Cell>
    requires -|m.rows| <= id < |m.rows|
  {
    if id < 0 then m.rows[|m.rows| + id] else m.rows[id]
  }

  /** `JsonColmapModel.get_image_by_id` (lines 84-89): qvec is the row's
      first four cells, tvec the next three, the name its eighth cell, the
      camera 0 and no keypoints. An id outside the rows, or a row of fewer
      than eight cells, raises IndexError. */
  function JsonGetImageById(m: JsonColmapModel, id: int): (r: Result<JsonImage>)
    ensures r.Failure? <==> !(-|m.rows| <= id < |m.rows|) || |RowAt(m, id)| < 8
    ensures r.Failure? ==> r.error == IndexError
    ensures r.Success? ==>
      var row := RowAt(m, id);
      && r.value.id == id && r.value.cameraId == 0 && r.value.xys == [] && r.value.point3DIds == []
      && r.value.qvec == row[..4] && r.value.tvec == row[4..7] && r.value.name == row[7]
  {
    var row :- PyAt(m.rows, id);
    var name :- PyAt(row, 7);
    Success(JsonImage(id, PySlice(row, 0, 4), PySlice(row, 4, 7), 0, name, [], []))
  }

  /** Loading a dict of seven-number poses and asking for image `k` gives
      back the pose of the `k`-th frame name, split into rotation and
      translation, under that name. */
  lemma JsonImageRoundTrip(images: seq<Entry<string, seq<real>>>, k: nat)
    requires IsDict(images) && k < |images|
    requires forall e :: e in images ==> |e.value| == 7
    ensures var m := LoadJsonModel(images);
      var r := JsonGetImageById(m, k);
      && r.Success?
      && r.value.name == Str(Sort(Keys(images))[k])
      && exists e :: e in images && e.key == Sort(Keys(images))[k]
           && r.value.qvec == Nums(e.value[..4]) && r.value.tvec == Nums(e.value[4..7])
  {
    var names := Sort(Keys(images));
    var m := LoadJsonModel(images);
    assert names[k] in multiset(Keys(images));
    var pose := Lookup(images, names[k]).value;
    JsonRowAt(images, k);
    var row := m.rows[k];
    assert row[..4] == Nums(pose[..4]);
    assert row[4..7] == Nums(pose[4..7]);
  }

  /** `JsonColmapModel.ordered_images` (lines 80-82): the image of every
      row in row order; the first row too short to hold a name raises. */
  method JsonOrderedImages(m: JsonColmapModel) returns (r: Result<seq<JsonImage>>)
    ensures r.Success? <==> forall k :: 0 <= k < |m.rows| ==> |m.rows[k]| >= 8
    ensures r.Failure? ==> r.error == IndexError
    ensures r.Success? ==> |r.value| == |m.rows|
    ensures r.Success? ==>
      forall k :: 0 <= k < |m.rows| ==> r.value[k].id == k && JsonGetImageById(m, k) == Success(r.value[k])
  {
    var ids := JsonOrderedImageIds(m);
    var out: seq<JsonImage> := [];
    for t := 0 to |ids|
      invariant |out| == t
      invariant forall k :: 0 <= k < t ==> |m.rows[k]| >= 8
      invariant forall k :: 0 <= k < t ==> out[k].id == k && JsonGetImageById(m, k) == Success(out[k])
    {
      var img :- JsonGetImageById(m, ids[t]);
      out := out + [img];
    }
    return Success(out);
  }
}

=== FILE: filter.dfy ===
/** The main block of homography_filter/filter.py: build the loader of a
    source, run `calc_graph` over its frames with the command-line
    arguments, turn the graph into the kept frames with `graph2fpaths`, and
    write their base names, one per line, to the destination file. The
    destination file itself is left out: the model yields the list handed to
    `writelines`. */
module Filter {
  import opened Wrappers
  import opened Ordering
  import opened Text
  import opened ImageReader
  import opened Caches
  import opened Selection
  import Utils

  /** The command-line arguments that reach the selection: `--src`,
      `--overlap`, `--frame_range_min` and `--frame_range_max`. */
  datatype Args = Args(src: Source, overlap: real, frameRangeMin: nat, frameRangeMax: Option<int>)

  /** What `make_homography_loader` returns: the reader's frame list and the
      four dicts of the `Images`, `Features`, `Matches` and `Homographies`
      objects, all freshly constructed. */
  datatype Loader = Loader(fpaths: seq<FrameId>, caches: Caches)

  /** `make_homography_loader(args)` (lines 14-22): the frames of the source,
      with nothing cached yet; an unknown source stops the program. */
  function MakeHomographyLoader(src: Source): (r: Result<Loader>)
    ensures r.Failure? <==> FramePaths(src).Failure?
    ensures r.Failure? ==> r.error == UnsupportedSource
    ensures r.Success? ==> r.value.fpaths == FramePaths(src).value && Valid(r.value.caches) && Cleared(r.value.caches)
  {
    var fpaths :- FramePaths(src);
    Success(Loader(fpaths, Empty))
  }

  /** `calc_graph(homographies, **vars(args))`: the threshold and range come
      from the arguments, `clear_cache` keeps its default `True`. */
  function ScanConfig(args: Args): Config {
    Config(args.overlap, args.frameRangeMin, args.frameRangeMax, true)
  }

  function Basenames(paths: seq<string>): (r: seq<string>)
    ensures |r| == |paths|
    ensures forall k :: 0 <= k < |r| ==> r[k] == Basename(paths[k])
  {
    seq(|paths|, k requires 0 <= k < |paths| => Basename(paths[k]))
  }

  /** The frame list of the source is one the scan follows the greedy rule
      on: no frame twice, and a range that stays inside the list. */
  ghost predicate Selectable(args: Args) {
    var fp := FramePaths(args.src);
    fp.Success? && Distinct(fp.value) && RangeMax(ScanConfig(args), fp.value) <= |fp.value|
  }

  /** No frame of the range falls below the threshold against the first
      anchor, so the scan records no edge. */
  ghost predicate NoCut(ov: (int, int) -> real, thr: real, i: int, max: int) {
    i >= max - 1 || forall m :: i < m < max ==> ov(i, m) >= thr
  }

  /** `lines` holds one line per position of `p`: the base name of the
      frame there and a newline. */
  ghost predicate LinesAt(fpaths: seq<FrameId>, p: seq<int>, i: nat, max: int, lines: seq<string>) {
    |lines| == |p| && forall k :: 0 <= k < |p| ==>
      i <= p[k] < max && max <= |fpaths| && lines[k] == Basename(fpaths[p[k]]) + "\n"
  }

  /** What the main block writes for the frame list `fpaths`, when its
      frames are distinct: with the range inside the list, one line per
      frame the greedy scan keeps, or `IndexError` when no frame of the
      range falls below the threshold against the first anchor; with a
      range reaching past the list, `IndexError`. */
  ghost predicate Outcome(b: Backend, cfg: Config, fpaths: seq<FrameId>, r: Result<seq<string>>) {
    Distinct(fpaths) ==>
      var max := RangeMax(cfg, fpaths);
      var i := cfg.rangeMin;
      var p := Positions(Greedy(OverlapAt(b, fpaths), cfg.threshold, i, max), i);
      if max <= |fpaths| then
        && (r.Failure? <==> NoCut(OverlapAt(b, fpaths), cfg.threshold, i, max))
        && (r.Failure? ==> r.error == IndexError)
        && (r.Success? ==> LinesAt(fpaths, p, i, max, r.value))
      else
        r == Failure(IndexError)
  }

  /** A fresh loader is ready for the scan whenever its frames are. */
  lemma LoaderIsReady(b: Backend, args: Args)
    requires Selectable(args)
    ensures var l := MakeHomographyLoader(args.src);
      l.Success? && ScanReady(b, ScanConfig(args), l.value.fpaths, l.value.caches)
  {
  }

  /** `calc_graph` on a fresh loader followed by `graph2fpaths` (lines
      38-40): on distinct frames and a range inside the list, the kept frames
      are the first anchor and every greedy cut target, or `IndexError` when
      no frame of the range falls below the threshold against the first
      anchor; on distinct frames and a range reaching past the list,
      `IndexError`. */
  method SelectFrames(b: Backend, cfg: Config, fpaths: seq<FrameId>) returns (r: Result<seq<FrameId>>)
    requires cfg.clearCache
    ensures Distinct(fpaths) && RangeMax(cfg, fpaths) <= |fpaths| ==>
      var max := RangeMax(cfg, fpaths);
      var i := cfg.rangeMin;
      var p := Positions(Greedy(OverlapAt(b, fpaths), cfg.threshold, i, max), i);
      && (r.Failure? <==> NoCut(OverlapAt(b, fpaths), cfg.threshold, i, max))
      && (r.Failure? ==> r.error == IndexError)
      && (r.Success? ==> |r.value| == |p| && forall k :: 0 <= k < |p| ==> i <= p[k] < max && r.value[k] == fpaths[p[k]])
    ensures Distinct(fpaths) && RangeMax(cfg, fpaths) > |fpaths| ==> r == Failure(IndexError)
  {
    var scan :- CalcGraph(b, cfg, fpaths, Empty);
    r := GraphToPaths(scan.edges);
    if Distinct(fpaths) && RangeMax(cfg, fpaths) <= |fpaths| {
      GreedyPaths(fpaths, OverlapAt(b, fpaths), cfg.threshold, cfg.rangeMin, RangeMax(cfg, fpaths));
    }
  }

  /** Lines 38-41: the kept frames' base names, each with a newline. */
  method SelectionLines(b: Backend, cfg: Config, fpaths: seq<FrameId>) returns (r: Result<seq<string>>)
    requires cfg.clearCache
    ensures Outcome(b, cfg, fpaths, r)
  {
    var kept :- SelectFrames(b, cfg, fpaths);
    r := Success(Utils.WrittenLines(Basenames(kept)));
  }

  /** The main block (lines 36-46) up to the `writelines` call. An unknown
      source stops the program; otherwise the lines are the `Outcome` of
      the source's frames under the command-line threshold and range. */
  method RunFilter(b: Backend, args: Args) returns (r: Result<seq<string>>)
    ensures FramePaths(args.src).Failure? ==> r == Failure(UnsupportedSource)
    ensures FramePaths(args.src).Success? ==> Outcome(b, ScanConfig(args), FramePaths(args.src).value, r)
  {
    var loader := MakeHomographyLoader(args.src);
    if loader.Failure? {
      return Failure(loader.error);
    }
    r := SelectionLines(b, ScanConfig(args), loader.value.fpaths);
  }

  /** The file written from `lines`, read back with
      `read_lines_from_file` (as `select_sparse_frames.py` does with its
      lists), gives the frame names again when they are plain names. */
  lemma WrittenSelectionReadsBack(kept: seq<string>)
    requires forall k :: 0 <= k < |kept| ==> Utils.PlainName(Basename(kept[k]))
    ensures Utils.ReadLinesFromFile(Concat(Utils.WrittenLines(Basenames(kept)))) == Basenames(kept)
  {
    Utils.ReadBackWrittenLines(Basenames(kept));
  }

  /** For a directory source every written name is the name of a `.jpg`
      entry of that directory. */
  lemma DirectoryLinesNameEntries(path: string, entries: seq<string>, k: nat)
    requires forall n :: n in entries ==> forall m :: 0 <= m < |n| ==> n[m] != '/'
    requires var fp := FramePaths(Directory(path, entries)); fp.Success? && k < |fp.value|
    ensures var f := FramePaths(Directory(path, entries)).value[k];
      Basename(f) in entries && IsGlobbedJpg(Basename(f))
  {
    var f := FramePaths(Directory(path, entries)).value[k];
    assert f in FramePaths(Directory(path, entries)).value;
    var n :| n in entries && IsGlobbedJpg(n) && f == Join(GlobDir(path), n);
    BasenameOfJoin(GlobDir(path), n);
  }

  /** A directory without repeated entries and an unbounded range is always
      selectable. */
  lemma DirectorySelectable(args: Args)
    requires args.src.Directory? && Distinct(args.src.entries)
    requires forall n :: n in args.src.entries ==> forall m :: 0 <= m < |n| ==> n[m] != '/'
    requires args.frameRangeMax.None?
    ensures Selectable(args)
  {
    DirectoryFramesDistinct(args.src.path, args.src.entries);
  }
}

=== FILE: geometry.dfy ===
/** The overlap metric of `Homographies.calc_overlap`
    (homography_filter/lib.py): the four corners of the source frame,
    projected into the target frame, are clamped to the target's box
    (`bound_polygon`), their area is taken with the shoelace formula
    (`polygon_area`), and divided by the target's pixel area. Coordinates are
    reals; the source computes them in floating point. */
module Geometry {

  datatype Point = Point(x: real, y: real)

  /** Image shape as numpy reports it: `(height, width)`. */
  datatype Shape = Shape(height: nat, width: nat)

  function Abs(v: real): real {
    if v < 0.0 then -v else v
  }

  /** `np.clip(v, lo, hi)`, that is `min(max(v, lo), hi)`. */
  function Clip(v: real, lo: real, hi: real): (r: real)
    ensures lo <= hi ==> lo <= r <= hi
    ensures lo <= v <= hi ==> r == v
    ensures lo <= hi && v < lo ==> r == lo
    ensures v > hi ==> r == hi
  {
    var m := if v < lo then lo else v;
    if m > hi then hi else m
  }

  /** The point lies in the closed box `[0, width] x [0, height]`. */
  predicate InBox(p: Point, size: Shape) {
    0.0 <= p.x <= size.width as real && 0.0 <= p.y <= size.height as real
  }

  /** `bound_polygon(polygon, im_size)`: x is clamped to `[0, im_size[1]]`
      (the width) and y to `[0, im_size[0]]` (the height). */
  function BoundPolygon(polygon: seq<Point>, size: Shape): (r: seq<Point>)
    ensures |r| == |polygon|
    ensures forall k :: 0 <= k < |r| ==> InBox(r[k], size)
    ensures forall k :: 0 <= k < |r| && InBox(polygon[k], size) ==> r[k] == polygon[k]
  {
    seq(|polygon|, k requires 0 <= k < |polygon| =>
      Point(Clip(polygon[k].x, 0.0, size.width as real), Clip(polygon[k].y, 0.0, size.height as real)))
  }

  /** Clamping a clamped polygon changes nothing. */
  lemma BoundPolygonIdempotent(polygon: seq<Point>, size: Shape)
    ensures BoundPolygon(BoundPolygon(polygon, size), size) == BoundPolygon(polygon, size)
  {
  }

  /** A point outside the box moves onto the box boundary. */
  lemma BoundPolygonMovesOutsidePoints(polygon: seq<Point>, size: Shape, k: nat)
    requires k < |polygon| && !InBox(polygon[k], size)
    ensures var q := BoundPolygon(polygon, size)[k];
      q.x == 0.0 || q.x == size.width as real || q.y == 0.0 || q.y == size.height as real
  {
  }

  function Xs(polygon: seq<Point>): (r: seq<real>)
    ensures |r| == |polygon|
  {
    seq(|polygon|, k requires 0 <= k < |polygon| => polygon[k].x)
  }

  function Ys(polygon: seq<Point>): (r: seq<real>)
    ensures |r| == |polygon|
  {
    seq(|polygon|, k requires 0 <= k < |polygon| => polygon[k].y)
  }

  /** `np.dot` of two vectors of equal length. */
  function Dot(a: seq<real>, b: seq<real>): real
    requires |a| == |b|
  {
    if |a| == 0 then 0.0 else a[0] * b[0] + Dot(a[1..], b[1..])
  }

  /** `np.roll(s, 1)`: the last element moves to the front. */
  function Roll(s: seq<real>): (r: seq<real>)
    ensures |r| == |s|
    ensures |s| > 0 ==> r[0] == s[|s| - 1]
    ensures forall k :: 0 < k < |s| ==> r[k] == s[k - 1]
  {
    if |s| == 0 then [] else [s[|s| - 1]] + s[..|s| - 1]
  }

  /** `polygon_area(x, y)`: the shoelace formula. */
  function PolygonArea(x: seq<real>, y: seq<real>): (r: real)
    requires |x| == |y|
    ensures r >= 0.0
  {
    0.5 * Abs(Dot(x, Roll(y)) - Dot(y, Roll(x)))
  }

  /** Exchanging the two coordinate vectors leaves the area unchanged, so
      passing the y column as `x` (as `calc_overlap` does) is harmless. */
  lemma PolygonAreaSymmetric(x: seq<real>, y: seq<real>)
    requires |x| == |y|
    ensures PolygonArea(x, y) == PolygonArea(y, x)
  {
  }

  /** The corners `(0,0), (0,h-1), (w-1,h-1), (w-1,0)` that `calc_overlap`
      projects, as `(x, y)` points: the centres of the frame's corner pixels,
      going down the left edge first. */
  function Corners(size: Shape): (r: seq<Point>)
    ensures |r| == 4
    ensures r[0] == Point(0.0, 0.0)
    ensures r[2] == Point(size.width as real - 1.0, size.height as real - 1.0)
    ensures r[0].x == r[1].x && r[1].y == r[2].y && r[2].x == r[3].x && r[3].y == r[0].y
    ensures size.height > 0 && size.width > 0 ==> forall k :: 0 <= k < 4 ==> InBox(r[k], size)
  {
    var w := size.width as real - 1.0;
    var h := size.height as real - 1.0;
    [Point(0.0, 0.0), Point(0.0, h), Point(w, h), Point(w, 0.0)]
  }

  /** The overlap ratio of a projected footprint in a target of the given
      size: clamped area over pixel area. */
  function OverlapRatio(projected: seq<Point>, size: Shape): (r: real)
    requires size.height > 0 && size.width > 0
    ensures r >= 0.0
  {
    var polygon := BoundPolygon(projected, size);
    PolygonArea(Ys(polygon), Xs(polygon)) / (size.height * size.width) as real
  }

  lemma DotFour(a: seq<real>, b: seq<real>)
    requires |a| == 4 && |b| == 4
    ensures Dot(a, b) == a[0] * b[0] + a[1] * b[1] + a[2] * b[2] + a[3] * b[3]
  {
    assert a[1..][1..] == a[2..] && b[1..][1..] == b[2..];
    assert a[2..][1..] == a[3..] && b[2..][1..] == b[3..];
    assert a[3..][1..] == [] && b[3..][1..] == [];
    assert Dot(a[3..], b[3..]) == a[3] * b[3];
    assert Dot(a[2..], b[2..]) == a[2] * b[2] + a[3] * b[3];
    assert Dot(a[1..], b[1..]) == a[1] * b[1] + a[2] * b[2] + a[3] * b[3];
  }

  /** The shoelace area of an axis-aligned rectangle traversed through its
      four corners is its width times its height. */
  lemma RectangleArea(w: real, h: real)
    requires w >= 0.0 && h >= 0.0
    ensures var r := [Point(0.0, 0.0), Point(0.0, h), Point(w, h), Point(w, 0.0)];
      PolygonArea(Ys(r), Xs(r)) == w * h
  {
    var r := [Point(0.0, 0.0), Point(0.0, h), Point(w, h), Point(w, 0.0)];
    var xs := Xs(r);
    var ys := Ys(r);
    assert xs == [0.0, 0.0, w, w];
    assert ys == [0.0, h, h, 0.0];
    assert Roll(xs) == [w, 0.0, 0.0, w];
    assert Roll(ys) == [0.0, 0.0, h, h];
    DotFour(ys, Roll(xs));
    DotFour(xs, Roll(ys));
  }

  /** When the projection maps each corner onto itself (a target identical to
      the source), the ratio is `(w-1)(h-1) / (w h)`: the corners are pixel
      centres, so even an unchanged frame scores below 1. */
  lemma IdentityOverlap(size: Shape)
    requires size.height > 0 && size.width > 0
    ensures OverlapRatio(Corners(size), size)
      == ((size.width as real - 1.0) * (size.height as real - 1.0)) / (size.height * size.width) as real
  {
    var c := Corners(size);
    assert forall k :: 0 <= k < 4 ==> InBox(c[k], size);
    assert BoundPolygon(c, size) == c;
    RectangleArea(size.width as real - 1.0, size.height as real - 1.0);
  }
}

=== FILE: image_reader.dfy ===
/** `ImageReader.__init__` (homography_filter/lib.py): the ordered list of
    frame identifiers a source resolves to. A source is a directory of `.jpg`
    files or a `.tar` archive whose member names mention `frame_` and `.jpg`;
    anything else is refused. */
module ImageReader {
  import opened Wrappers
  import opened Ordering
  import opened Text

  /** What the source path is on disk: a directory with its entry names, a
      regular file with (when it is a tar archive) its member names, or
      neither. */
  datatype Source =
    | Directory(path: string, entries: seq<string>)
    | RegularFile(path: string, members: seq<string>)
    | Missing(path: string)

  /** Keeps, in order, the elements that satisfy `keep`. */
  function Filter(s: seq<string>, keep: string -> bool): (r: seq<string>)
    ensures forall x :: x in r <==> x in s && keep(x)
    ensures forall x :: multiset(r)[x] == if keep(x) then multiset(s)[x] else 0
    ensures multiset(r) <= multiset(s)
    ensures |r| <= |s|
  {
    if |s| == 0 then []
    else
      assert s == [s[0]] + s[1..];
      (if keep(s[0]) then [s[0]] else []) + Filter(s[1..], keep)
  }

  /** A name that `glob('*.jpg')` lists: it ends in `.jpg` and is not hidden. */
  predicate IsGlobbedJpg(name: string) {
    EndsWith(name, ".jpg") && name[0] != '.'
  }

  /** A tar member that counts as a frame. */
  predicate IsTarFrame(name: string) {
    Contains(name, "frame_") && Contains(name, ".jpg")
  }

  /** `os.path.splitext(p)[1] == '.tar'`: the base name ends in `.tar` and
      something other than a dot precedes that suffix (leading dots of a base
      name never start an extension). */
  predicate HasTarExtension(p: string) {
    var b := Basename(p);
    EndsWith(b, ".tar") && exists m :: 0 <= m < |b| - 4 && b[m] != '.'
  }

  /** Each name joined to the directory, in order. */
  function JoinAll(dir: string, names: seq<string>): (r: seq<string>)
    ensures |r| == |names|
    ensures forall k :: 0 <= k < |names| ==> r[k] == Join(dir, names[k])
  {
    seq(|names|, k requires 0 <= k < |names| => Join(dir, names[k]))
  }

  /** A path made of slashes only (the empty path included). */
  predicate AllSlashes(p: string) {
    forall m :: 0 <= m < |p| ==> p[m] == '/'
  }

  /** The directory part `glob(os.path.join(path, '*.jpg'))` joins its
      matches to: the head of the pattern's `os.path.split`. It is the path
      itself, except that repeated trailing slashes collapse — `d//` lists
      `d/a.jpg` — unless the path is made of slashes only. */
  function GlobDir(path: string): (r: string)
    ensures r == if AllSlashes(path) then path else StripTrailingSlashes(path)
    ensures |path| > 0 && path[|path| - 1] != '/' ==> r == path
  {
    PatternHead(path);
    SplitHead(Join(path, "*.jpg"))
  }

  /** The head of `os.path.split(os.path.join(path, '*.jpg'))`: the path
      with its trailing slashes stripped, unless it holds slashes only. */
  lemma PatternHead(path: string)
    ensures SplitHead(Join(path, "*.jpg")) == if AllSlashes(path) then path else StripTrailingSlashes(path)
  {
    var star := "*.jpg";
    assert forall m :: 0 <= m < |star| ==> star[m] != '/';
    SplitHeadOfJoin(path, star);
  }

  /** Splitting a directory joined with a slash-free name gives back the
      directory, trailing slashes stripped unless it holds slashes only. */
  lemma SplitHeadOfJoin(path: string, name: string)
    requires |name| > 0 && forall m :: 0 <= m < |name| ==> name[m] != '/'
    ensures SplitHead(Join(path, name)) == if AllSlashes(path) then path else StripTrailingSlashes(path)
  {
    var pre := if |path| == 0 || path[|path| - 1] == '/' then path else path + "/";
    var p := Join(path, name);
    assert p == pre + name;
    AfterLastSlashAppend(pre, name);
    assert AfterLastSlash(pre) == |pre|;
    assert p[..AfterLastSlash(p)] == pre;
    if !AllSlashes(path) {
      var m :| 0 <= m < |path| && path[m] != '/';
      assert pre[m] != '/';
      if pre != path {
        assert pre[..|pre| - 1] == path;
      }
    }
  }

  /** The frames of a directory: its globbed entries joined to `dir`, the
      directory part of the pattern, sorted. */
  function DirectoryFrames(dir: string, entries: seq<string>): (r: seq<string>)
    ensures SortedBy(r, Identity)
    ensures forall f :: f in r <==> exists n :: n in entries && IsGlobbedJpg(n) && f == Join(dir, n)
    ensures multiset(r) == multiset(JoinAll(dir, Filter(entries, IsGlobbedJpg)))
  {
    var names := Filter(entries, IsGlobbedJpg);
    var paths := JoinAll(dir, names);
    assert forall f :: f in paths <==>
      exists n :: n in entries && IsGlobbedJpg(n) && f == Join(dir, n) by {
      forall f ensures f in paths ==> exists n :: n in entries && IsGlobbedJpg(n) && f == Join(dir, n) {
        if f in paths {
          var k :| 0 <= k < |paths| && paths[k] == f;
          assert names[k] in names;
        }
      }
      forall f ensures (exists n :: n in entries && IsGlobbedJpg(n) && f == Join(dir, n)) ==> f in paths {
        if exists n :: n in entries && IsGlobbedJpg(n) && f == Join(dir, n) {
          var n :| n in entries && IsGlobbedJpg(n) && f == Join(dir, n);
          assert n in names;
          var k :| 0 <= k < |names| && names[k] == n;
          assert paths[k] == f;
        }
      }
    }
    var r := Sort(paths);
    assert forall f :: f in r <==> f in paths by {
      forall f ensures f in r <==> f in paths {
        assert f in r <==> f in multiset(r);
        assert f in paths <==> f in multiset(paths);
      }
    }
    r
  }

  /** The frames of a tar archive: its frame members, sorted. */
  function TarFrames(members: seq<string>): (r: seq<string>)
    ensures SortedBy(r, Identity)
    ensures forall f :: f in r <==> f in members && IsTarFrame(f)
    ensures forall f :: multiset(r)[f] == if IsTarFrame(f) then multiset(members)[f] else 0
  {
    var frames := Filter(members, IsTarFrame);
    var r := Sort(frames);
    assert forall f :: f in r <==> f in frames by {
      forall f ensures f in r <==> f in frames {
        assert f in r <==> f in multiset(r);
        assert f in frames <==> f in multiset(frames);
      }
    }
    r
  }

  /** The frame identifiers of the source, in ascending order: a
      permutation of the globbed entries joined to the directory part of the
      pattern (`GlobDir`), or of the
      frame members of the archive. */
  function FramePaths(src: Source): (r: Result<seq<string>>)
    ensures r.Failure? <==> !(src.Directory? || (src.RegularFile? && HasTarExtension(src.path)))
    ensures r.Failure? ==> r.error == UnsupportedSource
    ensures r.Success? ==> SortedBy(r.value, Identity)
    ensures r.Success? && src.Directory? ==>
      forall f :: f in r.value <==>
        exists n :: n in src.entries && IsGlobbedJpg(n) && f == Join(GlobDir(src.path), n)
    ensures r.Success? && src.Directory? ==>
      multiset(r.value) == multiset(JoinAll(GlobDir(src.path), Filter(src.entries, IsGlobbedJpg)))
    ensures r.Success? && src.RegularFile? ==>
      forall f :: f in r.value <==> f in src.members && IsTarFrame(f)
    ensures r.Success? && src.RegularFile? ==>
      forall f :: multiset(r.value)[f] == if IsTarFrame(f) then multiset(src.members)[f] else 0
  {
    match src
    case Directory(path, entries) =>
      Success(DirectoryFrames(GlobDir(path), entries))
    case RegularFile(path, members) =>
      if HasTarExtension(path) then Success(TarFrames(members)) else Failure(UnsupportedSource)
    case Missing(_) =>
      Failure(UnsupportedSource)
  }

  /** A directory never lists a name twice, so its frame paths are strictly
      ascending: every frame identifier names exactly one position. */
  lemma DirectoryFramesDistinct(path: string, entries: seq<string>)
    requires Distinct(entries)
    requires forall n :: n in entries ==> forall m :: 0 <= m < |n| ==> n[m] != '/'
    ensures FramePaths(Directory(path, entries)).Success?
    ensures StrictlySorted(FramePaths(Directory(path, entries)).value)
  {
    JoinedFramesDistinct(GlobDir(path), entries);
  }

  /** Distinct slash-free entries joined to any directory give strictly
      ascending frames. */
  lemma JoinedFramesDistinct(dir: string, entries: seq<string>)
    requires Distinct(entries)
    requires forall n :: n in entries ==> forall m :: 0 <= m < |n| ==> n[m] != '/'
    ensures StrictlySorted(DirectoryFrames(dir, entries))
  {
    var names := Filter(entries, IsGlobbedJpg);
    FilterDistinct(entries, IsGlobbedJpg);
    var paths := JoinAll(dir, names);
    forall i, j | 0 <= i < j < |paths| ensures paths[i] != paths[j] {
      assert names[i] in entries && names[j] in entries;
      BasenameOfJoin(dir, names[i]);
      BasenameOfJoin(dir, names[j]);
    }
    SortDistinctStrict(paths);
  }

  lemma {:induction false} FilterDistinct(s: seq<string>, keep: string -> bool)
    requires Distinct(s)
    ensures Distinct(Filter(s, keep))
  {
    if |s| > 0 {
      FilterDistinct(s[1..], keep);
      var rest := Filter(s[1..], keep);
      assert s[0] !in s[1..];
      assert s[0] !in rest;
    }
  }
}

=== FILE: line_projection.dfy ===
/** `line_rectangle_check` and the last step of `project_line_image`
    (tools/project_3d_line.py): an image-plane line, given by a point and a
    direction, is intersected with the four sides of a rectangle, walked
    from `(xmin, ymin)` through `(xmax, ymin)`, `(xmax, ymax)` and
    `(xmin, ymax)` back to the start. A side almost parallel to the line
    (the cross product of the two directions at most `eps` in magnitude) is
    skipped; every other side contributes the point where the line meets
    it, when that point lies on the side. Coordinates are reals. */
module LineProjection {
  import opened Wrappers

  datatype Vec2 = Vec2(x: real, y: real)

  /** `(xmin, ymin, xmax, ymax)`. */
  datatype Rect = Rect(xmin: real, ymin: real, xmax: real, ymax: real)

  /** `num_intersect` and `inters`. */
  datatype Intersections = Intersections(count: nat, points: seq<Vec2>)

  /** The default tolerance `eps=1e-6`. */
  const Eps: real := 0.000001

  function Abs(v: real): real {
    if v < 0.0 then -v else v
  }

  /** `rect_loop`: the four corners and the first one again. */
  function RectLoop(r: Rect): (loop: seq<Vec2>)
    ensures |loop| == 5 && loop[4] == loop[0]
  {
    [Vec2(r.xmin, r.ymin), Vec2(r.xmax, r.ymin), Vec2(r.xmax, r.ymax), Vec2(r.xmin, r.ymax), Vec2(r.xmin, r.ymin)]
  }

  /** The start of side `k`: `(x2[k], y2[k])`. */
  function Corner(r: Rect, k: nat): Vec2
    requires k < 4
  {
    RectLoop(r)[k]
  }

  /** The direction of side `k`: `(u2[k], v2[k])`. */
  function Side(r: Rect, k: nat): Vec2
    requires k < 4
  {
    var loop := RectLoop(r);
    Vec2(loop[k + 1].x - loop[k].x, loop[k + 1].y - loop[k].y)
  }

  /** `divisor[k]`: the cross product of the line's and the side's
      directions. */
  function Divisor(dir: Vec2, r: Rect, k: nat): real
    requires k < 4
  {
    dir.y * Side(r, k).x - Side(r, k).y * dir.x
  }

  /** `t2[k]` before the division. */
  function Numerator(cen: Vec2, dir: Vec2, r: Rect, k: nat): real
    requires k < 4
  {
    (dir.y * cen.x - dir.x * cen.y) - (dir.y * Corner(r, k).x - dir.x * Corner(r, k).y)
  }

  /** `t2[k]` (lines 88-93): -1 for a skipped side, the position along the
      side otherwise. A zero divisor passing the test (possible only for a
      negative `eps`) makes the float quotient infinite or NaN, which never
      lies in `[0, 1]`; -1 stands for it here. */
  function SideParam(cen: Vec2, dir: Vec2, r: Rect, eps: real, k: nat): real
    requires k < 4
  {
    var d := Divisor(dir, r, k);
    if Abs(d) > eps && d != 0.0 then Numerator(cen, dir, r, k) / d else -1.0
  }

  /** `keep[k]` (line 95). */
  predicate Hit(cen: Vec2, dir: Vec2, r: Rect, eps: real, k: nat)
    requires k < 4
  {
    0.0 <= SideParam(cen, dir, r, eps, k) <= 1.0
  }

  /** `rect_loop[k] + t2[k] * (u2[k], v2[k])` (line 98). */
  function SidePoint(cen: Vec2, dir: Vec2, r: Rect, eps: real, k: nat): Vec2
    requires k < 4
  {
    var t := SideParam(cen, dir, r, eps, k);
    Vec2(Corner(r, k).x + t * Side(r, k).x, Corner(r, k).y + t * Side(r, k).y)
  }

  /** The sides from `k` on that the line meets, in loop order. */
  function HitSides(cen: Vec2, dir: Vec2, r: Rect, eps: real, k: nat): (s: seq<nat>)
    requires k <= 4
    ensures |s| <= 4 - k
    ensures forall m :: 0 <= m < |s| ==> k <= s[m] < 4 && Hit(cen, dir, r, eps, s[m])
    ensures forall m, n :: 0 <= m < n < |s| ==> s[m] < s[n]
    ensures forall j :: k <= j < 4 && Hit(cen, dir, r, eps, j) ==> j in s
    decreases 4 - k
  {
    if k == 4 then []
    else if Hit(cen, dir, r, eps, k) then [k] + HitSides(cen, dir, r, eps, k + 1)
    else HitSides(cen, dir, r, eps, k + 1)
  }

  /** `line_rectangle_check(cen, dir, rect, eps)` (lines 66-100): the number
      of sides met and the meeting points, side by side. */
  function LineRectangleCheck(cen: Vec2, dir: Vec2, r: Rect, eps: real): (res: Intersections)
    ensures res.count == |res.points| <= 4
  {
    var sides := HitSides(cen, dir, r, eps, 0);
    Intersections(|sides|, seq(|sides|, m requires 0 <= m < |sides| => SidePoint(cen, dir, r, eps, sides[m])))
  }

  /** The points are those of the sides met, in loop order (bottom, right,
      top, left), and a side is met exactly when it is not near-parallel to
      the line and the meeting point lies between its two corners. */
  lemma IntersectionsBySide(cen: Vec2, dir: Vec2, r: Rect, eps: real)
    ensures var sides := HitSides(cen, dir, r, eps, 0);
      var res := LineRectangleCheck(cen, dir, r, eps);
      && |sides| == res.count
      && (forall m :: 0 <= m < |sides| ==> res.points[m] == SidePoint(cen, dir, r, eps, sides[m]))
      && (forall m, n :: 0 <= m < n < |sides| ==> sides[m] < sides[n])
      && (forall k :: 0 <= k < 4 ==>
            (k in sides <==> Abs(Divisor(dir, r, k)) > eps && Divisor(dir, r, k) != 0.0
                             && 0.0 <= Numerator(cen, dir, r, k) / Divisor(dir, r, k) <= 1.0))
  {
  }

  /** A side within `eps` of parallel to the line never contributes. */
  lemma ParallelSidesSkipped(cen: Vec2, dir: Vec2, r: Rect, eps: real, k: nat)
    requires k < 4 && Abs(Divisor(dir, r, k)) <= eps
    ensures k !in HitSides(cen, dir, r, eps, 0)
  {
  }

  /** `p` lies on the line through `cen` with direction `dir`. */
  predicate OnLine(cen: Vec2, dir: Vec2, p: Vec2) {
    dir.y * (p.x - cen.x) - dir.x * (p.y - cen.y) == 0.0
  }

  /** `p` lies in the closed rectangle. */
  predicate InRect(r: Rect, p: Vec2) {
    r.xmin <= p.x <= r.xmax && r.ymin <= p.y <= r.ymax
  }

  /** Multiplying both sides of the quotient back. */
  lemma QuotientTimesDivisor(n: real, d: real)
    requires d != 0.0
    ensures (n / d) * d == n
  {
  }

  /** A meeting point lies on the line: its offset from `cen` is parallel
      to `dir`. */
  lemma SidePointOnLine(cen: Vec2, dir: Vec2, r: Rect, eps: real, k: nat)
    requires k < 4 && Hit(cen, dir, r, eps, k)
    ensures OnLine(cen, dir, SidePoint(cen, dir, r, eps, k))
  {
    var d := Divisor(dir, r, k);
    var n := Numerator(cen, dir, r, k);
    var t := SideParam(cen, dir, r, eps, k);
    assert t == n / d;
    QuotientTimesDivisor(n, d);
    var c := Corner(r, k);
    var s := Side(r, k);
    calc {
      dir.y * ((c.x + t * s.x) - cen.x) - dir.x * ((c.y + t * s.y) - cen.y);
      (dir.y * c.x - dir.x * c.y) - (dir.y * cen.x - dir.x * cen.y) + t * (dir.y * s.x - s.y * dir.x);
      -n + t * d;
      0.0;
    }
  }

  /** `t * w` for `t` in `[0, 1]` lies between 0 and `w`. */
  lemma ScaledBetween(t: real, w: real)
    requires 0.0 <= t <= 1.0 && 0.0 <= w
    ensures 0.0 <= t * w <= w
  {
  }

  /** On a rectangle with its corners in order, a meeting point lies in
      the closed rectangle. */
  lemma SidePointInRect(cen: Vec2, dir: Vec2, r: Rect, eps: real, k: nat)
    requires k < 4 && Hit(cen, dir, r, eps, k)
    requires r.xmin <= r.xmax && r.ymin <= r.ymax
    ensures InRect(r, SidePoint(cen, dir, r, eps, k))
  {
    var t := SideParam(cen, dir, r, eps, k);
    ScaledBetween(t, r.xmax - r.xmin);
    ScaledBetween(t, r.ymax - r.ymin);
    ScaledBetween(1.0 - t, r.xmax - r.xmin);
    ScaledBetween(1.0 - t, r.ymax - r.ymin);
  }

  /** Every point `line_rectangle_check` returns lies on the line and, for
      an ordered rectangle, in it. */
  lemma IntersectionsOnLineInRect(cen: Vec2, dir: Vec2, r: Rect, eps: real)
    ensures var res := LineRectangleCheck(cen, dir, r, eps);
      forall m :: 0 <= m < res.count ==>
        OnLine(cen, dir, res.points[m]) && (r.xmin <= r.xmax && r.ymin <= r.ymax ==> InRect(r, res.points[m]))
  {
    var sides := HitSides(cen, dir, r, eps, 0);
    var res := LineRectangleCheck(cen, dir, r, eps);
    forall m | 0 <= m < |sides|
      ensures OnLine(cen, dir, res.points[m])
      ensures r.xmin <= r.xmax && r.ymin <= r.ymax ==> InRect(r, res.points[m])
    {
      assert res.points[m] == SidePoint(cen, dir, r, eps, sides[m]);
      SidePointOnLine(cen, dir, r, eps, sides[m]);
      if r.xmin <= r.xmax && r.ymin <= r.ymax {
        SidePointInRect(cen, dir, r, eps, sides[m]);
      }
    }
  }

  /** The end of `project_line_image` (lines 139-144): with the line's
      image-plane centre and direction, the segment between the first two
      meeting points with the frame `(0, 0, width, height)`, but only when
      there are exactly two; otherwise `None`. */
  function ProjectLineImage(cenUv: Vec2, dirUv: Vec2, width: real, height: real): (seg: Option<(Vec2, Vec2)>)
  {
    var res := LineRectangleCheck(cenUv, dirUv, Rect(0.0, 0.0, width, height), Eps);
    if res.count == 2 then Some((res.points[0], res.points[1])) else None
  }

  /** A segment comes back exactly when the line meets two sides of the
      frame; its ends lie on the line, inside the frame, and come from two
      different sides in loop order. */
  lemma ProjectedSegment(cenUv: Vec2, dirUv: Vec2, width: real, height: real)
    requires 0.0 <= width && 0.0 <= height
    ensures var r := Rect(0.0, 0.0, width, height);
      var seg := ProjectLineImage(cenUv, dirUv, width, height);
      var sides := HitSides(cenUv, dirUv, r, Eps, 0);
      && (seg.Some? <==> |sides| == 2)
      && (seg.Some? ==>
            && sides[0] < sides[1]
            && seg.value.0 == SidePoint(cenUv, dirUv, r, Eps, sides[0])
            && seg.value.1 == SidePoint(cenUv, dirUv, r, Eps, sides[1])
            && OnLine(cenUv, dirUv, seg.value.0) && OnLine(cenUv, dirUv, seg.value.1)
            && InRect(r, seg.value.0) && InRect(r, seg.value.1))
  {
    var r := Rect(0.0, 0.0, width, height);
    IntersectionsBySide(cenUv, dirUv, r, Eps);
    IntersectionsOnLineInRect(cenUv, dirUv, r, Eps);
  }
}

=== FILE: ordering.dfy ===
/** Python's ordering of `str` values (lexicographic by code point, a proper
    prefix first) and the `sorted(..., key=...)` built-in, written as an
    insertion sort. */
module Ordering {

  /** `a <= b` on Python strings. */
  predicate StrLe(a: string, b: string)
    decreases |a|
  {
    if |a| == 0 then true
    else if |b| == 0 then false
    else if a[0] != b[0] then a[0] < b[0]
    else StrLe(a[1..], b[1..])
  }

  lemma {:induction false} StrLeReflexive(a: string)
    ensures StrLe(a, a)
    decreases |a|
  {
    if |a| > 0 {
      StrLeReflexive(a[1..]);
    }
  }

  lemma {:induction false} StrLeTotal(a: string, b: string)
    ensures StrLe(a, b) || StrLe(b, a)
    decreases |a|
  {
    if |a| > 0 && |b| > 0 && a[0] == b[0] {
      StrLeTotal(a[1..], b[1..]);
    }
  }

  lemma {:induction false} StrLeAntisymmetric(a: string, b: string)
    requires StrLe(a, b) && StrLe(b, a)
    ensures a == b
    decreases |a|
  {
    if |a| > 0 {
      StrLeAntisymmetric(a[1..], b[1..]);
      assert a == [a[0]] + a[1..];
      assert b == [b[0]] + b[1..];
    }
  }

  lemma {:induction false} StrLeTransitive(a: string, b: string, c: string)
    requires StrLe(a, b) && StrLe(b, c)
    ensures StrLe(a, c)
    decreases |a|
  {
    if |a| > 0 && |b| > 0 && |c| > 0 && a[0] == b[0] && b[0] == c[0] {
      StrLeTransitive(a[1..], b[1..], c[1..]);
    }
  }

  /** `a < b` on Python strings. */
  predicate StrLt(a: string, b: string) {
    StrLe(a, b) && a != b
  }

  /** The elements are in ascending key order. */
  ghost predicate SortedBy<T>(s: seq<T>, key: T -> string) {
    forall i, j :: 0 <= i < j < |s| ==> StrLe(key(s[i]), key(s[j]))
  }

  /** The elements are pairwise different. */
  ghost predicate Distinct<T>(s: seq<T>) {
    forall i, j :: 0 <= i < j < |s| ==> s[i] != s[j]
  }

  /** Strictly ascending strings. */
  ghost predicate StrictlySorted(s: seq<string>) {
    forall i, j :: 0 <= i < j < |s| ==> StrLt(s[i], s[j])
  }

  /** Places `x` in front of the first element whose key is not below it. */
  function Insert<T>(x: T, s: seq<T>, key: T -> string): (r: seq<T>)
    requires SortedBy(s, key)
    ensures SortedBy(r, key)
    ensures multiset(r) == multiset(s) + multiset{x}
    ensures |r| == |s| + 1
  {
    if |s| == 0 then [x]
    else if StrLe(key(x), key(s[0])) then
      assert forall j :: 0 < j < |s| ==> StrLe(key(s[0]), key(s[j]));
      forall j | 0 < j < |s| ensures StrLe(key(x), key(s[j])) {
        StrLeTransitive(key(x), key(s[0]), key(s[j]));
      }
      [x] + s
    else
      var tail := Insert(x, s[1..], key);
      StrLeTotal(key(x), key(s[0]));
      assert s == [s[0]] + s[1..];
      assert forall j :: 0 <= j < |tail| ==> StrLe(key(s[0]), key(tail[j])) by {
        forall j | 0 <= j < |tail| ensures StrLe(key(s[0]), key(tail[j])) {
          assert tail[j] in multiset(tail);
          assert tail[j] == x || tail[j] in multiset(s[1..]);
          if tail[j] != x {
            var k :| 0 <= k < |s[1..]| && s[1..][k] == tail[j];
            assert s[k + 1] == tail[j];
          }
        }
      }
      [s[0]] + tail
  }

  /** `sorted(s, key=key)`: the same elements in ascending key order. */
  function SortBy<T>(s: seq<T>, key: T -> string): (r: seq<T>)
    ensures SortedBy(r, key)
    ensures multiset(r) == multiset(s)
    ensures |r| == |s|
  {
    if |s| == 0 then []
    else
      assert s == [s[0]] + s[1..];
      Insert(s[0], SortBy(s[1..], key), key)
  }

  function Identity(s: string): string {
    s
  }

  /** `sorted(s)` on a list of strings. */
  function Sort(s: seq<string>): (r: seq<string>)
    ensures SortedBy(r, Identity)
    ensures multiset(r) == multiset(s)
  {
    SortBy(s, Identity)
  }

  lemma {:induction false} DistinctMultiplicity<T>(s: seq<T>, x: T)
    requires Distinct(s)
    ensures multiset(s)[x] <= 1
    decreases |s|
  {
    if |s| > 0 {
      assert s == [s[0]] + s[1..];
      DistinctMultiplicity(s[1..], x);
      if s[0] == x {
        assert x !in s[1..];
      }
    }
  }

  lemma RepeatedMultiplicity<T>(b: seq<T>, i: nat, j: nat)
    requires i < j < |b| && b[i] == b[j]
    ensures multiset(b)[b[i]] >= 2
  {
    assert b == b[..i] + [b[i]] + b[i+1..j] + [b[j]] + b[j+1..];
  }

  /** A rearrangement of a list without repetitions has none either. */
  lemma DistinctPermutation<T>(a: seq<T>, b: seq<T>)
    requires multiset(a) == multiset(b)
    requires Distinct(a)
    ensures Distinct(b)
  {
    forall i, j | 0 <= i < j < |b| ensures b[i] != b[j] {
      DistinctMultiplicity(a, b[i]);
      if b[i] == b[j] {
        RepeatedMultiplicity(b, i, j);
      }
    }
  }

  /** Sorting a list of different strings gives a strictly ascending list. */
  lemma SortDistinctStrict(s: seq<string>)
    requires Distinct(s)
    ensures StrictlySorted(Sort(s))
    ensures Distinct(Sort(s))
  {
    DistinctPermutation(s, Sort(s));
  }
}

=== FILE: selection.dfy ===
/** `calc_graph` and `graph2fpaths` (homography_filter/lib.py): one
    left-to-right scan over the frames. From an anchor `i` the successors
    `j = i+1, i+2, ...` are probed until `overlap(i, j)` drops below the
    threshold; then the pair `(i, j)` is recorded, every cache entry of the
    window `[i, j]` is deleted, and `j` becomes the anchor. The scan never
    goes back. */
module Selection {
  import opened Wrappers
  import opened Ordering
  import opened Caches

  /** The arguments of `calc_graph` that the scan reads. */
  datatype Config = Config(threshold: real, rangeMin: nat, rangeMax: Option<int>, clearCache: bool)

  /** `graph['fpaths'][i, j] = [fpaths[i], fpaths[j]]`. */
  datatype Edge = Edge(i: int, j: int, src: FrameId, dst: FrameId)

  /** One `calc_overlap` call of the scan (one progress-bar tick). */
  datatype Probe = Probe(i: int, j: int, overlap: real)

  /** The caches, the recorded edges (in insertion order) and the probes. */
  datatype Scan = Scan(caches: Caches, edges: seq<Edge>, probes: seq<Probe>)

  /** `frame_range_max`, defaulting to the number of frames (lines 177-178). */
  function RangeMax(cfg: Config, fpaths: seq<FrameId>): (max: int)
    ensures cfg.rangeMax.None? ==> max == |fpaths|
  {
    match cfg.rangeMax
    case None => |fpaths|
    case Some(m) => m
  }

  /** `del m[k]`. */
  function Del<K, V>(m: map<K, V>, k: K): (r: Result<map<K, V>>)
    ensures r.Success? <==> k in m
    ensures r.Success? ==> r.value == m - {k}
    ensures r.Failure? ==> r.error == KeyError
  {
    if k in m then Success(m - {k}) else Failure(KeyError)
  }

  /** The loop of lines 201-206, from `j_ = k` to `j`: each pass deletes
      four entries and raises KeyError when any of them is missing. */
  function EvictTargets(c: Caches, fpaths: seq<FrameId>, pi: FrameId, k: nat, j: int): Result<Caches>
    requires j < |fpaths|
    decreases j + 1 - k
  {
    if k > j then Success(c)
    else
      var pj := fpaths[k];
      if Pair(pi, pj) in c.homographies && Pair(pi, pj) in c.matches && pj in c.images && pj in c.features then
        EvictTargets(c.(homographies := c.homographies - {Pair(pi, pj)}, matches := c.matches - {Pair(pi, pj)},
                        images := c.images - {pj}, features := c.features - {pj}), fpaths, pi, k + 1, j)
      else
        Failure(KeyError)
  }

  /** Lines 197-206: the deletions after a cut from `i` to `j`. */
  function Evict(c: Caches, fpaths: seq<FrameId>, i: nat, j: int): Result<Caches>
    requires i < j < |fpaths|
  {
    var pi := fpaths[i];
    var im :- Del(c.images, pi);
    var f :- Del(c.features, pi);
    EvictTargets(c.(images := im, features := f), fpaths, pi, i + 1, j)
  }


  /** `graph2fpaths`: the first edge's source, then every edge's target.
      An empty graph raises IndexError at `fpaths[0]`. */
  function GraphToPaths(edges: seq<Edge>): (r: Result<seq<FrameId>>)
    ensures r.Failure? <==> edges == []
    ensures r.Failure? ==> r.error == IndexError
    ensures r.Success? ==> |r.value| == |edges| + 1 && r.value[0] == edges[0].src
    ensures r.Success? ==> forall k :: 0 <= k < |edges| ==> r.value[k + 1] == edges[k].dst
  {
    if |edges| == 0 then Failure(IndexError)
    else Success([edges[0].src] + seq(|edges|, k requires 0 <= k < |edges| => edges[k].dst))
  }

  // ---------------------------------------------------------------------
  // Deletions
  // ---------------------------------------------------------------------

  /** Successful deletions only remove keys, and the same ones from the
      images and the features. */
  lemma {:induction false} EvictTargetsShrinks(c: Caches, fpaths: seq<FrameId>, pi: FrameId, k: nat, j: int)
    requires j < |fpaths|
    requires EvictTargets(c, fpaths, pi, k, j).Success?
    ensures var r := EvictTargets(c, fpaths, pi, k, j).value;
      && r.imSize == c.imSize
      && r.images.Keys <= c.images.Keys
      && (c.images.Keys == c.features.Keys ==> r.images.Keys == r.features.Keys)
      && (forall x :: x in r.images ==> r.images[x] == c.images[x])
      && (forall x :: x in r.features ==> x in c.features && r.features[x] == c.features[x])
      && (forall x :: x in r.matches ==> x in c.matches && r.matches[x] == c.matches[x])
      && (forall x :: x in r.homographies ==> x in c.homographies && r.homographies[x] == c.homographies[x])
    decreases j + 1 - k
  {
    if k <= j {
      var pj := fpaths[k];
      var c' := c.(homographies := c.homographies - {Pair(pi, pj)}, matches := c.matches - {Pair(pi, pj)},
                   images := c.images - {pj}, features := c.features - {pj});
      EvictTargetsShrinks(c', fpaths, pi, k + 1, j);
    }
  }

  lemma EvictKeepsValid(c: Caches, fpaths: seq<FrameId>, i: nat, j: int)
    requires i < j < |fpaths|
    requires Valid(c)
    requires Evict(c, fpaths, i, j).Success?
    ensures Valid(Evict(c, fpaths, i, j).value)
  {
    var pi := fpaths[i];
    var c' := c.(images := c.images - {pi}, features := c.features - {pi});
    EvictTargetsShrinks(c', fpaths, pi, i + 1, j);
  }

  /** The frames at positions `lo <= k < hi`. */
  ghost function Frames(fpaths: seq<FrameId>, lo: nat, hi: nat): set<FrameId>
    decreases hi - lo
  {
    if lo >= hi || lo >= |fpaths| then {} else {fpaths[lo]} + Frames(fpaths, lo + 1, hi)
  }

  /** The pairs `(fpaths[i], fpaths[k])` for `lo <= k < hi`. */
  ghost function PairsFrom(fpaths: seq<FrameId>, i: nat, lo: nat, hi: nat): set<Pair>
    requires i < |fpaths|
    decreases hi - lo
  {
    if lo >= hi || lo >= |fpaths| then {} else {Pair(fpaths[i], fpaths[lo])} + PairsFrom(fpaths, i, lo + 1, hi)
  }

  /** A frame that differs from every frame of a range is not in it, and
      neither are its pairs. */
  lemma {:induction false} OutsideRange(fpaths: seq<FrameId>, i: nat, x: FrameId, lo: nat, hi: nat)
    requires i < |fpaths| && hi <= |fpaths|
    requires forall m :: lo <= m < hi ==> fpaths[m] != x
    ensures x !in Frames(fpaths, lo, hi)
    ensures Pair(fpaths[i], x) !in PairsFrom(fpaths, i, lo, hi)
    decreases hi - lo
  {
    if lo < hi {
      OutsideRange(fpaths, i, x, lo + 1, hi);
    }
  }

  /** Every frame of a range is in it. */
  lemma {:induction false} InRange(fpaths: seq<FrameId>, lo: nat, m: nat, hi: nat)
    requires lo <= m < hi <= |fpaths|
    ensures fpaths[m] in Frames(fpaths, lo, hi)
    decreases m - lo
  {
    if lo < m {
      InRange(fpaths, lo + 1, m, hi);
    }
  }

  /** Ranges grow one frame at the top. */
  lemma {:induction false} RangeExtend(fpaths: seq<FrameId>, i: nat, lo: nat, hi: nat)
    requires i < |fpaths| && lo <= hi < |fpaths|
    ensures Frames(fpaths, lo, hi + 1) == Frames(fpaths, lo, hi) + {fpaths[hi]}
    ensures PairsFrom(fpaths, i, lo, hi + 1) == PairsFrom(fpaths, i, lo, hi) + {Pair(fpaths[i], fpaths[hi])}
    decreases hi - lo
  {
    if lo < hi {
      RangeExtend(fpaths, i, lo + 1, hi);
    }
  }

  /** No frame from position `j` on has been decoded yet. */
  ghost predicate Unseen(c: Caches, fpaths: seq<FrameId>, j: nat) {
    forall m :: j <= m < |fpaths| ==> fpaths[m] !in c.images
  }

  /** Caches holding nothing hold the empty window. */
  lemma EmptyWindow(c: Caches, fpaths: seq<FrameId>, i: nat)
    requires i + 1 <= |fpaths|
    requires Cleared(c)
    ensures Window(c, fpaths, i, i + 1)
  {
  }

  /** The frames at positions `lo <= m < hi`, as a comprehension. */
  ghost function Span(fpaths: seq<FrameId>, lo: nat, hi: nat): set<FrameId>
    requires hi <= |fpaths|
  {
    set m | lo <= m < hi :: fpaths[m]
  }

  /** The pairs from `fpaths[i]` to the frames at `lo <= m < hi`. */
  ghost function SpanPairs(fpaths: seq<FrameId>, i: nat, lo: nat, hi: nat): set<Pair>
    requires i < |fpaths| && hi <= |fpaths|
  {
    set m | lo <= m < hi :: Pair(fpaths[i], fpaths[m])
  }

  /** Before probing `(i, j)` with cache clearing on: the caches hold exactly
      what the probes `(i, i+1) .. (i, j-1)` put there, and nothing when none
      has run yet. */
  ghost predicate Window(c: Caches, fpaths: seq<FrameId>, i: nat, j: nat)
    requires i < j <= |fpaths|
  {
    && c.images.Keys == WindowFrames(fpaths, i, j)
    && c.features.Keys == WindowFrames(fpaths, i, j)
    && c.matches.Keys == SpanPairs(fpaths, i, i + 1, j)
    && c.homographies.Keys == SpanPairs(fpaths, i, i + 1, j)
  }

  /** The frames decoded under anchor `i` before probing `(i, j)`: none
      before the first probe, then `i` and the targets so far. */
  ghost function WindowFrames(fpaths: seq<FrameId>, i: nat, j: nat): set<FrameId>
    requires i < j <= |fpaths|
  {
    if j == i + 1 then {} else Span(fpaths, i, j)
  }

  /** The recursive ranges and the comprehensions agree. */
  lemma {:induction false} RangesAreSpans(fpaths: seq<FrameId>, i: nat, lo: nat, hi: nat)
    requires i < |fpaths| && hi <= |fpaths|
    ensures Frames(fpaths, lo, hi) == Span(fpaths, lo, hi)
    ensures PairsFrom(fpaths, i, lo, hi) == SpanPairs(fpaths, i, lo, hi)
    decreases hi - lo
  {
    if lo < hi {
      RangesAreSpans(fpaths, i, lo + 1, hi);
      assert Span(fpaths, lo, hi) == {fpaths[lo]} + Span(fpaths, lo + 1, hi);
      assert SpanPairs(fpaths, i, lo, hi) == {Pair(fpaths[i], fpaths[lo])} + SpanPairs(fpaths, i, lo + 1, hi);
    } else {
      assert Span(fpaths, lo, hi) == {};
      assert SpanPairs(fpaths, i, lo, hi) == {};
    }
  }

  /** Comprehension ranges grow one frame at the top. */
  lemma SpanExtend(fpaths: seq<FrameId>, i: nat, lo: nat, hi: nat)
    requires i < |fpaths| && lo <= hi < |fpaths|
    ensures Span(fpaths, lo, hi + 1) == Span(fpaths, lo, hi) + {fpaths[hi]}
    ensures SpanPairs(fpaths, i, lo, hi + 1) == SpanPairs(fpaths, i, lo, hi) + {Pair(fpaths[i], fpaths[hi])}
  {
  }

  /** Dropping the first frame of a range of distinct frames. */
  lemma RangeStep(fpaths: seq<FrameId>, i: nat, k: nat, hi: nat)
    requires Distinct(fpaths) && i < |fpaths| && k < hi <= |fpaths|
    ensures fpaths[k] in Frames(fpaths, k, hi)
    ensures Frames(fpaths, k, hi) - {fpaths[k]} == Frames(fpaths, k + 1, hi)
    ensures Pair(fpaths[i], fpaths[k]) in PairsFrom(fpaths, i, k, hi)
    ensures PairsFrom(fpaths, i, k, hi) - {Pair(fpaths[i], fpaths[k])} == PairsFrom(fpaths, i, k + 1, hi)
  {
    OutsideRange(fpaths, i, fpaths[k], k + 1, hi);
  }

  /** One iteration of the deletion loop when all four keys are present. */
  lemma EvictTargetsStep(c: Caches, fpaths: seq<FrameId>, pi: FrameId, k: nat, j: int)
    requires k <= j < |fpaths|
    requires Pair(pi, fpaths[k]) in c.homographies && Pair(pi, fpaths[k]) in c.matches
    requires fpaths[k] in c.images && fpaths[k] in c.features
    ensures var pj := fpaths[k];
      EvictTargets(c, fpaths, pi, k, j)
      == EvictTargets(c.(homographies := c.homographies - {Pair(pi, pj)}, matches := c.matches - {Pair(pi, pj)},
                         images := c.images - {pj}, features := c.features - {pj}), fpaths, pi, k + 1, j)
  {
  }

  /** Emptied caches: nothing left in any of the four maps. */
  ghost predicate Cleared(c: Caches) {
    c.images.Keys == {} && c.features.Keys == {} && c.matches.Keys == {} && c.homographies.Keys == {}
  }

  lemma {:induction false} EvictTargetsEmpties(c: Caches, fpaths: seq<FrameId>, i: nat, k: nat, j: nat) returns (r: Caches)
    requires i < k <= j + 1 && j < |fpaths|
    requires Distinct(fpaths)
    requires c.images.Keys == Frames(fpaths, k, j + 1) && c.features.Keys == Frames(fpaths, k, j + 1)
    requires c.matches.Keys == PairsFrom(fpaths, i, k, j + 1)
    requires c.homographies.Keys == PairsFrom(fpaths, i, k, j + 1)
    ensures EvictTargets(c, fpaths, fpaths[i], k, j) == Success(r)
    ensures Cleared(r) && r.imSize == c.imSize
    decreases j + 1 - k
  {
    var pi := fpaths[i];
    if k <= j {
      var pj := fpaths[k];
      var c' := c.(homographies := c.homographies - {Pair(pi, pj)}, matches := c.matches - {Pair(pi, pj)},
                   images := c.images - {pj}, features := c.features - {pj});
      assert c'.images.Keys == Frames(fpaths, k + 1, j + 1) && c'.features.Keys == Frames(fpaths, k + 1, j + 1)
        && c'.matches.Keys == PairsFrom(fpaths, i, k + 1, j + 1)
        && c'.homographies.Keys == PairsFrom(fpaths, i, k + 1, j + 1) by {
        RangeStep(fpaths, i, k, j + 1);
      }
      assert EvictTargets(c, fpaths, pi, k, j) == EvictTargets(c', fpaths, pi, k + 1, j) by {
        RangeStep(fpaths, i, k, j + 1);
        EvictTargetsStep(c, fpaths, pi, k, j);
      }
      r := EvictTargetsEmpties(c', fpaths, i, k + 1, j);
    } else {
      assert Frames(fpaths, k, j + 1) == {};
      assert PairsFrom(fpaths, i, k, j + 1) == {};
      r := c;
    }
  }

  /** Lines 196-206: a cut from `i` to `j` finds every key it deletes (no
      KeyError) and leaves all four caches empty for the new anchor `j`. */
  lemma EvictEmptiesWindow(c: Caches, fpaths: seq<FrameId>, i: nat, j: nat) returns (r: Caches)
    requires i < j < |fpaths|
    requires Distinct(fpaths)
    requires Window(c, fpaths, i, j + 1)
    ensures Evict(c, fpaths, i, j) == Success(r)
    ensures Cleared(r) && r.imSize == c.imSize
  {
    var pi := fpaths[i];
    RangesAreSpans(fpaths, i, i, j + 1);
    RangesAreSpans(fpaths, i, i + 1, j + 1);
    RangeStep(fpaths, i, i, j + 1);
    var c' := c.(images := c.images - {pi}, features := c.features - {pi});
    r := EvictTargetsEmpties(c', fpaths, i, i + 1, j);
  }

  // ---------------------------------------------------------------------
  // The greedy rule without caches
  // ---------------------------------------------------------------------

  /** A recorded cut `(i, j)`. */
  datatype Cut = Cut(i: int, j: int)

  /** The first `k` in `[j, max)` with `ov(i, k) < thr`, if any. */
  ghost function FirstCut(ov: (int, int) -> real, thr: real, i: int, j: int, max: int): (r: Option<int>)
    decreases max - j
    ensures r.Some? ==> j <= r.value < max
  {
    if j >= max then None
    else if ov(i, j) < thr then Some(j)
    else FirstCut(ov, thr, i, j + 1, max)
  }

  /** The cuts of the greedy rule from anchor `i`: the first frame whose
      overlap with the anchor is below the threshold becomes the next anchor;
      no cut is recorded for an anchor nothing falls below. */
  ghost function Greedy(ov: (int, int) -> real, thr: real, i: int, max: int): (r: seq<Cut>)
    decreases max - i
    ensures forall k :: 0 <= k < |r| ==> i <= r[k].i < r[k].j < max
  {
    if i >= max - 1 then []
    else Continue(ov, thr, i, i + 1, max)
  }

  /** The cuts from anchor `i` once `i+1 .. j-1` have been found redundant. */
  ghost function Continue(ov: (int, int) -> real, thr: real, i: int, j: int, max: int): (r: seq<Cut>)
    requires i < j
    decreases max - i, 0
    ensures forall k :: 0 <= k < |r| ==> i <= r[k].i < r[k].j < max
  {
    match FirstCut(ov, thr, i, j, max)
    case None => []
    case Some(k) => [Cut(i, k)] + Greedy(ov, thr, k, max)
  }

  /** `FirstCut` finds the first position below the threshold. */
  lemma {:induction false} FirstCutIsFirst(ov: (int, int) -> real, thr: real, i: int, j: int, max: int)
    ensures var r := FirstCut(ov, thr, i, j, max);
      && (r.Some? ==> ov(i, r.value) < thr && forall m :: j <= m < r.value ==> ov(i, m) >= thr)
      && (r.None? ==> forall m :: j <= m < max ==> ov(i, m) >= thr)
    decreases max - j
  {
    if j < max && ov(i, j) >= thr {
      FirstCutIsFirst(ov, thr, i, j + 1, max);
    }
  }

  /** The greedy cuts read the overlaps only at positions below `max`. */
  lemma {:induction false} GreedyLocal(ov1: (int, int) -> real, ov2: (int, int) -> real, thr: real, i: int, max: int)
    requires 0 <= i
    requires forall x, y :: 0 <= x < max && 0 <= y < max ==> ov1(x, y) == ov2(x, y)
    ensures Greedy(ov1, thr, i, max) == Greedy(ov2, thr, i, max)
    decreases max - i, 1
  {
    if i < max - 1 {
      ContinueLocal(ov1, ov2, thr, i, i + 1, max);
    }
  }

  lemma {:induction false} ContinueLocal(ov1: (int, int) -> real, ov2: (int, int) -> real, thr: real, i: int, j: int, max: int)
    requires 0 <= i < j
    requires forall x, y :: 0 <= x < max && 0 <= y < max ==> ov1(x, y) == ov2(x, y)
    ensures Continue(ov1, thr, i, j, max) == Continue(ov2, thr, i, j, max)
    decreases max - i, 0
  {
    FirstCutLocal(ov1, ov2, thr, i, j, max);
    match FirstCut(ov1, thr, i, j, max)
    case None =>
    case Some(k) =>
      GreedyLocal(ov1, ov2, thr, k, max);
  }

  lemma {:induction false} FirstCutLocal(ov1: (int, int) -> real, ov2: (int, int) -> real, thr: real, i: int, j: int, max: int)
    requires 0 <= i < j
    requires forall x, y :: 0 <= x < max && 0 <= y < max ==> ov1(x, y) == ov2(x, y)
    ensures FirstCut(ov1, thr, i, j, max) == FirstCut(ov2, thr, i, j, max)
    decreases max - j
  {
    if j < max {
      FirstCutLocal(ov1, ov2, thr, i, j + 1, max);
    }
  }

  /** The anchor the scan ends on. */
  function LastAnchor(cuts: seq<Cut>, start: int): int {
    if |cuts| == 0 then start else cuts[|cuts| - 1].j
  }

  /** What makes a list of cuts from anchor `i` greedy: the cuts chain from
      `i`, every cut is below the threshold, every frame strictly inside a
      cut and every frame after the last anchor is at or above it. */
  ghost predicate IsGreedy(ov: (int, int) -> real, thr: real, i: int, max: int, r: seq<Cut>) {
    && (|r| > 0 ==> r[0].i == i)
    && (forall k :: 0 <= k < |r| - 1 ==> r[k].j == r[k + 1].i)
    && (forall k :: 0 <= k < |r| ==> ov(r[k].i, r[k].j) < thr)
    && (forall k, m :: 0 <= k < |r| && r[k].i < m < r[k].j ==> ov(r[k].i, m) >= thr)
    && (forall m :: LastAnchor(r, i) < m < max ==> ov(LastAnchor(r, i), m) >= thr)
  }

  /** `Greedy` is greedy. */
  lemma {:induction false} GreedyIsGreedy(ov: (int, int) -> real, thr: real, i: int, max: int)
    ensures IsGreedy(ov, thr, i, max, Greedy(ov, thr, i, max))
    decreases max - i, 1
  {
    if i < max - 1 {
      ContinueIsGreedy(ov, thr, i, i + 1, max);
    }
  }

  /** `Continue` is greedy once `i+1 .. j-1` are known redundant. */
  lemma {:induction false} ContinueIsGreedy(ov: (int, int) -> real, thr: real, i: int, j: int, max: int)
    requires i < j
    requires forall m :: i < m < j ==> ov(i, m) >= thr
    ensures IsGreedy(ov, thr, i, max, Continue(ov, thr, i, j, max))
    decreases max - i, 0
  {
    FirstCutIsFirst(ov, thr, i, j, max);
    match FirstCut(ov, thr, i, j, max)
    case None =>
    case Some(k) =>
      GreedyIsGreedy(ov, thr, k, max);
      ConsIsGreedy(ov, thr, i, k, max, Greedy(ov, thr, k, max));
  }

  /** A cut `(i, k)` below the threshold, with nothing between below it,
      followed by greedy cuts from `k`, is greedy from `i`. */
  lemma ConsIsGreedy(ov: (int, int) -> real, thr: real, i: int, k: int, max: int, rest: seq<Cut>)
    requires ov(i, k) < thr
    requires forall m :: i < m < k ==> ov(i, m) >= thr
    requires IsGreedy(ov, thr, k, max, rest)
    ensures IsGreedy(ov, thr, i, max, [Cut(i, k)] + rest)
  {
    var r := [Cut(i, k)] + rest;
    assert forall n :: 0 < n < |r| ==> r[n] == rest[n - 1];
    assert LastAnchor(r, i) == LastAnchor(rest, k);
  }

  // ---------------------------------------------------------------------
  // The scan computes the greedy cuts
  // ---------------------------------------------------------------------

  /** The overlap of two positions of a frame list, computed without caches. */
  ghost function OverlapAt(b: Backend, fpaths: seq<FrameId>): (int, int) -> real {
    (x: int, y: int) => if 0 <= x < |fpaths| && 0 <= y < |fpaths| then FreshOverlap(b, fpaths[x], fpaths[y]) else 0.0
  }

  /** `ov` gives the fresh overlap at every pair of positions of the list. */
  ghost predicate FreshOracle(b: Backend, fpaths: seq<FrameId>, ov: (int, int) -> real) {
    forall x, y {:trigger FreshOverlap(b, fpaths[x], fpaths[y])} ::
      0 <= x < |fpaths| && 0 <= y < |fpaths| ==> ov(x, y) == FreshOverlap(b, fpaths[x], fpaths[y])
  }

  /** The graph edges of a list of cuts. */
  function EdgesOf(fpaths: seq<FrameId>, cuts: seq<Cut>): (r: seq<Edge>)
    requires forall k :: 0 <= k < |cuts| ==> 0 <= cuts[k].i < |fpaths| && 0 <= cuts[k].j < |fpaths|
    ensures |r| == |cuts|
    ensures forall k :: 0 <= k < |r| ==>
      r[k] == Edge(cuts[k].i, cuts[k].j, fpaths[cuts[k].i], fpaths[cuts[k].j])
  {
    if |cuts| == 0 then []
    else [Edge(cuts[0].i, cuts[0].j, fpaths[cuts[0].i], fpaths[cuts[0].j])] + EdgesOf(fpaths, cuts[1..])
  }

  /** The edges of a cut followed by more cuts. */
  lemma EdgesOfCons(fpaths: seq<FrameId>, c: Cut, rest: seq<Cut>)
    requires 0 <= c.i < |fpaths| && 0 <= c.j < |fpaths|
    requires forall k :: 0 <= k < |rest| ==> 0 <= rest[k].i < |fpaths| && 0 <= rest[k].j < |fpaths|
    ensures EdgesOf(fpaths, [c] + rest) == [Edge(c.i, c.j, fpaths[c.i], fpaths[c.j])] + EdgesOf(fpaths, rest)
  {
    assert ([c] + rest)[1..] == rest;
  }

  /** Two oracles that give the fresh overlap agree on every pair of
      positions of the list. */
  lemma OraclesAgree(b: Backend, fpaths: seq<FrameId>, ov1: (int, int) -> real, ov2: (int, int) -> real, max: int)
    requires FreshOracle(b, fpaths, ov1) && FreshOracle(b, fpaths, ov2)
    requires max <= |fpaths|
    ensures forall x, y :: 0 <= x < max && 0 <= y < max ==> ov1(x, y) == ov2(x, y)
  {
    forall x, y | 0 <= x < max && 0 <= y < max
      ensures ov1(x, y) == ov2(x, y)
    {
      assert ov1(x, y) == FreshOverlap(b, fpaths[x], fpaths[y]);
    }
  }

  /** The frames of the window grow by the anchor and the new target. */
  lemma WindowFramesStep(fpaths: seq<FrameId>, i: nat, j: nat)
    requires i < j < |fpaths|
    ensures WindowFrames(fpaths, i, j + 1) == WindowFrames(fpaths, i, j) + {fpaths[i], fpaths[j]}
  {
    SpanExtend(fpaths, i, i, j);
    if j == i + 1 {
      assert Span(fpaths, i, j) == {fpaths[i]};
    } else {
      assert fpaths[i] in Span(fpaths, i, j);
    }
  }

  /** A probe of `(i, j)` adds `i`, `j` and the pair `(i, j)` to the window. */
  lemma WindowExtend(c: Caches, c': Caches, fpaths: seq<FrameId>, i: nat, j: nat)
    requires i < j < |fpaths|
    requires Window(c, fpaths, i, j)
    requires c'.images.Keys == c.images.Keys + {fpaths[i], fpaths[j]}
    requires c'.features.Keys == c.features.Keys + {fpaths[i], fpaths[j]}
    requires c'.matches.Keys == c.matches.Keys + {Pair(fpaths[i], fpaths[j])}
    requires c'.homographies.Keys == c.homographies.Keys + {Pair(fpaths[i], fpaths[j])}
    ensures Window(c', fpaths, i, j + 1)
  {
    WindowFramesStep(fpaths, i, j);
    SpanExtend(fpaths, i, i + 1, j);
  }

  /** What the scan relies on from one overlap measurement `o` of `(p, q)`
      on valid caches `c`: the caches stay valid; they gain exactly the
      frames `p` and `q` and the pair `(p, q)`; and on caches that agree with
      fresh computations and have not decoded `q`, the ratio is the fresh one
      and the caches keep agreeing. */
  ghost predicate MeasureSpec(b: Backend, c: Caches, p: FrameId, q: FrameId, o: OverlapResult) {
    && Valid(o.caches)
    && o.caches.images.Keys == c.images.Keys + {p, q}
    && o.caches.matches.Keys == c.matches.Keys + {Pair(p, q)}
    && o.caches.homographies.Keys == c.homographies.Keys + {Pair(p, q)}
    && (Coherent(b, c) && q !in c.images ==> o.overlap == FreshOverlap(b, p, q) && Coherent(b, o.caches))
  }

  /** `homographies.calc_overlap(p, q)` as the scan calls it (line 186). */
  method MeasureOverlap(b: Backend, c: Caches, p: FrameId, q: FrameId) returns (o: OverlapResult)
    requires Valid(c)
    ensures MeasureSpec(b, c, p, q, o)
  {
    o := CalcOverlap(b, c, p, q);
    if Coherent(b, c) && q !in c.images {
      CalcOverlapIsFresh(b, c, p, q);
      CalcOverlapCoherent(b, c, p, q);
    }
  }

  /** What a probe of `(i, j)` does to caches that are coherent and have
      not yet decoded frame `j`: its ratio is the oracle's, the caches stay
      coherent, frame `j` joins the frames decoded, and with cache clearing
      the window grows by `j`. */
  lemma ProbeStep(b: Backend, cfg: Config, fpaths: seq<FrameId>, ov: (int, int) -> real, i: nat, j: nat,
                  c: Caches, o: OverlapResult)
    requires Distinct(fpaths) && i < j < |fpaths| && FreshOracle(b, fpaths, ov)
    requires Valid(c) && Coherent(b, c)
    requires Unseen(c, fpaths, j)
    requires cfg.clearCache ==> Window(c, fpaths, i, j)
    requires MeasureSpec(b, c, fpaths[i], fpaths[j], o)
    ensures o.overlap == ov(i, j)
    ensures Coherent(b, o.caches)
    ensures Unseen(o.caches, fpaths, j + 1)
    ensures cfg.clearCache ==> Window(o.caches, fpaths, i, j + 1)
  {
    assert fpaths[j] !in c.images;
    if cfg.clearCache {
      WindowExtend(c, o.caches, fpaths, i, j);
    }
  }

  /** A probe below the threshold records the greedy cut `(i, j)`, and the
      greedy cuts from `j` remain. */
  lemma CutStep(fpaths: seq<FrameId>, ov: (int, int) -> real, thr: real, max: int, i: nat, j: nat, edges: seq<Edge>)
    requires i < j < max <= |fpaths|
    requires ov(i, j) < thr
    ensures edges + EdgesOf(fpaths, Continue(ov, thr, i, j, max))
      == (edges + [Edge(i, j, fpaths[i], fpaths[j])]) + EdgesOf(fpaths, Greedy(ov, thr, j, max))
  {
    var rest := Greedy(ov, thr, j, max);
    assert Continue(ov, thr, i, j, max) == [Cut(i, j)] + rest;
    EdgesOfCons(fpaths, Cut(i, j), rest);
  }

  /** A probe at or above the threshold leaves the greedy cuts unchanged. */
  lemma SkipStep(ov: (int, int) -> real, thr: real, max: int, i: nat, j: nat)
    requires i < j < max
    requires ov(i, j) >= thr
    ensures Continue(ov, thr, i, j, max) == Continue(ov, thr, i, j + 1, max)
  {
  }

  /** The conditions under which the scan is the greedy rule: distinct
      frames, a range inside the list, and caches that agree with fresh
      computations, have decoded nothing after the first anchor and, with
      cache clearing, hold nothing. A loader's empty caches qualify. */
  ghost predicate ScanReady(b: Backend, cfg: Config, fpaths: seq<FrameId>, caches: Caches) {
    && Distinct(fpaths) && RangeMax(cfg, fpaths) <= |fpaths|
    && Valid(caches) && Coherent(b, caches)
    && Unseen(caches, fpaths, cfg.rangeMin + 1)
    && (cfg.clearCache ==> Cleared(caches))
  }

  /** What holds of the whole scan once it is ready: distinct frames, a
      range inside the list, and an oracle giving the fresh overlaps. */
  ghost predicate Setting(b: Backend, cfg: Config, fpaths: seq<FrameId>, ov: (int, int) -> real) {
    Distinct(fpaths) && RangeMax(cfg, fpaths) <= |fpaths| && FreshOracle(b, fpaths, ov)
  }

  /** The scan stands at anchor `i` before its first probe: the caches
      agree with fresh computations, and the edges so far followed by the
      greedy cuts from `i` are the `target`. (What the caches hold is
      `SafeAnchor`.) */
  ghost predicate Anchored(b: Backend, cfg: Config, fpaths: seq<FrameId>, ov: (int, int) -> real,
                           st: Scan, i: nat, target: seq<Edge>)
    requires Setting(b, cfg, fpaths, ov) && i < RangeMax(cfg, fpaths)
  {
    && Coherent(b, st.caches)
    && st.edges + EdgesOf(fpaths, Greedy(ov, cfg.threshold, i, RangeMax(cfg, fpaths))) == target
  }

  /** The scan at anchor `i` is about to probe `j`: the caches agree with
      fresh computations, and the edges so far followed by the greedy cuts
      still to come are the `target`. (What the caches hold is
      `SafeProbe`.) */
  ghost predicate Probing(b: Backend, cfg: Config, fpaths: seq<FrameId>, ov: (int, int) -> real,
                          st: Scan, i: nat, j: nat, target: seq<Edge>)
    requires Setting(b, cfg, fpaths, ov) && i < j <= RangeMax(cfg, fpaths)
  {
    && Coherent(b, st.caches)
    && st.edges + EdgesOf(fpaths, Continue(ov, cfg.threshold, i, j, RangeMax(cfg, fpaths))) == target
  }

  // ---------------------------------------------------------------------
  // What the scan records of its probes, and why no `del` misses its key
  // ---------------------------------------------------------------------

  /** The anchor the next probe starts from, given the probes so far: the
      first frame of the range before any probe; after a probe, its target
      when it fell below the threshold and its anchor otherwise. */
  function NextAnchor(p: seq<Probe>, lo: int, thr: real): int {
    if |p| == 0 then lo
    else if p[|p| - 1].overlap < thr then p[|p| - 1].j
    else p[|p| - 1].i
  }

  /** The probes visit the successors `lo + 1, lo + 2, ...` one at a time,
      never going back, each from the anchor the probes before it leave. */
  ghost predicate ProbedInOrder(p: seq<Probe>, lo: int, thr: real) {
    forall k :: 0 <= k < |p| ==> p[k].j == lo + 1 + k && p[k].i == NextAnchor(p[..k], lo, thr)
  }

  /** The probes so far, with anchor `i` about to probe `j`: every successor
      before `j` probed once, in order, and `i` the anchor they leave. */
  ghost predicate Probed(p: seq<Probe>, cfg: Config, i: int, j: int) {
    && ProbedInOrder(p, cfg.rangeMin, cfg.threshold)
    && |p| == j - 1 - cfg.rangeMin
    && NextAnchor(p, cfg.rangeMin, cfg.threshold) == i
  }

  /** Probing `(i, j)` extends the record by one probe and moves the anchor
      to `j` exactly when the overlap falls below the threshold. */
  lemma ProbeAppend(p: seq<Probe>, cfg: Config, i: int, j: int, o: real)
    requires Probed(p, cfg, i, j)
    ensures Probed(p + [Probe(i, j, o)], cfg, if o < cfg.threshold then j else i, j + 1)
  {
    var q := p + [Probe(i, j, o)];
    assert q[..|p|] == p;
    forall k | 0 <= k < |q|
      ensures q[k].j == cfg.rangeMin + 1 + k && q[k].i == NextAnchor(q[..k], cfg.rangeMin, cfg.threshold)
    {
      if k < |p| {
        assert q[..k] == p[..k];
      }
    }
  }

  /** Every probe goes forward from its anchor. */
  lemma {:induction false} ProbesGoForward(p: seq<Probe>, lo: int, thr: real)
    requires ProbedInOrder(p, lo, thr)
    ensures forall k :: 0 <= k < |p| ==> p[k].i < p[k].j
    decreases |p|
  {
    if |p| > 0 {
      var q := p[..|p| - 1];
      assert ProbedInOrder(q, lo, thr) by {
        forall k | 0 <= k < |q|
          ensures q[k].j == lo + 1 + k && q[k].i == NextAnchor(q[..k], lo, thr)
        {
          assert q[..k] == p[..k];
        }
      }
      ProbesGoForward(q, lo, thr);
      var n := |p| - 1;
      assert p[..n] == q;
      if n > 0 {
        assert q[n - 1] == p[n - 1];
      }
    }
  }

  /** At anchor `i` no `del` of the scan can miss its key: distinct frames,
      nothing decoded from `i + 1` on, and nothing cached at all with cache
      clearing. */
  ghost predicate SafeAnchor(cfg: Config, fpaths: seq<FrameId>, c: Caches, i: nat) {
    Distinct(fpaths) && Unseen(c, fpaths, i + 1) && (cfg.clearCache ==> Cleared(c))
  }

  /** About to probe `(i, j)`: distinct frames, nothing decoded from `j` on,
      and with cache clearing exactly the window `i .. j - 1` cached. */
  ghost predicate SafeProbe(cfg: Config, fpaths: seq<FrameId>, c: Caches, i: nat, j: nat) {
    && Distinct(fpaths) && Unseen(c, fpaths, j)
    && (cfg.clearCache && i < j <= |fpaths| ==> Window(c, fpaths, i, j))
  }

  /** A probe of `(i, j)` keeps the later frames undecoded and grows the
      window by `j`. */
  lemma SafeStep(cfg: Config, fpaths: seq<FrameId>, i: nat, j: nat, c: Caches, o: OverlapResult)
    requires i < j < |fpaths|
    requires SafeProbe(cfg, fpaths, c, i, j)
    requires o.caches.images.Keys == c.images.Keys + {fpaths[i], fpaths[j]}
    requires o.caches.features.Keys == o.caches.images.Keys && c.features.Keys == c.images.Keys
    requires o.caches.matches.Keys == c.matches.Keys + {Pair(fpaths[i], fpaths[j])}
    requires o.caches.homographies.Keys == c.homographies.Keys + {Pair(fpaths[i], fpaths[j])}
    ensures SafeProbe(cfg, fpaths, o.caches, i, j + 1)
  {
    if cfg.clearCache {
      WindowExtend(c, o.caches, fpaths, i, j);
    }
  }

  /** A probe of `(i, j)` fell below the threshold (lines 192-206): the
      edge is recorded and, with `clear_cache`, the window is evicted. */
  method RecordCut(b: Backend, cfg: Config, fpaths: seq<FrameId>, s: Scan, i: nat, j: nat,
                   ghost ov: (int, int) -> real, ghost safe: bool, ghost ready: bool, ghost target: seq<Edge>)
    returns (r: Result<Scan>)
    requires Valid(s.caches) && i < j < |fpaths|
    requires safe ==>
      Distinct(fpaths) && Unseen(s.caches, fpaths, j + 1) && (cfg.clearCache ==> Window(s.caches, fpaths, i, j + 1))
    requires ready ==>
      && safe && Setting(b, cfg, fpaths, ov) && j < RangeMax(cfg, fpaths) && ov(i, j) < cfg.threshold
      && Coherent(b, s.caches)
      && s.edges + EdgesOf(fpaths, Continue(ov, cfg.threshold, i, j, RangeMax(cfg, fpaths))) == target
    ensures r.Success? ==> Valid(r.value.caches)
    ensures r.Success? ==> r.value.edges == s.edges + [Edge(i, j, fpaths[i], fpaths[j])] && r.value.probes == s.probes
    ensures !cfg.clearCache ==> r.Success? && r.value.caches == s.caches
    ensures safe ==> r.Success? && SafeAnchor(cfg, fpaths, r.value.caches, j)
    ensures ready ==> r.Success? && Anchored(b, cfg, fpaths, ov, r.value, j, target)
  {
    var t := s.(edges := s.edges + [Edge(i, j, fpaths[i], fpaths[j])]);
    if ready {
      CutStep(fpaths, ov, cfg.threshold, RangeMax(cfg, fpaths), i, j, s.edges);
    }
    if cfg.clearCache {
      if safe {
        var _ := EvictEmptiesWindow(t.caches, fpaths, i, j);
      }
      var c :- Evict(t.caches, fpaths, i, j);
      EvictKeepsValid(t.caches, fpaths, i, j);
      t := t.(caches := c);
    }
    return Success(t);
  }

  /** The state of a scan whose anchor is `i` and whose next probe is
      `(i, i + 1)`: the probes so far were made in order and led to `i`;
      with `safe`, nothing from `i + 1` on is cached (and, with
      `clear_cache`, nothing at all); with `ready`, the edges still to come
      are the greedy cuts from `i`. */
  ghost predicate AtAnchor(b: Backend, cfg: Config, fpaths: seq<FrameId>, ov: (int, int) -> real,
                           safe: bool, ready: bool, target: seq<Edge>, s: Scan, i: nat)
  {
    && i < RangeMax(cfg, fpaths)
    && Valid(s.caches)
    && Probed(s.probes, cfg, i, i + 1)
    && (safe ==> SafeAnchor(cfg, fpaths, s.caches, i))
    && (ready ==> safe && Setting(b, cfg, fpaths, ov) && Anchored(b, cfg, fpaths, ov, s, i, target))
  }

  /** The state of a scan from anchor `i` whose next probe is `(i, j)`. */
  ghost predicate InScan(b: Backend, cfg: Config, fpaths: seq<FrameId>, ov: (int, int) -> real,
                         safe: bool, ready: bool, target: seq<Edge>, s: Scan, i: nat, j: nat)
  {
    && i < j <= RangeMax(cfg, fpaths)
    && Valid(s.caches)
    && Probed(s.probes, cfg, i, j)
    && (safe ==> SafeProbe(cfg, fpaths, s.caches, i, j))
    && (ready ==> safe && Setting(b, cfg, fpaths, ov) && Probing(b, cfg, fpaths, ov, s, i, j, target))
  }

  /** A scan starts at its anchor: the first probe is `(i, i + 1)`. */
  lemma AnchorOpensScan(b: Backend, cfg: Config, fpaths: seq<FrameId>, ov: (int, int) -> real,
                        safe: bool, ready: bool, target: seq<Edge>, s: Scan, i: nat)
    requires AtAnchor(b, cfg, fpaths, ov, safe, ready, target, s, i)
    ensures InScan(b, cfg, fpaths, ov, safe, ready, target, s, i, i + 1)
  {
    if safe && cfg.clearCache && i + 1 <= |fpaths| {
      EmptyWindow(s.caches, fpaths, i);
    }
  }

  /** One pass of the inner loop (lines 185-209): probe `(i, j)`; below the
      threshold, record the edge and, with `clear_cache`, evict the window.
      The flag says whether the pair was cut; a cut makes `j` the anchor,
      otherwise `(i, j + 1)` is next. */
  method ProbeOnce(b: Backend, cfg: Config, fpaths: seq<FrameId>, st: Scan, i: nat, j: nat,
                   ghost ov: (int, int) -> real, ghost safe: bool, ghost ready: bool, ghost target: seq<Edge>)
    returns (r: Result<(Scan, bool)>)
    requires j < RangeMax(cfg, fpaths)
    requires InScan(b, cfg, fpaths, ov, safe, ready, target, st, i, j)
    ensures j >= |fpaths| ==> r == Failure(IndexError)
    ensures r.Success? ==> j < |fpaths|
    ensures r.Success? && r.value.1 ==> AtAnchor(b, cfg, fpaths, ov, safe, ready, target, r.value.0, j)
    ensures r.Success? && !r.value.1 ==> InScan(b, cfg, fpaths, ov, safe, ready, target, r.value.0, i, j + 1)
    ensures safe && r.Failure? ==> r.error == IndexError
    ensures ready ==> r.Success? && (r.value.1 <==> ov(i, j) < cfg.threshold)
  {
    var pi :- PyAt(fpaths, i);
    var pj :- PyAt(fpaths, j);
    var o := MeasureOverlap(b, st.caches, pi, pj);
    if safe {
      SafeStep(cfg, fpaths, i, j, st.caches, o);
    }
    if ready {
      ProbeStep(b, cfg, fpaths, ov, i, j, st.caches, o);
    }
    ProbeAppend(st.probes, cfg, i, j, o.overlap);
    var s := st.(caches := o.caches, probes := st.probes + [Probe(i, j, o.overlap)]);
    if o.overlap < cfg.threshold {
      var t :- RecordCut(b, cfg, fpaths, s, i, j, ov, safe, ready, target);
      return Success((t, true));
    }
    if ready {
      SkipStep(ov, cfg.threshold, RangeMax(cfg, fpaths), i, j);
    }
    return Success((s, false));
  }


  /** The inner loop from anchor `i` (lines 184-209): the successors
      `j = i + 1, i + 2, ...` are probed until one is cut or the range ends.
      Returns the scan and the `j` the loop stopped at: the next anchor, or
      the end of the range. */
  method ScanFromAnchor(b: Backend, cfg: Config, fpaths: seq<FrameId>, st: Scan, i: nat,
                        ghost ov: (int, int) -> real, ghost safe: bool, ghost ready: bool, ghost target: seq<Edge>)
    returns (r: Result<(Scan, int)>)
    requires AtAnchor(b, cfg, fpaths, ov, safe, ready, target, st, i)
    ensures r.Success? ==> i < r.value.1 <= RangeMax(cfg, fpaths)
    ensures r.Success? && r.value.1 > i + 1 ==> r.value.1 <= |fpaths|
    ensures r.Success? && r.value.1 < RangeMax(cfg, fpaths) ==>
      r.value.1 < |fpaths| && AtAnchor(b, cfg, fpaths, ov, safe, ready, target, r.value.0, r.value.1)
    ensures r.Success? && r.value.1 == RangeMax(cfg, fpaths) ==>
      InScan(b, cfg, fpaths, ov, safe, ready, target, r.value.0, i, r.value.1)
    ensures safe && r.Failure? ==> r.error == IndexError
    ensures ready ==> r.Success?
  {
    // The loop only hands these facts on; their definitions are not needed here.
    hide Setting, Probing, SafeProbe, SafeAnchor, Anchored, Probed;
    var max := RangeMax(cfg, fpaths);
    var s := st;
    var j := i + 1;
    AnchorOpensScan(b, cfg, fpaths, ov, safe, ready, target, st, i);
    while j < max
      invariant j > i + 1 ==> j <= |fpaths|
      invariant InScan(b, cfg, fpaths, ov, safe, ready, target, s, i, j)
      decreases max - j
    {
      var p :- ProbeOnce(b, cfg, fpaths, s, i, j, ov, safe, ready, target);
      s := p.0;
      if p.1 {
        return Success((s, j));
      }
      j := j + 1;
    }
    return Success((s, j));
  }

  /** The number of probes a scan of the range makes: one per successor of
      the first anchor inside the range (the progress bar's total, line 181,
      when it is positive). */
  function ProbeCount(cfg: Config, fpaths: seq<FrameId>): int {
    if cfg.rangeMin < RangeMax(cfg, fpaths) - 1 then RangeMax(cfg, fpaths) - 1 - cfg.rangeMin else 0
  }

  /** The scan once the range is done: the probes were made in order, one
      per successor of the first anchor, and on ready caches the edges are
      the `target`. */
  ghost predicate Finished(b: Backend, cfg: Config, fpaths: seq<FrameId>, ready: bool, target: seq<Edge>, s: Scan) {
    && Valid(s.caches)
    && ProbedInOrder(s.probes, cfg.rangeMin, cfg.threshold)
    && |s.probes| == ProbeCount(cfg, fpaths)
    && (ready ==> s.edges == target)
  }

  /** The loader's caches put the scan at its first anchor, or, for a range
      with no pair in it, already finish it. */
  lemma ScanStarts(b: Backend, cfg: Config, fpaths: seq<FrameId>, ov: (int, int) -> real,
                   safe: bool, ready: bool, target: seq<Edge>, s: Scan)
    requires Valid(s.caches) && s.edges == [] && s.probes == []
    requires safe == SafeAnchor(cfg, fpaths, s.caches, cfg.rangeMin)
    requires ready == ScanReady(b, cfg, fpaths, s.caches)
    requires FreshOracle(b, fpaths, ov)
    requires target == if ready then EdgesOf(fpaths, Greedy(ov, cfg.threshold, cfg.rangeMin, RangeMax(cfg, fpaths))) else []
    ensures cfg.rangeMin < RangeMax(cfg, fpaths) ==> AtAnchor(b, cfg, fpaths, ov, safe, ready, target, s, cfg.rangeMin)
    ensures cfg.rangeMin >= RangeMax(cfg, fpaths) - 1 ==> Finished(b, cfg, fpaths, ready, target, s)
  {
  }

  /** A scan that probed up to the end of the range is finished. */
  lemma ScanEnds(b: Backend, cfg: Config, fpaths: seq<FrameId>, ov: (int, int) -> real,
                 safe: bool, ready: bool, target: seq<Edge>, s: Scan, i: nat)
    requires cfg.rangeMin <= i < RangeMax(cfg, fpaths)
    requires InScan(b, cfg, fpaths, ov, safe, ready, target, s, i, RangeMax(cfg, fpaths))
    ensures Finished(b, cfg, fpaths, ready, target, s)
  {
  }

  /** A scan anchored at the last frame of the range has nothing left to
      probe: it is finished. */
  lemma AnchorEnds(b: Backend, cfg: Config, fpaths: seq<FrameId>, ov: (int, int) -> real,
                   safe: bool, ready: bool, target: seq<Edge>, s: Scan, i: nat)
    requires cfg.rangeMin <= i == RangeMax(cfg, fpaths) - 1
    requires AtAnchor(b, cfg, fpaths, ov, safe, ready, target, s, i)
    ensures Finished(b, cfg, fpaths, ready, target, s)
  {
  }

  /** `calc_graph(homographies, overlap=..., frame_range_min=...,
      frame_range_max=..., clear_cache=...)` on a loader's caches (lines
      163-211). From anchor `i` the successors `j` are probed until one
      falls below the threshold; that pair becomes an edge, the window is
      evicted when `clear_cache` is set, and `j` becomes the anchor.
      - Every successor of the first anchor in the range is probed exactly
        once, in increasing order, from the anchor current at that point.
      - On ready caches the edges are the greedy cuts of the fresh overlaps.
      - A range reaching past the list never succeeds, and on distinct frames
        with nothing cached the only error is `IndexError`. */
  method CalcGraph(b: Backend, cfg: Config, fpaths: seq<FrameId>, caches: Caches) returns (r: Result<Scan>)
    requires Valid(caches)
    ensures ScanReady(b, cfg, fpaths, caches) ==>
      && r.Success?
      && r.value.edges == EdgesOf(fpaths, Greedy(OverlapAt(b, fpaths), cfg.threshold, cfg.rangeMin, RangeMax(cfg, fpaths)))
    ensures r.Success? ==>
      ProbedInOrder(r.value.probes, cfg.rangeMin, cfg.threshold) && |r.value.probes| == ProbeCount(cfg, fpaths)
    ensures r.Success? && cfg.rangeMin < RangeMax(cfg, fpaths) - 1 ==> RangeMax(cfg, fpaths) <= |fpaths|
    ensures cfg.rangeMin >= RangeMax(cfg, fpaths) - 1 ==> r.Success? && r.value.edges == []
    ensures SafeAnchor(cfg, fpaths, caches, cfg.rangeMin) && r.Failure? ==> r.error == IndexError
    ensures r.Success? ==> Valid(r.value.caches)
  {
    // The loop only hands these facts on; their definitions are not needed here.
    hide Setting, Probing, SafeProbe, SafeAnchor, Anchored, Probed;
    var max := RangeMax(cfg, fpaths);
    assert FreshOracle(b, fpaths, OverlapAt(b, fpaths));
    ghost var ov: (int, int) -> real :| FreshOracle(b, fpaths, ov);
    ghost var safe := SafeAnchor(cfg, fpaths, caches, cfg.rangeMin);
    ghost var ready := ScanReady(b, cfg, fpaths, caches);
    ghost var target := if ready then EdgesOf(fpaths, Greedy(ov, cfg.threshold, cfg.rangeMin, max)) else [];
    var st := Scan(caches, [], []);
    ScanStarts(b, cfg, fpaths, ov, safe, ready, target, st);
    var i: nat := cfg.rangeMin;
    var j: int := i + 1;
    while i < max - 1 && j < max
      invariant cfg.rangeMin <= i
      invariant i == cfg.rangeMin || i < |fpaths|
      invariant j >= max && cfg.rangeMin < max - 1 ==> max <= |fpaths|
      invariant cfg.rangeMin >= max - 1 ==> st.edges == []
      invariant j < max ==> AtAnchor(b, cfg, fpaths, ov, safe, ready, target, st, i)
      invariant j >= max ==> Finished(b, cfg, fpaths, ready, target, st)
      decreases max - i, max - j
    {
      var p :- ScanFromAnchor(b, cfg, fpaths, st, i, ov, safe, ready, target);
      st := p.0;
      j := p.1;
      if j < max {
        i := j;
      } else {
        ScanEnds(b, cfg, fpaths, ov, safe, ready, target, st, i);
      }
    }
    if j < max {
      AnchorEnds(b, cfg, fpaths, ov, safe, ready, target, st, i);
    }
    r := Success(st);
    if ready {
      OraclesAgree(b, fpaths, ov, OverlapAt(b, fpaths), max);
      GreedyLocal(ov, OverlapAt(b, fpaths), cfg.threshold, cfg.rangeMin, max);
    }
  }


  // ---------------------------------------------------------------------
  // What `graph2fpaths` reports
  // ---------------------------------------------------------------------

  /** The positions behind `graph2fpaths` for cuts from anchor `i`: the
      first anchor, then every cut's target. */
  function Positions(cuts: seq<Cut>, i: int): (p: seq<int>)
    ensures |p| == |cuts| + 1 && p[0] == i
    ensures forall k :: 0 <= k < |cuts| ==> p[k + 1] == cuts[k].j
  {
    [i] + seq(|cuts|, k requires 0 <= k < |cuts| => cuts[k].j)
  }

  /** A sequence that grows at every step grows everywhere. */
  lemma {:induction false} AscendingFromSteps(p: seq<int>)
    requires forall k :: 0 <= k < |p| - 1 ==> p[k] < p[k + 1]
    ensures forall a, b :: 0 <= a < b < |p| ==> p[a] < p[b]
  {
    if |p| > 1 {
      var q := p[..|p| - 1];
      AscendingFromSteps(q);
      forall a, b | 0 <= a < b < |p| ensures p[a] < p[b] {
        if b < |p| - 1 {
          assert p[a] == q[a] && p[b] == q[b];
        } else if a < |p| - 2 {
          assert p[a] == q[a] && p[|p| - 2] == q[|p| - 2];
        }
      }
    }
  }

  /** The frames the greedy scan keeps, as `graph2fpaths` lists them: it
      fails exactly when no frame of the range falls below the threshold
      against the first anchor; otherwise it gives the first anchor and
      then each cut target, at strictly increasing positions of the list
      that stay inside the range. */
  lemma GreedyPaths(fpaths: seq<FrameId>, ov: (int, int) -> real, thr: real, i: int, max: int)
    requires 0 <= i && max <= |fpaths|
    ensures var cuts := Greedy(ov, thr, i, max);
      var r := GraphToPaths(EdgesOf(fpaths, cuts));
      var p := Positions(cuts, i);
      && (r.Failure? <==> i >= max - 1 || forall m :: i < m < max ==> ov(i, m) >= thr)
      && (r.Failure? ==> r.error == IndexError)
      && (r.Success? ==> |r.value| == |p| && forall k :: 0 <= k < |p| ==> i <= p[k] < max && r.value[k] == fpaths[p[k]])
      && (forall a, b :: 0 <= a < b < |p| ==> p[a] < p[b])
  {
    var cuts := Greedy(ov, thr, i, max);
    var p := Positions(cuts, i);
    GreedyIsGreedy(ov, thr, i, max);
    if i < max - 1 {
      FirstCutIsFirst(ov, thr, i, i + 1, max);
    }
    forall k | 0 <= k < |p| - 1 ensures p[k] < p[k + 1] {
      if k > 0 {
        assert p[k] == cuts[k - 1].j == cuts[k].i;
      }
    }
    AscendingFromSteps(p);
  }
}

=== FILE: text.dfy ===
/** The string built-ins the modelled code relies on: `str.strip`,
    `file.readlines`, `in` on strings, `str.endswith`, and the POSIX flavour
    of `os.path.basename` and `os.path.join`. */
module Text {

  /** `c.isspace()` for a single character: the ASCII white space, the four
      information separators, and the Unicode space and line separators. */
  predicate IsSpace(c: char) {
    || c == ' ' || c == '\t' || c == '\n' || c == '\r' || c == '\U{0B}' || c == '\U{0C}'
    || ('\U{1C}' <= c <= '\U{1F}')
    || c == '\U{85}' || c == '\U{A0}' || c == '\U{1680}'
    || ('\U{2000}' <= c <= '\U{200A}')
    || c == '\U{2028}' || c == '\U{2029}' || c == '\U{202F}' || c == '\U{205F}' || c == '\U{3000}'
  }

  /** Number of white-space characters at the front of `s`. */
  function Lead(s: string): (n: nat)
    ensures n <= |s|
    ensures forall k :: 0 <= k < n ==> IsSpace(s[k])
    ensures n < |s| ==> !IsSpace(s[n])
  {
    if |s| > 0 && IsSpace(s[0]) then 1 + Lead(s[1..]) else 0
  }

  /** Number of white-space characters at the back of `s`. */
  function Trail(s: string): (n: nat)
    ensures n <= |s|
    ensures forall k :: |s| - n <= k < |s| ==> IsSpace(s[k])
    ensures n < |s| ==> !IsSpace(s[|s| - n - 1])
  {
    if |s| > 0 && IsSpace(s[|s| - 1]) then 1 + Trail(s[..|s| - 1]) else 0
  }

  /** `s.strip()`: drops the white space at both ends and nothing else. */
  function Strip(s: string): (r: string)
    ensures Lead(s) + |r| <= |s|
    ensures |r| > 0 ==> !IsSpace(r[0]) && !IsSpace(r[|r| - 1])
    ensures r == s[Lead(s)..Lead(s) + |r|]
    ensures forall k :: 0 <= k < Lead(s) ==> IsSpace(s[k])
    ensures forall k :: Lead(s) + |r| <= k < |s| ==> IsSpace(s[k])
  {
    var a := Lead(s);
    var rest := s[a..];
    var b := |rest| - Trail(rest);
    assert forall k :: a + b <= k < |s| ==> s[k] == rest[k - a];
    rest[..b]
  }

  /** Any cut of `s` into white space, a core without white space at its ends,
      and white space is the cut `Strip` makes: the core is unique. */
  lemma StripCharacterised(s: string, a: nat, b: nat)
    requires a <= b <= |s|
    requires forall k :: 0 <= k < a ==> IsSpace(s[k])
    requires forall k :: b <= k < |s| ==> IsSpace(s[k])
    requires a < b ==> !IsSpace(s[a]) && !IsSpace(s[b - 1])
    ensures Strip(s) == s[a..b]
  {
    var r := Strip(s);
    var l := Lead(s);
    if a < b {
      assert l == a;
      assert !IsSpace(s[a]) && !IsSpace(s[b - 1]);
      assert l + |r| >= b;
      assert r[|r| - 1] == s[l + |r| - 1];
      assert l + |r| <= b;
    } else {
      assert forall k :: 0 <= k < |s| ==> IsSpace(s[k]);
    }
  }

  /** Stripping twice is stripping once. */
  lemma StripIdempotent(s: string)
    ensures Strip(Strip(s)) == Strip(s)
  {
    var r := Strip(s);
    StripCharacterised(r, 0, |r|);
  }

  /** Index of the first `'\n'` in `s`, or `|s|` if there is none. */
  function NewlineIndex(s: string): (k: nat)
    ensures k <= |s|
    ensures k < |s| ==> s[k] == '\n'
    ensures forall m :: 0 <= m < k ==> s[m] != '\n'
  {
    if |s| == 0 then 0
    else if s[0] == '\n' then 0
    else 1 + NewlineIndex(s[1..])
  }

  /** What a file opened in text mode with the default `newline=None`
      hands to the program: every `"\r\n"` and every lone `'\r'` becomes
      `'\n'` (universal newlines). */
  function TranslateNewlines(s: string): (r: string)
    ensures |r| <= |s|
    ensures forall m :: 0 <= m < |r| ==> r[m] != '\r'
    decreases |s|
  {
    if |s| == 0 then ""
    else if s[0] == '\r' then "\n" + TranslateNewlines(if |s| > 1 && s[1] == '\n' then s[2..] else s[1..])
    else [s[0]] + TranslateNewlines(s[1..])
  }

  /** A text without `'\r'` reads back unchanged. */
  lemma {:induction false} TranslateNewlinesIdentity(s: string)
    requires forall m :: 0 <= m < |s| ==> s[m] != '\r'
    ensures TranslateNewlines(s) == s
    decreases |s|
  {
    if |s| > 0 {
      TranslateNewlinesIdentity(s[1..]);
      assert s == [s[0]] + s[1..];
    }
  }

  /** Translating twice is translating once. */
  lemma TranslateNewlinesIdempotent(s: string)
    ensures TranslateNewlines(TranslateNewlines(s)) == TranslateNewlines(s)
  {
    TranslateNewlinesIdentity(TranslateNewlines(s));
  }

  /** The three line endings a text-mode file recognises. */
  predicate IsLineEnd(e: string) {
    e == "\n" || e == "\r" || e == "\r\n"
  }

  /** A line without `'\r'` and its ending translate to the line and
      `'\n'`, when what follows cannot merge with the ending. */
  lemma {:induction false} TranslateLineEnd(line: string, e: string, rest: string)
    requires forall m :: 0 <= m < |line| ==> line[m] != '\r'
    requires IsLineEnd(e)
    requires |rest| > 0 ==> rest[0] != '\n'
    ensures TranslateNewlines(line + e + rest) == line + "\n" + TranslateNewlines(rest)
    decreases |line|
  {
    if |line| == 0 {
      assert line + e + rest == e + rest;
      if e == "\r\n" {
        assert (e + rest)[2..] == rest;
      } else {
        assert (e + rest)[1..] == rest;
      }
    } else {
      TranslateLineEnd(line[1..], e, rest);
      assert (line + e + rest)[1..] == line[1..] + e + rest;
    }
  }

  /** `file.readlines()` on the translated text: every line keeps its
      `'\n'`; only the last line may lack one. */
  function SplitLines(s: string): (lines: seq<string>)
    decreases |s|
  {
    if |s| == 0 then []
    else
      var k := NewlineIndex(s);
      if k == |s| then [s]
      else [s[..k + 1]] + SplitLines(s[k + 1..])
  }

  /** Every character of a line comes from the text, and a line holds a
      `'\n'` at most at its end. */
  lemma {:induction false} SplitLinesChars(s: string)
    ensures forall i, m :: 0 <= i < |SplitLines(s)| && 0 <= m < |SplitLines(s)[i]| ==> SplitLines(s)[i][m] in s
    ensures forall i, m :: 0 <= i < |SplitLines(s)| && 0 <= m < |SplitLines(s)[i]| - 1 ==> SplitLines(s)[i][m] != '\n'
    decreases |s|
  {
    if |s| > 0 {
      var k := NewlineIndex(s);
      if k < |s| {
        var rest := s[k + 1..];
        SplitLinesChars(rest);
        var ls := SplitLines(s);
        assert ls == [s[..k + 1]] + SplitLines(rest);
        forall i, m | 0 <= i < |ls| && 0 <= m < |ls[i]|
          ensures ls[i][m] in s
        {
          if i == 0 {
            assert ls[i][m] == s[m];
          } else {
            assert ls[i] == SplitLines(rest)[i - 1];
            assert ls[i][m] in rest;
            var n :| 0 <= n < |rest| && rest[n] == ls[i][m];
            assert s[k + 1 + n] == rest[n];
          }
        }
        forall i, m | 0 <= i < |ls| && 0 <= m < |ls[i]| - 1
          ensures ls[i][m] != '\n'
        {
          if i > 0 {
            assert ls[i] == SplitLines(rest)[i - 1];
          }
        }
      }
    }
  }

  /** Stripping a line whose only possible `'\n'` is its last character
      keeps a part of it holding no `'\n'`. */
  lemma StripLine(l: string)
    requires forall m :: 0 <= m < |l| - 1 ==> l[m] != '\n'
    ensures forall m :: 0 <= m < |Strip(l)| ==> Strip(l)[m] != '\n' && Strip(l)[m] in l
  {
    var r := Strip(l);
    var a := Lead(l);
    forall m | 0 <= m < |r|
      ensures r[m] != '\n' && r[m] in l
    {
      assert r[m] == l[a + m];
      if a + m == |l| - 1 {
        assert m == |r| - 1;
        assert !IsSpace(r[m]);
      }
    }
  }

  function Concat(lines: seq<string>): string {
    if |lines| == 0 then "" else lines[0] + Concat(lines[1..])
  }

  /** The text of lines without `'\r'` holds no `'\r'`. */
  lemma {:induction false} ConcatHasNoReturn(lines: seq<string>)
    requires forall k, m :: 0 <= k < |lines| && 0 <= m < |lines[k]| ==> lines[k][m] != '\r'
    ensures forall m :: 0 <= m < |Concat(lines)| ==> Concat(lines)[m] != '\r'
  {
    if |lines| > 0 {
      ConcatHasNoReturn(lines[1..]);
      assert Concat(lines) == lines[0] + Concat(lines[1..]);
    }
  }

  /** A line as `readlines` yields it and `writelines` should get it:
      exactly one `'\n'`, at its end. */
  predicate IsTerminatedLine(line: string) {
    && |line| > 0
    && line[|line| - 1] == '\n'
    && forall m :: 0 <= m < |line| - 1 ==> line[m] != '\n'
  }

  /** `readlines` loses nothing: joining the lines gives the text back, and
      every line but the last is newline-terminated. */
  lemma {:induction false} SplitLinesConcat(s: string)
    ensures Concat(SplitLines(s)) == s
    ensures forall i :: 0 <= i < |SplitLines(s)| - 1 ==> IsTerminatedLine(SplitLines(s)[i])
    ensures forall i :: 0 <= i < |SplitLines(s)| ==> |SplitLines(s)[i]| > 0
    decreases |s|
  {
    if |s| > 0 {
      var k := NewlineIndex(s);
      if k < |s| {
        SplitLinesConcat(s[k + 1..]);
        assert s == s[..k + 1] + s[k + 1..];
        var ls := SplitLines(s);
        assert ls == [s[..k + 1]] + SplitLines(s[k + 1..]);
        assert ls[1..] == SplitLines(s[k + 1..]);
        assert IsTerminatedLine(ls[0]);
      }
    }
  }

  /** `readlines` after `writelines` returns the lines written, when each of
      them is newline-terminated. */
  lemma {:induction false} SplitLinesOfConcat(lines: seq<string>)
    requires forall i :: 0 <= i < |lines| ==> IsTerminatedLine(lines[i])
    ensures SplitLines(Concat(lines)) == lines
  {
    if |lines| > 0 {
      var l := lines[0];
      var s := Concat(lines);
      assert s == l + Concat(lines[1..]);
      assert NewlineIndexOfPrefix: NewlineIndex(s) == |l| - 1 by {
        NewlineIndexPrefix(l, Concat(lines[1..]));
      }
      assert s[..|l|] == l;
      assert s[|l|..] == Concat(lines[1..]);
      SplitLinesOfConcat(lines[1..]);
    }
  }

  lemma {:induction false} NewlineIndexPrefix(l: string, rest: string)
    requires IsTerminatedLine(l)
    ensures NewlineIndex(l + rest) == |l| - 1
    decreases |l|
  {
    if |l| > 1 {
      assert (l + rest)[1..] == l[1..] + rest;
      NewlineIndexPrefix(l[1..], rest);
    }
  }

  /** `p in s` for strings. */
  predicate Contains(s: string, p: string)
    decreases |s|
  {
    (|p| <= |s| && s[..|p|] == p) || (|s| > 0 && Contains(s[1..], p))
  }

  /** `p` occurs in `s` at offset `i`. */
  ghost predicate OccursAt(s: string, p: string, i: int) {
    0 <= i <= |s| - |p| && s[i..i + |p|] == p
  }

  /** `Contains` holds exactly when `p` occurs at some offset of `s`. */
  lemma {:induction false} ContainsOffset(s: string, p: string)
    ensures Contains(s, p) <==> exists i :: OccursAt(s, p, i)
    decreases |s|
  {
    if |s| > 0 {
      ContainsOffset(s[1..], p);
      if |p| <= |s| && s[..|p|] == p {
        assert OccursAt(s, p, 0);
      }
      if Contains(s[1..], p) {
        var i :| OccursAt(s[1..], p, i);
        assert s[i + 1..i + 1 + |p|] == s[1..][i..i + |p|];
        assert OccursAt(s, p, i + 1);
      }
      if exists i :: OccursAt(s, p, i) {
        var i :| OccursAt(s, p, i);
        assert s[0..|p|] == s[..|p|];
        if i > 0 {
          assert s[1..][i - 1..i - 1 + |p|] == s[i..i + |p|];
          assert OccursAt(s[1..], p, i - 1);
        }
      }
    } else if |p| == 0 {
      assert OccursAt(s, p, 0);
    }
  }

  predicate EndsWith(s: string, suffix: string) {
    |suffix| <= |s| && s[|s| - |suffix|..] == suffix
  }

  /** Index just past the last `'/'` of `p`, or 0 when there is none. */
  function AfterLastSlash(p: string): (k: nat)
    ensures k <= |p|
    ensures k > 0 ==> p[k - 1] == '/'
    ensures forall m :: k <= m < |p| ==> p[m] != '/'
  {
    if |p| == 0 then 0
    else if p[|p| - 1] == '/' then |p|
    else AfterLastSlash(p[..|p| - 1])
  }

  /** `os.path.basename(p)`: the part after the last `'/'`. */
  function Basename(p: string): (r: string)
    ensures |r| <= |p| && r == p[|p| - |r|..]
    ensures forall m :: 0 <= m < |r| ==> r[m] != '/'
    ensures |r| < |p| ==> p[|p| - |r| - 1] == '/'
  {
    p[AfterLastSlash(p)..]
  }

  /** `s.rstrip('/')`. */
  function StripTrailingSlashes(s: string): (r: string)
    ensures |r| <= |s| && r == s[..|r|]
    ensures |r| > 0 ==> r[|r| - 1] != '/'
    ensures forall m :: |r| <= m < |s| ==> s[m] == '/'
  {
    if |s| == 0 || s[|s| - 1] != '/' then s else StripTrailingSlashes(s[..|s| - 1])
  }

  /** `os.path.split(p)[0]`: everything up to the last `'/'`, with its
      trailing slashes removed unless it consists of slashes only. */
  function SplitHead(p: string): (r: string)
    ensures |r| <= |p| && r == p[..|r|]
  {
    var head := p[..AfterLastSlash(p)];
    if exists m :: 0 <= m < |head| && head[m] != '/' then StripTrailingSlashes(head) else head
  }

  /** `os.path.join(a, b)` for two components. */
  function Join(a: string, b: string): (r: string)
    ensures |b| > 0 && b[0] != '/' ==> EndsWith(r, b)
  {
    if |b| > 0 && b[0] == '/' then b
    else if |a| == 0 || a[|a| - 1] == '/' then a + b
    else a + "/" + b
  }

  /** Appending a name without `'/'` does not move the last `'/'`. */
  lemma {:induction false} AfterLastSlashAppend(pre: string, name: string)
    requires forall m :: 0 <= m < |name| ==> name[m] != '/'
    ensures AfterLastSlash(pre + name) == AfterLastSlash(pre)
    decreases |name|
  {
    if |name| > 0 {
      var p := pre + name;
      assert p[..|p| - 1] == pre + name[..|name| - 1];
      assert p[|p| - 1] == name[|name| - 1] && p[|p| - 1] != '/';
      AfterLastSlashAppend(pre, name[..|name| - 1]);
    } else {
      assert pre + name == pre;
    }
  }

  /** The base name of a joined path is the name joined on, when the name
      holds no `'/'`. */
  lemma BasenameOfJoin(dir: string, name: string)
    requires |name| > 0
    requires forall m :: 0 <= m < |name| ==> name[m] != '/'
    ensures Basename(Join(dir, name)) == name
  {
    var pre := if |dir| == 0 || dir[|dir| - 1] == '/' then dir else dir + "/";
    assert Join(dir, name) == pre + name;
    AfterLastSlashAppend(pre, name);
    assert AfterLastSlash(pre) == |pre|;
    assert (pre + name)[|pre|..] == name;
  }
}

=== FILE: utils.dfy ===
/** The helpers of utils/lib.py: reading a list file back and keeping the
    reconstruction with the most registered images. The file system and
    `pycolmap` are inputs: a listing of the reconstruction directory with
    what `get_num_images` answers for each entry, and the operations the
    function would perform. */
module Utils {
  import opened Wrappers
  import opened Ordering
  import opened Text

  // ---------------------------------------------------------------------
  // read_lines_from_file
  // ---------------------------------------------------------------------

  /** `read_lines_from_file` on the bytes of the file, decoded: the text
      as a text-mode `open` hands it over (universal newlines), `readlines`,
      then `strip` on every line. No line returned holds a line break. */
  function ReadLinesFromFile(text: string): (r: seq<string>)
    ensures |r| == |SplitLines(TranslateNewlines(text))|
    ensures forall k :: 0 <= k < |r| ==> Strip(r[k]) == r[k]
    ensures forall k :: 0 <= k < |r| ==> r[k] == Strip(SplitLines(TranslateNewlines(text))[k])
    ensures forall k, m :: 0 <= k < |r| && 0 <= m < |r[k]| ==> r[k][m] != '\n' && r[k][m] != '\r'
  {
    var t := TranslateNewlines(text);
    var lines := SplitLines(t);
    var r := seq(|lines|, k requires 0 <= k < |lines| => Strip(lines[k]));
    SplitLinesChars(t);
    forall k | 0 <= k < |r|
      ensures Strip(r[k]) == r[k]
      ensures forall m :: 0 <= m < |r[k]| ==> r[k][m] != '\n' && r[k][m] != '\r'
    {
      StripIdempotent(lines[k]);
      StripLine(lines[k]);
      forall m | 0 <= m < |r[k]|
        ensures r[k][m] != '\r'
      {
        assert r[k][m] in lines[k];
        var n :| 0 <= n < |lines[k]| && lines[k][n] == r[k][m];
        assert lines[k][n] in t;
      }
    }
    r
  }

  /** A name that survives a write-then-read unchanged: not empty, no
      line break of either kind, no white space at either end. */
  predicate PlainName(name: string) {
    && |name| > 0
    && (forall m :: 0 <= m < |name| ==> name[m] != '\n' && name[m] != '\r')
    && !IsSpace(name[0]) && !IsSpace(name[|name| - 1])
  }

  /** The text `writelines` produces for the names, one per line. */
  function WrittenLines(names: seq<string>): (lines: seq<string>)
    ensures |lines| == |names|
    ensures forall k :: 0 <= k < |names| ==> lines[k] == names[k] + "\n"
  {
    seq(|names|, k requires 0 <= k < |names| => names[k] + "\n")
  }

  /** Reading back a file of plain names, one per line, gives the names. */
  lemma ReadBackWrittenLines(names: seq<string>)
    requires forall k :: 0 <= k < |names| ==> PlainName(names[k])
    ensures ReadLinesFromFile(Concat(WrittenLines(names))) == names
  {
    var lines := WrittenLines(names);
    forall k | 0 <= k < |lines|
      ensures IsTerminatedLine(lines[k])
    {
      assert lines[k][..|names[k]|] == names[k];
    }
    ConcatHasNoReturn(lines);
    TranslateNewlinesIdentity(Concat(lines));
    SplitLinesOfConcat(lines);
    var r := ReadLinesFromFile(Concat(lines));
    forall k | 0 <= k < |names|
      ensures r[k] == names[k]
    {
      var line := lines[k];
      assert line[..|names[k]|] == names[k];
      StripCharacterised(line, 0, |names[k]|);
    }
  }
  /** The names, each followed by its own line ending. */
  function EndedLines(names: seq<string>, ends: seq<string>): (lines: seq<string>)
    requires |ends| == |names|
    ensures |lines| == |names|
    ensures forall k :: 0 <= k < |names| ==> lines[k] == names[k] + ends[k]
  {
    seq(|names|, k requires 0 <= k < |names| => names[k] + ends[k])
  }

  /** After the text-mode translation, plain names ended by any mix of
      `"\n"`, `"\r"` and `"\r\n"` are the names ended by `"\n"`. */
  lemma {:induction false} TranslateEndedLines(names: seq<string>, ends: seq<string>)
    requires |ends| == |names|
    requires forall k :: 0 <= k < |names| ==> PlainName(names[k]) && IsLineEnd(ends[k])
    ensures TranslateNewlines(Concat(EndedLines(names, ends))) == Concat(WrittenLines(names))
  {
    if |names| > 0 {
      var ls := EndedLines(names, ends);
      var rest := Concat(ls[1..]);
      assert ls[1..] == EndedLines(names[1..], ends[1..]);
      TranslateEndedLines(names[1..], ends[1..]);
      if |names| > 1 {
        assert rest == ls[1] + Concat(ls[2..]);
        assert rest[0] == names[1][0];
      }
      TranslateLineEnd(names[0], ends[0], rest);
      assert Concat(ls) == names[0] + ends[0] + rest;
      var ws := WrittenLines(names);
      assert ws[1..] == WrittenLines(names[1..]);
      assert Concat(ws) == names[0] + "\n" + Concat(ws[1..]);
    }
  }

  /** A file of plain names, one per line, reads back as the names whatever
      line ending each line has: a lone `'\r'` ends a line as `'\n'` does. */
  lemma ReadBackAnyLineEnding(names: seq<string>, ends: seq<string>)
    requires |ends| == |names|
    requires forall k :: 0 <= k < |names| ==> PlainName(names[k]) && IsLineEnd(ends[k])
    ensures ReadLinesFromFile(Concat(EndedLines(names, ends))) == names
  {
    var text := Concat(WrittenLines(names));
    TranslateEndedLines(names, ends);
    ReadBackWrittenLines(names);
    forall k, m | 0 <= k < |names| && 0 <= m < |WrittenLines(names)[k]|
      ensures WrittenLines(names)[k][m] != '\r'
    {
      assert WrittenLines(names)[k] == names[k] + "\n";
    }
    ConcatHasNoReturn(WrittenLines(names));
    TranslateNewlinesIdentity(text);
  }


  // ---------------------------------------------------------------------
  // keep_model_with_largest_images
  // ---------------------------------------------------------------------

  /** One entry of the reconstruction directory: its path and what
      `get_num_images` gives for it, or `None` when it cannot be loaded. */
  datatype ModelDir = ModelDir(path: string, numImages: Option<nat>)

  /** The file-system operations performed: `shutil.rmtree` and
      `os.rename`. */
  datatype FsOp = RemoveTree(path: string) | Rename(src: string, dst: string)

  /** The count returned and the operations performed, in order. */
  datatype Kept = Kept(maxImages: nat, ops: seq<FsOp>)

  function PathOf(m: ModelDir): string {
    m.path
  }

  /** Position `s` is the model kept: it loads, no model has more images,
      and every model before it has fewer (a tie keeps the earliest). */
  ghost predicate IsChosen(all: seq<ModelDir>, s: int) {
    && 0 <= s < |all|
    && all[s].numImages.Some?
    && (forall m :: 0 <= m < |all| && all[m].numImages.Some? ==> all[m].numImages.value <= all[s].numImages.value)
    && (forall m :: 0 <= m < s ==> all[m].numImages.Some? && all[m].numImages.value < all[s].numImages.value)
  }

  /** At most one position is chosen. */
  lemma ChosenIsUnique(all: seq<ModelDir>, s: int, t: int)
    requires IsChosen(all, s) && IsChosen(all, t)
    ensures s == t
  {
  }

  /** The removals of lines 39-41: every model whose path differs from
      `keep`, in order. */
  function Removals(all: seq<ModelDir>, keep: string): (ops: seq<FsOp>)
    ensures forall k :: 0 <= k < |ops| ==> ops[k].RemoveTree? && ops[k].path != keep
    ensures forall m :: 0 <= m < |all| && all[m].path != keep ==> RemoveTree(all[m].path) in ops
    ensures |ops| <= |all|
  {
    if |all| == 0 then []
    else
      var rest := Removals(all[1..], keep);
      assert forall m :: 1 <= m < |all| ==> all[m] == all[1..][m - 1];
      (if all[0].path != keep then [RemoveTree(all[0].path)] else []) + rest
  }

  /** `keep_model_with_largest_images(root)`: the entries in sorted order;
      0 without models or when the first cannot be loaded; otherwise the
      largest image count, with every other model removed and the kept one
      renamed to `root/0` when there is more than one. A later model that
      cannot be loaded raises. */
  method KeepModelWithLargestImages(root: string, entries: seq<ModelDir>) returns (r: Result<Kept>)
    ensures var all := SortBy(entries, PathOf);
      && ((|all| == 0 || all[0].numImages.None?) ==> r == Success(Kept(0, [])))
      && (r.Failure? <==> |all| > 1 && all[0].numImages.Some? && exists m :: 0 <= m < |all| && all[m].numImages.None?)
      && (r.Failure? ==> r.error == LoadError)
      && (r.Success? && |all| > 0 && all[0].numImages.Some? ==> KeptFrom(root, all, r.value))
  {
    r := KeepLargest(root, SortBy(entries, PathOf));
  }

  /** What is returned and done when model `s` is kept. */
  ghost predicate KeptFrom(root: string, all: seq<ModelDir>, kept: Kept) {
    exists s :: IsChosen(all, s)
      && kept.maxImages == all[s].numImages.value
      && kept.ops == (if |all| > 1 then Removals(all, all[s].path) + [Rename(all[s].path, Join(root, "0"))] else [])
  }

  /** Lines 27-43 on the sorted listing `all`. */
  method KeepLargest(root: string, all: seq<ModelDir>) returns (r: Result<Kept>)
    ensures (|all| == 0 || all[0].numImages.None?) ==> r == Success(Kept(0, []))
    ensures r.Failure? <==> |all| > 1 && all[0].numImages.Some? && exists m :: 0 <= m < |all| && all[m].numImages.None?
    ensures r.Failure? ==> r.error == LoadError
    ensures r.Success? && |all| > 0 && all[0].numImages.Some? ==> KeptFrom(root, all, r.value)
  {
    if |all| == 0 || all[0].numImages.None? {
      return Success(Kept(0, []));
    }
    if |all| == 1 {
      assert IsChosen(all, 0);
      return Success(Kept(all[0].numImages.value, []));
    }
    var chosen :- LargestModel(all);
    var keep := all[chosen].path;
    var ops: seq<FsOp> := [];
    var k := 0;
    while k < |all|
      invariant 0 <= k <= |all|
      invariant ops == Removals(all[..k], keep)
    {
      RemovalsAppend(all[..k], all[k], keep);
      assert all[..k + 1] == all[..k] + [all[k]];
      if all[k].path != keep {
        ops := ops + [RemoveTree(all[k].path)];
      }
      k := k + 1;
    }
    assert all[..k] == all;
    ops := ops + [Rename(keep, Join(root, "0"))];
    r := Success(Kept(all[chosen].numImages.value, ops));
    assert KeptFrom(root, all, r.value) by {
      assert IsChosen(all, chosen);
    }
  }

  /** The loop of lines 33-37: the position of the first model with the
      most images, or LoadError when some model cannot be loaded. */
  method LargestModel(all: seq<ModelDir>) returns (r: Result<nat>)
    requires |all| > 0 && all[0].numImages.Some?
    ensures r.Failure? <==> exists m :: 0 <= m < |all| && all[m].numImages.None?
    ensures r.Failure? ==> r.error == LoadError
    ensures r.Success? ==> IsChosen(all, r.value)
  {
    var maxImages := all[0].numImages.value;
    var selected := 0;
    var k := 0;
    while k < |all|
      invariant 0 <= k <= |all|
      invariant 0 <= selected < |all|
      invariant all[selected].numImages == Some(maxImages)
      invariant forall m :: 0 <= m < k ==> all[m].numImages.Some? && all[m].numImages.value <= maxImages
      invariant forall m :: 0 <= m < selected ==> all[m].numImages.Some? && all[m].numImages.value < maxImages
      invariant selected == 0 || selected < k
    {
      match all[k].numImages
      case None =>
        return Failure(LoadError);
      case Some(n) =>
        if n > maxImages {
          maxImages := n;
          selected := k;
        }
      k := k + 1;
    }
    return Success(selected);
  }

  lemma {:induction false} RemovalsAppend(all: seq<ModelDir>, m: ModelDir, keep: string)
    ensures Removals(all + [m], keep) == Removals(all, keep) + (if m.path != keep then [RemoveTree(m.path)] else [])
  {
    if |all| == 0 {
      assert Removals([m][1..], keep) == [];
    } else {
      assert (all + [m])[1..] == all[1..] + [m];
      RemovalsAppend(all[1..], m, keep);
    }
  }

  /** The set of directory entries after the operations. */
  function Apply(ops: seq<FsOp>, dirs: set<string>): (r: set<string>)
  {
    if |ops| == 0 then dirs
    else
      var d := match ops[0]
        case RemoveTree(p) => dirs - {p}
        case Rename(s, t) => if s in dirs then dirs - {s} + {t} else dirs;
      Apply(ops[1..], d)
  }

  /** Removing every path but `keep` from the models' paths leaves `keep`. */
  lemma {:induction false} RemovalsLeaveKept(all: seq<ModelDir>, keep: string, dirs: set<string>)
    requires forall d :: d in dirs ==> d == keep || exists m :: 0 <= m < |all| && all[m].path == d
    ensures Apply(Removals(all, keep), dirs) == dirs * {keep}
    decreases |all|
  {
    if |all| > 0 {
      var rest := Removals(all[1..], keep);
      var d := if all[0].path != keep then dirs - {all[0].path} else dirs;
      forall x | x in d ensures x == keep || exists m :: 0 <= m < |all[1..]| && all[1..][m].path == x {
        if x != keep {
          var m :| 0 <= m < |all| && all[m].path == x;
          assert m > 0;
          assert all[1..][m - 1].path == x;
        }
      }
      RemovalsLeaveKept(all[1..], keep, d);
      if all[0].path != keep {
        assert Removals(all, keep) == [RemoveTree(all[0].path)] + rest;
        assert ([RemoveTree(all[0].path)] + rest)[1..] == rest;
      } else {
        assert Removals(all, keep) == rest;
      }
    } else {
      assert dirs * {keep} == dirs;
    }
  }

  lemma {:induction false} ApplyAppend(ops: seq<FsOp>, op: FsOp, dirs: set<string>)
    ensures Apply(ops + [op], dirs) == Apply([op], Apply(ops, dirs))
    decreases |ops|
  {
    if |ops| > 0 {
      assert (ops + [op])[1..] == ops[1..] + [op];
      var d := match ops[0]
        case RemoveTree(p) => dirs - {p}
        case Rename(s, t) => if s in dirs then dirs - {s} + {t} else dirs;
      ApplyAppend(ops[1..], op, d);
    }
  }

  /** With more than one model, exactly one directory is left afterwards,
      `root/0`, whatever the listing held. */
  lemma KeepLeavesOneModel(root: string, all: seq<ModelDir>, kept: Kept)
    requires |all| > 1 && KeptFrom(root, all, kept)
    ensures Apply(kept.ops, set m | 0 <= m < |all| :: all[m].path) == {Join(root, "0")}
  {
    var s :| IsChosen(all, s) && kept.ops == Removals(all, all[s].path) + [Rename(all[s].path, Join(root, "0"))];
    var keep := all[s].path;
    var dirs := set m | 0 <= m < |all| :: all[m].path;
    RemovalsLeaveKept(all, keep, dirs);
    assert keep in dirs;
    assert dirs * {keep} == {keep};
    ApplyAppend(Removals(all, keep), Rename(keep, Join(root, "0")), dirs);
    assert Apply([Rename(keep, Join(root, "0"))], {keep}) == {Join(root, "0")};
  }

  /** With exactly one model nothing is removed or renamed. */
  lemma KeepSingleModelUntouched(root: string, all: seq<ModelDir>, kept: Kept)
    requires |all| == 1 && KeptFrom(root, all, kept)
    ensures kept.ops == [] && kept.maxImages == all[0].numImages.value
  {
  }
}

=== FILE: wrappers.dfy ===
/** Failure-carrying datatypes shared by every module of the model, and the
    Python errors that the modelled code can raise instead of returning. */
module Wrappers {

  datatype Option<+T> = None | Some(value: T)

  /** The exceptions of the modelled Python code that escape to its caller. */
  datatype PyError =
    | IndexError     // a list index outside the list
    | KeyError       // `del d[k]` or `d[k]` for a key that is not in the dict
    | LoadError      // a reconstruction that cannot be read (outside the `try`)
    | UnsupportedSource

  datatype Result<+R> = Success(value: R) | Failure(error: PyError) {
    predicate IsFailure() {
      Failure?
    }

    function PropagateFailure<U>(): Result<U>
      requires Failure?
    {
      Failure(error)
    }

    function Extract(): R
      requires Success?
    {
      value
    }
  }

  /** Python's `s[i]`: negative indices count from the end, anything else
      outside the list raises IndexError. */
  function PyAt<T>(s: seq<T>, i: int): (r: Result<T>)
    ensures 0 <= i < |s| ==> r == Success(s[i])
    ensures -|s| <= i < 0 ==> r == Success(s[|s| + i])
    ensures r.Failure? <==> !(-|s| <= i < |s|)
    ensures r.Failure? ==> r.error == IndexError
  {
    if 0 <= i < |s| then Success(s[i])
    else if -|s| <= i < 0 then Success(s[|s| + i])
    else Failure(IndexError)
  }

  /** Python's slice `s[a:b]` for non-negative bounds: bounds past the end are
      clamped, and an empty slice results when `a >= b`. */
  function PySlice<T>(s: seq<T>, a: nat, b: nat): (r: seq<T>)
    ensures |r| == if a < b && a < |s| then (if b < |s| then b else |s|) - a else 0
    ensures forall k :: 0 <= k < |r| ==> r[k] == s[a + k]
  {
    var hi := if b < |s| then b else |s|;
    if a < hi then s[a..hi] else []
  }
}
